=== FILE: README.md ===
# A verified model of the otome phone simulator's core

The repository is a browser "phone" for an otome game. Its home screen holds
a grid of app icons that the player can rearrange. Its WeChat-like chat app
talks to an AI companion through an OpenAI-compatible endpoint, and a
settings store keeps the endpoint configuration, the worldbooks (lore the
companion must respect), the contacts' personas and the emoji groups. This
project models the logic of four parts and proves what each promises:

- **The chat screen** (`src/screens/wechat/WeChatScreen.tsx`). The model
  covers these behaviours:
  - the player's messages and the "last id + 1" numbering;
  - the reply turn and the prompt it builds (a fixed persona line, then the
    worldbook, identity, addressing and role segments that apply, then the
    history);
  - the cutting of the reply into chat bubbles and the pause after each;
  - the reveal steps, which append each bubble to the screen and to the
    contact's stored log;
  - the rewrite of the stored log once the reply has been shown;
  - the unread counters;
  - opening a conversation, including the backfill of missing timestamps
    and the opening-line fallback;
  - "clear chat";
  - the day-bucketed time labels and the five-minute separator rule;
  - the "new contact" form.

  The screen is the class `WeChat.WeChatScreen`. Browser storage is two of
  its fields: one map for the conversation slots and one for the unread
  counters. Every handler and effect is a method whose `ensures` states
  the whole new state.
- **The AI client** (`src/services/aiClient.ts`). The model covers base-URL
  normalisation, the configuration checks, the fallback chain that
  extracts the reply, the error messages, and the mapping of the model
  list. The HTTP exchange is a parameter.
- **The settings store** (`src/context/SettingsContext.tsx`). The model
  covers every patch operation, the `worldbookText` renderer, and the
  migration of legacy data on load. The migration's pass over the stored
  contacts is a loop. The model also proves that saving and then loading
  gives the state back.
- **The home screen** (`src/screens/home/HomeScreen.tsx`). The model covers
  reconciling the stored icon order with the known apps, the drag reorder
  (a splice pair on an array), and the mapping from ids to apps.

The model follows the code as written, including these behaviours:

- A reply turn compares its target with the conversation id it captured
  when it started. So while a turn runs, the unread branch is never taken.
- The final rewrite of the stored log starts from the list captured before
  the turn's own message was added. So that message is not in the
  rewritten log.
- When storage holds no icon order, the home screen never marks the order
  as loaded. So later reorders are not saved.
- A contact created without an opening line gets the default opening line
  on the next reload.

Each of these is stated in a contract or a lemma below.

Modules:

| file | module | models |
|---|---|---|
| wrappers.dfy | Wrappers | Option and Result |
| text.dfy | Text | JavaScript white space and `trim`, `split("\n")`, `join`, number printing and `parseInt` |
| seqs.dfy | Seqs | filter, subsequence and multiset facts |
| ai_client.dfy | AiClient | aiClient.ts |
| settings.dfy | Settings | the settings state and its patch operations |
| settings_migration.dfy | SettingsMigration | the initial load with its migration, and the save |
| chat_log.dfy | ChatLog | chat messages and the id rule |
| chat_time.dfy | ChatTime | time labels and separators |
| chat_prompt.dfy | ChatPrompt | the prompt of a reply turn |
| chat_segments.dfy | ChatSegments | reply bubbles and their pauses |
| wechat.dfy | WeChat | the chat screen's state and handlers |
| contacts.dfy | Contacts | the "new contact" form |
| home.dfy | Home | the home screen's icon order |

## Model

| member | source | states |
|---|---|---|
| AiClient.RemoveWhitespace | src/services/aiClient.ts:14 | the result holds no white space, is never longer than the input, and is the input itself when the input had none |
| AiClient.StripTrailingSlashes | src/services/aiClient.ts:16 | the result is a prefix of the input that does not end with '/', and everything removed was a slash |
| AiClient.StripWithoutTrailingSlash | src/services/aiClient.ts:16 | a string that does not end with '/' is left as it is |
| AiClient.RemoveCompletionsSuffix | src/services/aiClient.ts:15 | the suffix replace only ever cuts the URL: what is left is a prefix of it |
| AiClient.BuildRootAndChatUrl | src/services/aiClient.ts:13-19 | the chat URL is always the root followed by "/chat/completions"; the root holds no white space, does not end with '/', and is a prefix of the white-space-free base URL |
| AiClient.ChatCompletionsSuffixRemoved | src/services/aiClient.ts:14-16 | a base URL ending in a slash run, "chat/completions" in any letter case, and any trailing slashes has a root equal to the part before the suffix, without its trailing slashes |
| AiClient.CompletionsSuffixRemoved | src/services/aiClient.ts:14-16 | the same for a "completions" suffix, unless that suffix is really the tail of "/chat/completions" |
| AiClient.NotChatCompletions | src/services/aiClient.ts:15 | a "completions" suffix matches the longer keyword only when exactly one slash sits between it and a preceding "/chat" |
| AiClient.KeywordEndsWithCompletions | src/services/aiClient.ts:15 | whichever keyword matches, the URL ends with "/completions" in some letter case |
| AiClient.NoSuffixKeptAsIs | src/services/aiClient.ts:14-16 | a base URL that does not end with "/completions" only loses its white space and its trailing slashes |
| AiClient.ExampleEndpoint | src/services/aiClient.ts:13-19 | "https://api.x.com/v1/chat/completions/" has the root "https://api.x.com/v1" |
| AiClient.StatusErrorMessage | src/services/aiClient.ts:43-46 | the message of a failed status contains both the status code and the response text; the same holds for the model-list request at lines 74-77 |
| AiClient.ChatRequestFor | src/services/aiClient.ts:29-41 | the POST goes to a URL without white space that ends in a single slash followed by "chat/completions"; what precedes that slash is a prefix of the white-space-free base URL; the body is declared as JSON (`Content-Type: application/json`), the key is sent as a Bearer token, and the body holds the configured model and the messages unchanged |
| AiClient.ModelsRequestFor | src/services/aiClient.ts:64-72 | the GET goes to a URL without white space that ends in a single slash followed by "models"; what precedes that slash is a prefix of the white-space-free base URL; the key is sent as a Bearer token, and there is neither a Content-Type header nor a body |
| AiClient.RequestsShareRoot | src/services/aiClient.ts:64-65 | the model list is fetched from the same root as the completions, whatever form the base URL takes |
| AiClient.ExtractReply | src/services/aiClient.ts:48-54 | extraction fails only with the empty-reply error |
| AiClient.ReplyFallbackChain | src/services/aiClient.ts:49-54 | the reply is the first of `choices[0].message.content`, `message.content` and `content` that is neither null nor undefined; a present but falsy earlier value does not fall through; a falsy or missing result is the empty-reply error |
| AiClient.ExampleReply | src/services/aiClient.ts:49-50 | an OpenAI-style body gives its first choice's message content |
| AiClient.SendChatRequest | src/services/aiClient.ts:21-57 | it fails with the missing-configuration error exactly when the base URL, the key or the model is empty, and then no request is made. Otherwise the answer to the POST that `ChatRequestFor` builds decides: an unreachable endpoint gives the network error; a failed status gives the status error; a body that is not JSON gives the parser's error; a parsed body gives exactly what `ExtractReply` gives, so a success is never falsy |
| AiClient.SpreadFields | src/services/aiClient.ts:85-88 | `...m` copies an object's fields, an array's elements and a string's characters under their index keys, and nothing for any other value |
| AiClient.ModelEntry | src/services/aiClient.ts:85-88 | an entry has every key of the spread model plus "id", and the spread's fields override the computed id |
| AiClient.ModelEntryId | src/services/aiClient.ts:86-87 | the id is the model's own `id`, else its non-null `name`, else "unknown-model" |
| AiClient.ModelList | src/services/aiClient.ts:80 | the list is `data`, or `models` when `data` is null or undefined |
| AiClient.FetchModels | src/services/aiClient.ts:59-89 | it fails with the missing-configuration error exactly when the base URL or the key is empty, and then no request is made. Otherwise the answer to the GET that `ModelsRequestFor` builds decides: an unreachable endpoint gives the network error; a failed status gives the status error; a body that is not JSON gives the parser's error. A parsed body succeeds exactly when its list is a non-empty array without `null` entries, and a success has one entry per element of the list, in order, each mapped as ModelEntry describes |
| AiClient.UnusableModelListErrors | src/services/aiClient.ts:80-88 | a list that is not an array, or is empty, gives the no-models error; a non-empty list with a `null` entry fails where the mapping reads that entry's `id` |
| Settings.PatchProfileIdempotent | src/context/SettingsContext.tsx:262-285 | spreading the same profile patch twice is spreading it once |
| Settings.SetWallpaper | src/context/SettingsContext.tsx:229 | only the wallpaper changes |
| Settings.UpdateAiConfig | src/context/SettingsContext.tsx:230-231 | exactly the patched fields of the endpoint configuration change; nothing else in the state does |
| Settings.AddWorldbookEntry | src/context/SettingsContext.tsx:232-249 | exactly one book is appended, with the given title and one item whose title is the given title or "条目" when that is empty, and whose content is the given content; the books before it and the rest of the state stay |
| Settings.UpdateWorldbookEntry | src/context/SettingsContext.tsx:250-256 | the books with the matching id take the patch; every other book stays at its place |
| Settings.RemoveWorldbookEntry | src/context/SettingsContext.tsx:257-261 | a book remains exactly when it was there and its id differs |
| Settings.RemoveWorldbookEntryKeepsOrder | src/context/SettingsContext.tsx:257-261 | the remaining books keep their relative order, and as many are removed as carried the id |
| Settings.UpdateChatProfile | src/context/SettingsContext.tsx:262-285 | the patch is spread over the existing profile, or over the default profile when there is none; the key set gains the id; every other profile and the rest of the state stay |
| Settings.UpdateUserProfile | src/context/SettingsContext.tsx:286-290 | the emoji groups are the patched ones or the old ones; nothing outside the user profile changes |
| Settings.AddEmojiGroup | src/context/SettingsContext.tsx:291-304 | one empty group with the fresh id is appended, and that same id is returned |
| Settings.UpdateEmojiGroup | src/context/SettingsContext.tsx:305-314 | only the groups with the matching id take the patch |
| Settings.RemoveEmojiGroup | src/context/SettingsContext.tsx:315-322 | exactly the groups with that id go; the rest keep their relative order, and as many groups go as carried the id, so every copy of a kept group stays |
| Settings.AddEmoji | src/context/SettingsContext.tsx:323-336 | the emoji with the fresh id is appended to each matching group; every other group stays identical |
| Settings.AddEmojiToMissingGroup | src/context/SettingsContext.tsx:323-336 | adding an emoji to a group that does not exist changes nothing |
| Settings.UpdateEmoji | src/context/SettingsContext.tsx:337-353 | inside the matching groups, only the emojis with the matching id take the patch; the group's id and name and the other groups stay |
| Settings.RemoveEmoji | src/context/SettingsContext.tsx:354-365 | inside the matching groups, exactly the emojis with that id go; the remaining emojis keep their relative order and as many go as carried the id; the other groups stay identical |
| Settings.RenderItem | src/context/SettingsContext.tsx:218 | an item's line contains its content |
| Settings.WorldbookTextShowsEveryItem | src/context/SettingsContext.tsx:215-222 | every item of every book appears in the worldbook text as its own line, starting after a newline and ending before a newline or at the end of the text, so its content is never lost |
| SettingsMigration.MigrateGlobalBook | src/context/SettingsContext.tsx:119-133 | a missing id becomes "wb-" and the position; present entries are kept, even an empty list; a book without entries becomes one item holding its content |
| SettingsMigration.MigrateProfileBook | src/context/SettingsContext.tsx:139-153 | the same for a contact's book: the default id carries the contact's key, and the one-item fallback is always titled "条目" |
| SettingsMigration.MigrateProfile | src/context/SettingsContext.tsx:170-186 | every stored field is kept and every missing one takes its default: the key for the id, "" for the remark, the avatar URL and the player's identity, "🌙" for the avatar, "你" for the form of address, and the default persona, chat style and opening line |
| SettingsMigration.BareProfileIsBlank | src/context/SettingsContext.tsx:170-186 | a stored profile with every field missing loads as the blank profile that `updateChatProfile` starts from |
| SettingsMigration.LegacySingleOnlyWhenNoBooks | src/context/SettingsContext.tsx:139-185 | the legacy single worldbook string is used exactly when the contact's book list normalises to nothing; otherwise the books are kept one by one |
| SettingsMigration.MigrateProfiles | src/context/SettingsContext.tsx:135-188 | the pass over the stored keys replaces every profile by its migrated form |
| SettingsMigration.MergeUserProfile | src/context/SettingsContext.tsx:195-199 | the merged user profile always has an avatar URL |
| SettingsMigration.Migrated | src/context/SettingsContext.tsx:112-204 | empty or unreadable storage gives the default state; otherwise every stored book is kept and the stored contacts keep their keys |
| SettingsMigration.LoadSettings | src/context/SettingsContext.tsx:112-204 | the initial load computes exactly the migrated state |
| SettingsMigration.ProfileRoundTrip | src/context/SettingsContext.tsx:135-188 | a saved profile with every optional field present loads back unchanged |
| SettingsMigration.ProfilesRoundTrip | src/context/SettingsContext.tsx:135-188 | the same for every saved profile at once |
| SettingsMigration.BooksRoundTrip | src/context/SettingsContext.tsx:119-133 | saved global books load back unchanged |
| SettingsMigration.SaveThenLoad | src/context/SettingsContext.tsx:112-212 | loading what was saved gives the saved state back when no optional field was undefined |
| SettingsMigration.LoadIsStable | src/context/SettingsContext.tsx:112-212 | every loaded state has all optional fields, so saving and loading it again changes nothing |
| SettingsMigration.DefaultProfilesSurviveMigration | src/context/SettingsContext.tsx:135-188 | with no stored contacts, the migration pass yields the default contacts |
| SettingsMigration.ReloadFillsOpeningLine | src/context/SettingsContext.tsx:182-184 | a contact saved without an opening line comes back with the default opening line, and nothing else about it changes |
| ChatLog.NextId | src/screens/wechat/WeChatScreen.tsx:101 | the next id is 1 for an empty list and otherwise larger than the last id |
| ChatLog.NextIdKeepsIdsIncreasing | src/screens/wechat/WeChatScreen.tsx:101 | appending with the next id keeps the ids strictly increasing, and the new id exceeds every earlier one |
| ChatLog.NextIdNumbersFromOne | src/screens/wechat/WeChatScreen.tsx:101 | a list built only by appending with the next id is numbered 1, 2, 3, ... |
| ChatLog.UserMessage | src/screens/wechat/WeChatScreen.tsx:94-103 | the player's message carries the text and the time, and its id is larger than the last id |
| ChatTime.HourMinuteIsPadded | src/screens/wechat/WeChatScreen.tsx:26-27 | the time of day is the hours and the minutes, each padded to two digits, around a colon |
| ChatTime.LabelEndsWithTime | src/screens/wechat/WeChatScreen.tsx:21-73 | every label ends with the time of day, and the label is only the time of day exactly for a message from today |
| ChatTime.YearShownIffEarlierYear | src/screens/wechat/WeChatScreen.tsx:29-34 | the year appears exactly for messages from an earlier year |
| ChatTime.MonthShownIffOld | src/screens/wechat/WeChatScreen.tsx:29-50 | the month appears exactly for an earlier year or more than seven days back |
| ChatTime.WeekdayShownIff | src/screens/wechat/WeChatScreen.tsx:52-72 | the weekday appears exactly for this year's messages two to seven days back, or with a negative day difference |
| ChatTime.DayLabels | src/screens/wechat/WeChatScreen.tsx:21-73 | yesterday's label is "昨天" and the time; the day before's starts with "前天 星期", then its weekday, and ends with the time; "昨" appears only for yesterday and "前" only for the day before |
| ChatTime.ClockLabelFormat | src/screens/wechat/WeChatScreen.tsx:97-100 | a clock label is two digits, a colon and two digits |
| ChatTime.OnlyFirstSeparatorWithoutGaps | src/screens/wechat/WeChatScreen.tsx:736-740 | when consecutive messages are at most five minutes apart, only the first gets a time separator |
| ChatTime.MissingTimeSeparators | src/screens/wechat/WeChatScreen.tsx:737-740 | a message without a time, after one with a time of 0 or later, never gets a separator; a message more than five minutes after the epoch, after one without a time, always does |
| ChatPrompt.SegmentKinds | src/screens/wechat/WeChatScreen.tsx:148-191 | each system segment begins with its own fixed lead, so the persona, worldbook, identity, addressing and role segments can be told apart |
| ChatPrompt.SystemPromptOrder | src/screens/wechat/WeChatScreen.tsx:148-191 | the system part is the persona line, then exactly the segments whose condition holds, in the fixed order worldbook, identity, addressing, role |
| ChatPrompt.OptionalKindsIncrease | src/screens/wechat/WeChatScreen.tsx:154-190 | each optional segment appears at most once, in the fixed order: worldbooks iff the contact has some, identity iff `myIdentity` is set, addressing iff `callMeAs` is set, role iff the character identity or the chat style is set |
| ChatPrompt.WorldbookSegmentShowsEveryItem | src/screens/wechat/WeChatScreen.tsx:154-167 | the worldbook segment starts with the rule that puts the worldbooks first, and contains every item of every book as its own `- title：content` line, starting after a newline and ending before a newline or at the end of the segment |
| ChatPrompt.ReplyPromptShape | src/screens/wechat/WeChatScreen.tsx:194-218 | the prompt is the system segments as system messages, then the history (the stored log when it is a non-empty list, else the list on screen) with the turn's message last; each history message keeps its text and speaks as the user exactly when the player wrote it |
| ChatPrompt.ExtraMessageLast | src/screens/wechat/WeChatScreen.tsx:211 | the turn's own message is the last thing the prompt says, as the user |
| ChatSegments.SegmentsAreCleanLines | src/screens/wechat/WeChatScreen.tsx:222-226 | splitting at blank-line runs and then at newlines gives, once cleaned, the non-blank lines of the reply, trimmed, in order |
| ChatSegments.SegmentsAreClean | src/screens/wechat/WeChatScreen.tsx:222-226 | every bubble is non-empty, already trimmed and a single line |
| ChatSegments.SingleLineReply | src/screens/wechat/WeChatScreen.tsx:222-226 | a non-blank one-line reply is exactly one bubble, the trimmed reply |
| ChatSegments.RevealDelay | src/screens/wechat/WeChatScreen.tsx:326-327 | the pause lies in [400, 6000] ms: 400 + 35 per unit up to 160 units, and 6000 beyond |
| ChatSegments.DelayGrowsWithLength | src/screens/wechat/WeChatScreen.tsx:326-327 | a longer bubble never waits less |
| ChatSegments.Pauses | src/screens/wechat/WeChatScreen.tsx:326-329 | a reply has one pause per bubble, each its bubble's delay |
| WeChat.StoredAfterReveal | src/screens/wechat/WeChatScreen.tsx:290-308 | a reveal step adds exactly one message from the contact to the target's stored list, numbered after its last message, and keeps the earlier ones; a missing slot becomes a one-message list; every other slot stays |
| WeChat.RevealedKeepsList | src/screens/wechat/WeChatScreen.tsx:273-287 | revealing keeps the list it started from |
| WeChat.RevealedBubbles | src/screens/wechat/WeChatScreen.tsx:263-287 | revealing appends one message from the contact per bubble, with the bubble's text and the time it appeared |
| WeChat.RevealedIdsIncreasing | src/screens/wechat/WeChatScreen.tsx:275 | revealing keeps the message ids strictly increasing |
| WeChat.FinalLogShape | src/screens/wechat/WeChatScreen.tsx:233-256 | the rewritten log is the captured list, then one message from the contact per bubble with id equal to its position plus one |
| WeChat.FinalLogOmitsExtra | src/screens/wechat/WeChatScreen.tsx:211-252 | the turn's own message is never in the rewritten log |
| WeChat.PositiveCount | src/screens/wechat/WeChatScreen.tsx:350-354 | a stored counter is kept only when it parses to a number above 0 |
| WeChat.ParsedCounts | src/screens/wechat/WeChatScreen.tsx:346-370 | a contact has a counter exactly when its stored text parses to a number above 0 |
| WeChat.CountReadsBack | src/screens/wechat/WeChatScreen.tsx:346-356 | a counter written as text reads back as itself, and "0" reads back as no counter |
| WeChat.ResetSurvivesReload | src/screens/wechat/WeChatScreen.tsx:373-385 | after a reset to "0", the next load shows every other counter as before and none for that contact |
| WeChat.BackfillOrder | src/screens/wechat/WeChatScreen.tsx:399-416 | backfilling touches only messages without a usable time and keeps their id, sender and text; the filled times are at least one minute apart in list order and never after now |
| WeChat.BackfillKeepsTimedList | src/screens/wechat/WeChatScreen.tsx:401-402 | a list whose messages all carry a time loads unchanged |
| WeChat.SaveThenLoad | src/screens/wechat/WeChatScreen.tsx:388-416 | saving a conversation whose messages all carry a time and opening it again shows the same list |
| WeChat.ClearThenLoad | src/screens/wechat/WeChatScreen.tsx:907-923 | after "clear chat" and the persisting effect that writes the cleared list back, opening the conversation again shows what an absent slot shows: the same opening message, now with the time of opening |
| WeChat.Backfill | src/screens/wechat/WeChatScreen.tsx:399-414 | the loop with the moving clock computes the backfilled list |
| WeChat.WeChatScreen.constructor | src/screens/wechat/WeChatScreen.tsx:76-92 | the screen starts with no messages, no queue, no counters, no open conversation, not busy, and no error, over the given storage |
| WeChat.WeChatScreen.SelectChat | src/screens/wechat/WeChatScreen.tsx:944-949 | the open conversation becomes the given one |
| WeChat.WeChatScreen.PushUserMessage | src/screens/wechat/WeChatScreen.tsx:105-108 | the message is shown and joins the queue of turns not yet answered |
| WeChat.WeChatScreen.EnqueueUserMessage | src/screens/wechat/WeChatScreen.tsx:110-115 | blank input changes nothing; otherwise the trimmed text is shown and queued as the player's message with the next id, and increasing ids stay increasing |
| WeChat.WeChatScreen.TriggerReply | src/screens/wechat/WeChatScreen.tsx:117-146 | a busy screen ignores the call; the non-blank trimmed text is added as the player's message; a turn starts exactly when something is queued or added, and it fixes its target, the list captured before the turn's message, the persona, the stored slot and the turn's message |
| WeChat.WeChatScreen.StartRun | src/screens/wechat/WeChatScreen.tsx:131-146 | the error line is cleared, the screen is busy, and the target is the open conversation or the built-in friend |
| WeChat.WeChatScreen.ShowSegment | src/screens/wechat/WeChatScreen.tsx:263-324 | the bubble is shown exactly when the current conversation is the target; it is always added to the target's stored log; the target's counter rises by one, in memory and in storage, exactly when the current conversation is another one |
| WeChat.WeChatScreen.RevealSegments | src/screens/wechat/WeChatScreen.tsx:228-330 | with the captured conversation as the current one, every bubble is shown in order and no unread counter moves. Only the target's slot changes: a stored list gains every bubble, numbered as on screen; a missing slot is created by the first bubble; a slot holding JSON that is neither an array nor a string, or text that is not JSON, stays as it was. The pauses are the bubbles' delays |
| WeChat.WeChatScreen.DeliverReply | src/screens/wechat/WeChatScreen.tsx:220-342 | a failed request, or a reply that is not a string, shows its error and ends the turn with nothing else changed; a reply is revealed bubble by bubble and then ends the turn with an empty queue; the target's slot is rewritten with the captured list and the bubbles, or left alone when there are none; no unread counter moves |
| WeChat.WeChatScreen.FinishReply | src/screens/wechat/WeChatScreen.tsx:229-260 | an empty bubble list ends the turn with nothing written; otherwise the bubbles are revealed, the slot is rewritten, and the turn ends with an empty queue |
| WeChat.WeChatScreen.LoadUnreadCounts | src/screens/wechat/WeChatScreen.tsx:346-370 | the counters shown are exactly the stored ones, for the contacts and the built-in friend, that parse to a number above 0 |
| WeChat.WeChatScreen.CountStep | src/screens/wechat/WeChatScreen.tsx:349-356 | reading one more contact's counter extends the counters of the contacts read so far |
| WeChat.WeChatScreen.ResetUnread | src/screens/wechat/WeChatScreen.tsx:373-385 | opening a conversation stores "0" for it and drops its counter from the screen; every other counter stays |
| WeChat.WeChatScreen.LoadMessages | src/screens/wechat/WeChatScreen.tsx:388-438 | a non-empty stored list is shown backfilled; unreadable storage shows nothing; otherwise the trimmed opening line, if any, is the contact's first message |
| WeChat.WeChatScreen.Persist | src/screens/wechat/WeChatScreen.tsx:470-480 | the list on screen is written to the open conversation's slot |
| WeChat.WeChatScreen.ClearChat | src/screens/wechat/WeChatScreen.tsx:907-923 | the slot is removed, and only the opening line, without a time, stays on screen |
| Contacts.ContactId | src/screens/wechat/WeChatScreen.tsx:1216 | a new contact's id starts with "friend_" |
| Contacts.ContactIdsDiffer | src/screens/wechat/WeChatScreen.tsx:1216 | contacts created at different milliseconds get different ids |
| Contacts.CreateContact | src/screens/wechat/WeChatScreen.tsx:1211-1228 | creation is refused, with the required-fields message, exactly when the remark, the player's identity or the contact's identity is blank; otherwise the new id is returned, it joins the contacts, and nothing else in the settings changes |
| Contacts.CreatedProfile | src/screens/wechat/WeChatScreen.tsx:1217-1226 | the stored profile holds the trimmed fields, "你" for a blank addressing, no opening line for a blank one, and no worldbooks; the required fields are non-empty; every other contact stays |
| Contacts.CreatedFieldsTrimmed | src/screens/wechat/WeChatScreen.tsx:1219-1222 | the created profile's text fields are already trimmed |
| Contacts.CreatedContactOpening | src/screens/wechat/WeChatScreen.tsx:1224 | the new conversation opens with the trimmed opening line, or with nothing when it was blank |
| Contacts.CreatedContactAfterReload | src/screens/wechat/WeChatScreen.tsx:1224 | a new contact without an opening line has the default opening line once the settings are saved and loaded again |
| Home.DefaultOrderIsAppIds | src/screens/home/HomeScreen.tsx:8-23 | the default order is the app ids in their order, without duplicates |
| Home.FindApp | src/screens/home/HomeScreen.tsx:60 | an id finds an app exactly when it is a known id, and then the app carries that id |
| Home.Reconcile | src/screens/home/HomeScreen.tsx:41-43 | the reconciled order contains exactly the known ids |
| Home.ReconcileKeepsStoredOrder | src/screens/home/HomeScreen.tsx:41-43 | the known stored ids come first, in their stored relative order, followed by exactly the apps the stored list lacks, in default order |
| Home.ReconcileEmpty | src/screens/home/HomeScreen.tsx:36-43 | an empty stored list gives the default order |
| Home.ReconcileIsPermutation | src/screens/home/HomeScreen.tsx:41-43 | a stored list without duplicates reconciles to a permutation of the app ids |
| Home.IndexOf | src/screens/home/HomeScreen.tsx:111-112 | the index is -1 exactly when the id is absent, and otherwise the first position holding it |
| Home.MoveAt | src/screens/home/HomeScreen.tsx:114-115 | after a move, the target holds the moved element and the elements between the two places shift by one |
| Home.MoveIsPermutation | src/screens/home/HomeScreen.tsx:114-115 | a move keeps every element with its multiplicity |
| Home.MoveLandsAtTarget | src/screens/home/HomeScreen.tsx:114-115 | the moved element lands at the target index, and the others keep their relative order |
| Home.MoveInPlace | src/screens/home/HomeScreen.tsx:110-116 | the splice pair on the array performs the move |
| Home.OrderedApps | src/screens/home/HomeScreen.tsx:59-61 | only known apps are shown, never more than the order has |
| Home.OrderedAppsFollowOrder | src/screens/home/HomeScreen.tsx:59-61 | the apps shown are exactly the known ids of the order, in order |
| Home.HomeScreen.constructor | src/screens/home/HomeScreen.tsx:23-26 | the screen starts with the default order, not loaded, and no drag source |
| Home.HomeScreen.RestoreOrder | src/screens/home/HomeScreen.tsx:36-48 | an empty slot changes nothing, and the order stays unloaded; an unreadable slot only marks the order as loaded; a stored list is reconciled and marks it as loaded |
| Home.HomeScreen.SaveOrder | src/screens/home/HomeScreen.tsx:50-57 | the order is written only once it is loaded |
| Home.HomeScreen.DragStart | src/screens/home/HomeScreen.tsx:101-103 | the dragged id becomes the drag source |
| Home.HomeScreen.DragEnd | src/screens/home/HomeScreen.tsx:120-122 | the drag source is cleared |
| Home.HomeScreen.DragOver | src/screens/home/HomeScreen.tsx:105-118 | nothing changes without a drag source, over the source itself, or when either id is missing; otherwise the source moves to the target's index |
| Home.DragOverSummary | src/screens/home/HomeScreen.tsx:105-118 | a drag keeps the same ids, puts the dragged one at the target's old index, and keeps the others in their old relative order |

## Left out

- The HTTP exchange (`fetch`, `response.text()`, `response.json()`) is a parameter: a function from the request to an `HttpOutcome`, which is an unreachable endpoint, or a status with the body as text and as parsed JSON. JSON text is not modelled. A storage slot holds one of: nothing, something unreadable, or an already-parsed value. Saving the settings is a function from the state to that parsed value.
- Timers are not modelled: the `setTimeout` chain of reveal steps, the 500 ms polling of the open conversation, the 30 s clock refresh and the long-press timer. The reveal steps run back to back, and the time each step reads is a parameter, `clock(i)`.
- The `storage` event listener is not modelled. It re-reads a slot written by another tab, and there is only one tab here.
- React's scheduling of state updates and effects is not modelled. Each handler and effect is one method, and the transient writes caused by effect ordering are not modelled.
- The host's clock and time zone are parameters. `Date.now()` is a number. The local time of a timestamp is the `Zone` function. `formatChatTimeLabel` takes the message's calendar fields, the current year and the day difference, so `Math.floor` over daylight-saving days is not modelled.
- Fresh ids from `Date.now()` and `Math.random()` (`genId`) are parameters of the settings operations.
- Sticker matching and voice-message transcripts are not modelled. The voice modal only feeds text to the same reply turn.
- The rendering is not modelled: JSX, modals, scrolling, chat previews (`getPreview`), avatars, and the mode and tab set after a contact is created.
- `ChatTime.NeedTime`: the separator is also hidden when the displayed label is empty. Only the `needTime` rule is modelled.
- Profiles stored as `null` are not modelled, nor are null-valued fields. Their `??` fallbacks are modelled as a missing field, but a `null` profile is not.
- A `null` element of a stored worldbook list (global or a contact's) is not modelled. Reading its `id` throws, and the whole load falls back to the default state. The model has no `null` book, so such a slot counts as unreadable (`Unparsable`), which gives that same default state.
- JavaScript numbers are modelled as unbounded integers. Precision loss above 2^53 is not modelled.
- The `input` field and its reset after sending are not modelled. The text of the input box is a parameter of `TriggerReply`.
- An empty-string conversation slot is not modelled. The source reads it as no slot: a reveal step would create the list, and loading would show the opening line. The model has no such value, so an empty slot could only be read as unreadable (`Unparsable`). The app itself never writes an empty string there.
- A conversation slot holding a JSON string is not modelled. In the source, a reveal step would read the string's length as the list's length, give the new message a NaN id (stored as `null`), and spread the string's characters into the stored list. The app itself never writes a string there. The model reads such a slot as `NotAList`, which a reveal leaves as it was.
- Lone UTF-16 surrogates are not modelled. `Text.Utf16Length` counts characters outside the Basic Multilingual Plane as two units.
- `Settings.UpdateUserProfile`: states only the emoji groups and that nothing outside the user profile changes, not the other spread fields, because no property of the source depends on them.
- `SettingsMigration.Migrated`: a stored object with unexpected extra fields keeps them in the source (`...parsed`). The model has no such fields.

=== FILE: ai_client.dfy ===
/** The completion client of src/services/aiClient.ts: endpoint
    normalisation, the configuration checks, the reply-field fallback chain
    and the model-list mapping. The HTTP exchange itself is not modelled:
    the transport is a parameter (`fetch`, from the request that
    `ChatRequestFor`/`ModelsRequestFor` build to an `HttpOutcome`). */
module AiClient {
  import opened Wrappers
  import opened Text
  import opened Settings

  // ---------------------------------------------------------------- JSON

  /** A parsed JSON value. Numbers are integers here. */
  datatype Json =
    | JNull
    | JBool(b: bool)
    | JNum(n: int)
    | JStr(s: string)
    | JArr(items: seq<Json>)
    | JObj(fields: map<string, Json>)

  /** `v?.key`: None is `undefined`. Property access on anything but an
      object yields `undefined` for the keys this client reads. */
  function Field(v: Option<Json>, key: string): (r: Option<Json>)
    ensures r.Some? ==> v.Some? && v.value.JObj? && key in v.value.fields && r.value == v.value.fields[key]
  {
    if v.Some? && v.value.JObj? && key in v.value.fields then Some(v.value.fields[key]) else None
  }

  /** `v?.[0]`. */
  function First(v: Option<Json>): Option<Json> {
    if v.None? then None
    else match v.value
      case JArr(items) => if |items| > 0 then Some(items[0]) else None
      case JObj(fields) => if "0" in fields then Some(fields["0"]) else None
      case JStr(s) => if |s| > 0 then Some(JStr([s[0]])) else None
      case _ => None
  }

  /** `null` or `undefined`, the values `??` skips. */
  predicate Nullish(v: Option<Json>) {
    v.None? || v.value.JNull?
  }

  /** `a ?? b`. */
  function Coalesce(a: Option<Json>, b: Json): Json {
    if Nullish(a) then b else a.value
  }

  /** JavaScript falsiness of a JSON value (`NaN` does not occur here). */
  predicate Falsy(v: Json) {
    v.JNull? || v == JBool(false) || v == JNum(0) || v == JStr("")
  }

  // ---------------------------------------------------------------- errors

  datatype ClientError =
    | MissingChatConfig
    | MissingModelsConfig
    | NetworkFailure(message: string)
    | RequestFailed(status: nat, body: string)
    | ModelsRequestFailed(status: nat, body: string)
    | InvalidJson(message: string)
    | EmptyReply
    | NoModels
    | NullModelEntry
  {
    /** The `Error` message the client throws. */
    function Message(): string {
      match this
      case MissingChatConfig => "缺少 AI 配置：请在 设置 → AI 接口配置 中填好信息。"
      case MissingModelsConfig => "请先填写 API Base URL 和 API Key。"
      case NetworkFailure(m) => m
      case RequestFailed(st, b) => "请求失败：" + NatToString(st) + " " + b
      case ModelsRequestFailed(st, b) => "拉取模型失败：" + NatToString(st) + " " + b
      case InvalidJson(m) => m
      case EmptyReply => "AI 没有返回内容，请检查接口格式是否兼容 OpenAI 风格。"
      case NoModels => "接口返回中没有发现模型列表，请确认是否为 OpenAI 兼容接口。"
      case NullModelEntry => "Cannot read properties of null (reading 'id')"
    }
  }

  /** A failed HTTP status is reported with the status code and the
      response text both in the message. */
  lemma StatusErrorMessage(e: ClientError)
    requires e.RequestFailed? || e.ModelsRequestFailed?
    ensures IsInfix(NatToString(e.status), e.Message())
    ensures IsInfix(e.body, e.Message())
  {
    var m := e.Message();
    var prefix := if e.RequestFailed? then "请求失败：" else "拉取模型失败：";
    assert m == prefix + NatToString(e.status) + " " + e.body;
    assert InfixAt(NatToString(e.status), m, |prefix|);
    assert InfixAt(e.body, m, |m| - |e.body|);
  }

  // ---------------------------------------------------------------- endpoint

  /** No character of `s` is white space. */
  predicate NoSpace(s: string) {
    forall i :: 0 <= i < |s| ==> !IsJsSpace(s[i])
  }

  /** `s.replace(/\s+/g, "")`: every white-space character removed, and
      nothing else. */
  function RemoveWhitespace(s: string): (r: string)
    ensures NoSpace(r)
    ensures NoSpace(s) ==> r == s
    ensures |r| <= |s|
  {
    if |s| == 0 then "" else (if IsJsSpace(s[0]) then "" else [s[0]]) + RemoveWhitespace(s[1..])
  }

  /** Removing the trailing run of slashes: the longest prefix of `s` that
      does not end with a slash and is followed only by slashes. */
  function StripTrailingSlashes(s: string): (r: string)
    ensures |r| <= |s| && r == s[..|r|]
    ensures r == [] || r[|r| - 1] != '/'
    ensures forall i :: |r| <= i < |s| ==> s[i] == '/'
  {
    if |s| > 0 && s[|s| - 1] == '/' then StripTrailingSlashes(s[..|s| - 1]) else s
  }

  /** Stripping the slashes of a string that has none at its end changes
      nothing; in particular stripping twice is stripping once. */
  lemma StripWithoutTrailingSlash(s: string)
    requires s == [] || s[|s| - 1] != '/'
    ensures StripTrailingSlashes(s) == s
  {
  }

  /** `s` equals the lower-case ASCII `pattern` under the `i` flag (a
      non-ASCII character never folds onto an ASCII one without the `u`
      flag). */
  predicate MatchesIgnoringCase(s: string, pattern: string) {
    |s| == |pattern| &&
    forall i :: 0 <= i < |s| ==>
      s[i] == pattern[i] || ('a' <= pattern[i] <= 'z' && s[i] as int == pattern[i] as int - 32)
  }

  predicate EndsWithIgnoringCase(s: string, pattern: string) {
    |pattern| <= |s| && MatchesIgnoringCase(s[|s| - |pattern|..], pattern)
  }

  const ChatCompletions: string := "chat/completions"
  const Completions: string := "completions"

  /** The alternative `keyword` of the suffix pattern ends where the
      trailing slashes of `u` begin and is preceded by a slash. */
  predicate KeywordAtEnd(u: string, keyword: string) {
    EndsWithIgnoringCase(u, keyword) && EndsWith(u[..|u| - |keyword|], "/")
  }

  /** The replace of a slash run, "chat/completions" or "completions" (any
      letter case) and a trailing slash run at the end of `t`. The
      keyword must end where the trailing slashes begin; the leftmost
      match starts at the first slash of the run before the keyword, and
      the longer keyword starts further left when both match. Whatever is
      removed, what is left is a prefix of `t`. */
  function RemoveCompletionsSuffix(t: string): (r: string)
    ensures |r| <= |t| && r == t[..|r|]
  {
    var u := StripTrailingSlashes(t);
    if KeywordAtEnd(u, ChatCompletions) then StripTrailingSlashes(u[..|u| - |ChatCompletions|])
    else if KeywordAtEnd(u, Completions) then StripTrailingSlashes(u[..|u| - |Completions|])
    else t
  }

  datatype Endpoint = Endpoint(root: string, chatUrl: string)

  /** `buildRootAndChatUrl`. The root holds no white space, does not end
      with a slash and is a prefix of the white-space-free base URL; the
      completion URL is always the root followed by "/chat/completions". */
  function BuildRootAndChatUrl(baseUrl: string): (r: Endpoint)
    ensures r.chatUrl == r.root + "/chat/completions"
    ensures NoSpace(r.root)
    ensures r.root == [] || r.root[|r.root| - 1] != '/'
    ensures |r.root| <= |RemoveWhitespace(baseUrl)| && r.root == RemoveWhitespace(baseUrl)[..|r.root|]
  {
    var trimmed := RemoveWhitespace(baseUrl);
    var cut := RemoveCompletionsSuffix(trimmed);
    var root := StripTrailingSlashes(cut);
    PrefixOfPrefix(root, cut, trimmed);
    NoSpacePrefix(root, trimmed);
    Endpoint(root, root + "/chat/completions")
  }

  lemma PrefixOfPrefix(a: string, b: string, c: string)
    requires |a| <= |b| && a == b[..|a|] && |b| <= |c| && b == c[..|b|]
    ensures a == c[..|a|]
  {
  }

  lemma NoSpacePrefix(a: string, c: string)
    requires |a| <= |c| && a == c[..|a|] && NoSpace(c)
    ensures NoSpace(a)
  {
    forall i | 0 <= i < |a| ensures !IsJsSpace(a[i]) {
      assert a[i] == c[i];
    }
  }

  function Slashes(n: nat): (r: string)
    ensures |r| == n && forall i :: 0 <= i < n ==> r[i] == '/'
  {
    seq(n, _ => '/')
  }

  /** Slashes appended to a string are exactly what stripping removes. */
  lemma {:induction false} StripSlashesAppended(x: string, n: nat)
    ensures StripTrailingSlashes(x + Slashes(n)) == StripTrailingSlashes(x)
  {
    if n > 0 {
      assert (x + Slashes(n))[..|x| + n - 1] == x + Slashes(n - 1);
      StripSlashesAppended(x, n - 1);
    } else {
      assert x + Slashes(0) == x;
    }
  }

  /** The lower-case keyword pattern holds only letters and slashes and
      ends with a letter. */
  predicate KeywordShape(keyword: string) {
    |keyword| > 0 && 'a' <= keyword[|keyword| - 1] <= 'z'
    && forall i :: 0 <= i < |keyword| ==> ('a' <= keyword[i] <= 'z' || keyword[i] == '/')
  }

  lemma KeywordsHaveShape()
    ensures KeywordShape(ChatCompletions) && KeywordShape(Completions)
  {
  }

  /** A pattern of the suffix, in any letter case, holds no white space. */
  lemma KeywordNoSpace(k: string, keyword: string)
    requires KeywordShape(keyword) && MatchesIgnoringCase(k, keyword)
    ensures NoSpace(k)
  {
    forall i | 0 <= i < |k| ensures !IsJsSpace(k[i]) {
      PrintableNotSpace(k[i]);
    }
  }

  lemma SlashesNoSpace(n: nat)
    ensures NoSpace(Slashes(n))
  {
    forall i | 0 <= i < n ensures !IsJsSpace(Slashes(n)[i]) {
      PrintableNotSpace('/');
    }
  }

  lemma NoSpaceConcat(a: string, b: string)
    requires NoSpace(a) && NoSpace(b)
    ensures NoSpace(a + b)
  {
    forall i | 0 <= i < |a + b| ensures !IsJsSpace((a + b)[i]) {
      if i >= |a| {
        assert (a + b)[i] == b[i - |a|];
      }
    }
  }

  /** The pieces of `p`, `n` slashes, the keyword `k` and `m` slashes, as
      the endpoint normalisation sees them. */
  lemma {:induction false} KeywordUrlPieces(p: string, n: nat, k: string, m: nat, keyword: string)
    requires NoSpace(p) && n >= 1 && KeywordShape(keyword) && MatchesIgnoringCase(k, keyword)
    ensures var u := p + Slashes(n) + k;
      && RemoveWhitespace(u + Slashes(m)) == u + Slashes(m)
      && StripTrailingSlashes(u + Slashes(m)) == u
      && KeywordAtEnd(u, keyword)
      && StripTrailingSlashes(u[..|u| - |keyword|]) == StripTrailingSlashes(p)
  {
    var u := p + Slashes(n) + k;
    KeywordNoSpace(k, keyword);
    SlashesNoSpace(n);
    SlashesNoSpace(m);
    NoSpaceConcat(p, Slashes(n));
    NoSpaceConcat(p + Slashes(n), k);
    NoSpaceConcat(u, Slashes(m));
    StripSlashesAppended(u, m);
    StripWithoutTrailingSlash(u);
    assert u[|u| - |keyword|..] == k;
    assert u[..|u| - |keyword|] == p + Slashes(n);
    StripSlashesAppended(p, n);
  }

  /** A trailing "/chat/completions" in any letter case, after any run of
      slashes and before any run of slashes, is removed together with
      those slashes. */
  lemma ChatCompletionsSuffixRemoved(p: string, n: nat, k: string, m: nat)
    requires NoSpace(p)
    requires n >= 1 && MatchesIgnoringCase(k, ChatCompletions)
    ensures BuildRootAndChatUrl(p + Slashes(n) + k + Slashes(m)).root == StripTrailingSlashes(p)
  {
    KeywordsHaveShape();
    KeywordUrlPieces(p, n, k, m, ChatCompletions);
    StripWithoutTrailingSlash(StripTrailingSlashes(p));
  }

  /** A trailing "/completions" is removed the same way, unless it is the
      tail of a "/chat/completions". */
  lemma CompletionsSuffixRemoved(p: string, n: nat, k: string, m: nat)
    requires NoSpace(p)
    requires n >= 1 && MatchesIgnoringCase(k, Completions)
    requires n >= 2 || !EndsWithIgnoringCase(p, "/chat")
    ensures BuildRootAndChatUrl(p + Slashes(n) + k + Slashes(m)).root == StripTrailingSlashes(p)
  {
    KeywordsHaveShape();
    KeywordUrlPieces(p, n, k, m, Completions);
    var u := p + Slashes(n) + k;
    if KeywordAtEnd(u, ChatCompletions) {
      NotChatCompletions(p, n, k);
      assert false;
    }
    StripWithoutTrailingSlash(StripTrailingSlashes(p));
  }

  /** The longer alternative matches only when the slash before
      "completions" is a single one preceded by "/chat". */
  lemma NotChatCompletions(p: string, n: nat, k: string)
    requires n >= 1 && |k| == |Completions|
    requires KeywordAtEnd(p + Slashes(n) + k, ChatCompletions)
    ensures n == 1 && EndsWithIgnoringCase(p, "/chat")
  {
    var u := p + Slashes(n) + k;
    var w := u[|u| - 16..];
    assert MatchesIgnoringCase(w, ChatCompletions);
    assert w[3] == u[|u| - 13];
    assert ChatCompletions[3] == 't';
    if n >= 2 {
      assert false;
    }
    assert |u[..|u| - 16]| >= 1 && u[|u| - 17] == '/';
    var q := p[|p| - 5..];
    assert q == u[|u| - 17..|u| - 12];
    forall i | 1 <= i < 5
      ensures q[i] == "/chat"[i] || ('a' <= "/chat"[i] <= 'z' && q[i] as int == "/chat"[i] as int - 32)
    {
      assert q[i] == w[i - 1];
      assert "/chat"[i] == ChatCompletions[i - 1];
    }
    assert q[0] == '/';
  }

  /** Either alternative at the end of `u` means `u` ends with
      "/completions" in some letter case. */
  lemma KeywordEndsWithCompletions(u: string)
    requires KeywordAtEnd(u, ChatCompletions) || KeywordAtEnd(u, Completions)
    ensures EndsWithIgnoringCase(u, "/completions")
  {
    var c := "/completions";
    assert |u| >= 12;
    var v := u[|u| - 12..];
    if KeywordAtEnd(u, ChatCompletions) {
      var w := u[|u| - 16..];
      assert ChatCompletions[4..] == c;
      assert v == w[4..];
    } else {
      var w := u[|u| - 11..];
      assert u[..|u| - 11][|u| - 12] == '/';
      assert c == "/" + Completions;
      assert v == [u[|u| - 12]] + w;
    }
  }

  /** A base URL without such a suffix only loses its white space and its
      trailing slashes. */
  lemma NoSuffixKeptAsIs(baseUrl: string)
    requires !EndsWithIgnoringCase(StripTrailingSlashes(RemoveWhitespace(baseUrl)), "/completions")
    ensures BuildRootAndChatUrl(baseUrl).root == StripTrailingSlashes(RemoveWhitespace(baseUrl))
  {
    var u := StripTrailingSlashes(RemoveWhitespace(baseUrl));
    if KeywordAtEnd(u, ChatCompletions) || KeywordAtEnd(u, Completions) {
      KeywordEndsWithCompletions(u);
      assert false;
    }
  }

  /** A completion URL with a trailing slash gives its root. */
  lemma ExampleEndpoint(url: string)
    requires url == "https://api.x.com/v1/chat/completions/"
    ensures BuildRootAndChatUrl(url).root == "https://api.x.com/v1"
  {
    var p := "https://api.x.com/v1";
    ExampleEndpointPieces(url, p);
    ChatCompletionsSuffixRemoved(p, 1, ChatCompletions, 1);
    StripWithoutTrailingSlash(p);
  }

  lemma ExampleEndpointPieces(url: string, p: string)
    requires url == "https://api.x.com/v1/chat/completions/" && p == "https://api.x.com/v1"
    ensures NoSpace(p) && MatchesIgnoringCase(ChatCompletions, ChatCompletions)
    ensures url == p + Slashes(1) + ChatCompletions + Slashes(1)
  {
    forall i | 0 <= i < |p| ensures !IsJsSpace(p[i]) {
      PrintableNotSpace(p[i]);
    }
  }

  // ---------------------------------------------------------------- requests

  datatype ChatMessage = ChatMessage(role: Role, content: string)
  datatype Role = System | User | Assistant

  const JsonContentType: string := "application/json"

  /** A request: its verb and URL, the Content-Type header (when one is
      sent), the Authorization header, and the JSON body's model and
      messages (when there is a body). */
  datatype HttpRequest = HttpRequest(
    verb: string, url: string, contentType: Option<string>, authorization: string,
    model: Option<string>, messages: seq<ChatMessage>)

  /** What the endpoint answered: a network failure, or a status with the
      body as text and as JSON (`Err` carries the parser's message). */
  datatype HttpOutcome =
    | Unreachable(message: string)
    | Response(ok: bool, status: nat, text: string, json: Result<Json, string>)

  /** `url` ends with `path` (which starts with a slash), and that slash is
      the only one there: what comes before it is empty or does not end
      with a slash. */
  predicate SingleSlashBefore(url: string, path: string) {
    EndsWith(url, path) && (|url| == |path| || url[|url| - |path| - 1] != '/')
  }

  /** A fixed path of visible characters starting with a slash. */
  predicate FixedPath(path: string) {
    |path| > 0 && path[0] == '/' && forall i :: 0 <= i < |path| ==> '!' <= path[i] <= '~'
  }

  lemma EndpointPaths()
    ensures FixedPath("/chat/completions") && FixedPath("/models")
  {
  }

  /** The normalised root followed by a fixed path. */
  lemma EndpointUrl(root: string, path: string)
    requires NoSpace(root) && (root == [] || root[|root| - 1] != '/')
    requires FixedPath(path)
    ensures NoSpace(root + path) && SingleSlashBefore(root + path, path)
    ensures (root + path)[..|root|] == root
  {
    forall i | 0 <= i < |path| ensures !IsJsSpace(path[i]) {
      PrintableNotSpace(path[i]);
    }
    NoSpaceConcat(root, path);
    assert (root + path)[|root|..] == path;
  }

  /** `url` is `path` on a root taken from `base`: it holds no white
      space, ends with `path` preceded by a single slash, and what precedes
      `path` is a prefix of `base`. */
  predicate UrlOnBase(url: string, path: string, base: string) {
    && NoSpace(url) && SingleSlashBefore(url, path)
    && |url| - |path| <= |base| && url[..|url| - |path|] == base[..|url| - |path|]
  }

  /** A root without white space or a trailing slash, taken from `base`,
      followed by a fixed path. */
  lemma UrlFor(root: string, path: string, base: string)
    requires NoSpace(root) && (root == [] || root[|root| - 1] != '/')
    requires |root| <= |base| && root == base[..|root|]
    requires FixedPath(path)
    ensures UrlOnBase(root + path, path, base)
  {
    EndpointUrl(root, path);
    assert |root + path| - |path| == |root|;
  }

  /** The POST `sendChatRequest` issues: to a white-space-free URL that is
      a prefix of the white-space-free base URL followed by a single slash
      and "chat/completions", declaring a JSON body, with the key as a
      Bearer token and the configured model and messages as the body. */
  function ChatRequestFor(config: AiConfig, messages: seq<ChatMessage>): (r: HttpRequest)
    ensures r.verb == "POST" && r.authorization == "Bearer " + config.apiKey
    ensures r.contentType == Some(JsonContentType)
    ensures r.model == Some(config.model) && r.messages == messages
    ensures UrlOnBase(r.url, "/chat/completions", RemoveWhitespace(config.baseUrl))
  {
    var e := BuildRootAndChatUrl(config.baseUrl);
    EndpointPaths();
    UrlFor(e.root, "/chat/completions", RemoveWhitespace(config.baseUrl));
    HttpRequest("POST", e.chatUrl, Some(JsonContentType), "Bearer " + config.apiKey, Some(config.model), messages)
  }

  /** The GET `fetchModels` issues: to the same kind of URL ending in a
      single slash and "models", with the key as a Bearer token, no
      Content-Type header and no body. */
  function ModelsRequestFor(config: AiConfig): (r: HttpRequest)
    ensures r.verb == "GET" && r.authorization == "Bearer " + config.apiKey
    ensures r.contentType == None
    ensures r.model == None && r.messages == []
    ensures UrlOnBase(r.url, "/models", RemoveWhitespace(config.baseUrl))
  {
    var root := BuildRootAndChatUrl(config.baseUrl).root;
    EndpointPaths();
    UrlFor(root, "/models", RemoveWhitespace(config.baseUrl));
    HttpRequest("GET", root + "/models", None, "Bearer " + config.apiKey, None, [])
  }

  /** Both requests go to the same root, whatever the base URL looks like:
      the model list is fetched next to the completion endpoint. */
  lemma RequestsShareRoot(config: AiConfig, messages: seq<ChatMessage>)
    ensures var chat := ChatRequestFor(config, messages).url;
            var models := ModelsRequestFor(config).url;
            chat[..|chat| - 17] == models[..|models| - 7]
  {
    var root := BuildRootAndChatUrl(config.baseUrl).root;
    EndpointPaths();
    EndpointUrl(root, "/chat/completions");
    EndpointUrl(root, "/models");
  }

  /** `data?.choices?.[0]?.message?.content ?? data?.message?.content ??
      data?.content ?? ""`, then the emptiness check. */
  function ExtractReply(data: Json): (r: Result<Json, ClientError>)
    ensures r.Err? ==> r.error == EmptyReply
  {
    var d := Some(data);
    var content := Coalesce(Field(Field(First(Field(d, "choices")), "message"), "content"),
                   Coalesce(Field(Field(d, "message"), "content"),
                   Coalesce(Field(d, "content"), JStr(""))));
    if Falsy(content) then Err(EmptyReply) else Ok(content)
  }

  /** The fallback chain: the first of the three paths that is present and
      not null decides alone, so a present-but-empty earlier value does not
      fall through to a later one. */
  lemma ReplyFallbackChain(data: Json)
    ensures var p1 := Field(Field(First(Field(Some(data), "choices")), "message"), "content");
            var p2 := Field(Field(Some(data), "message"), "content");
            var p3 := Field(Some(data), "content");
            var chosen := if !Nullish(p1) then Some(p1.value)
                          else if !Nullish(p2) then Some(p2.value)
                          else if !Nullish(p3) then Some(p3.value)
                          else None;
            && (chosen.Some? && !Falsy(chosen.value) ==> ExtractReply(data) == Ok(chosen.value))
            && (chosen.None? || Falsy(chosen.value) ==> ExtractReply(data) == Err(EmptyReply))
  {
  }

  /** An OpenAI-style body gives its first choice's message content. */
  lemma ExampleReply(text: string)
    requires text != ""
    ensures ExtractReply(JObj(map["choices" := JArr([JObj(map["message" := JObj(map["content" := JStr(text)])])])]))
         == Ok(JStr(text))
  {
  }

  /** The three settings `sendChatRequest` checks before any request. */
  predicate ChatConfigComplete(config: AiConfig) {
    config.baseUrl != "" && config.apiKey != "" && config.model != ""
  }

  /** `sendChatRequest`, with the transport `fetch` as a parameter. The
      configuration check comes first and no request is made when it
      fails; otherwise the answer to `ChatRequestFor` decides: an
      unreachable endpoint, a failed status, a body that is not JSON, and
      the reply extracted from the parsed body. */
  function SendChatRequest(config: AiConfig, messages: seq<ChatMessage>, fetch: HttpRequest -> HttpOutcome)
    : (r: Result<Json, ClientError>)
    ensures r == Err(MissingChatConfig) <==> !ChatConfigComplete(config)
    ensures ChatConfigComplete(config) && fetch(ChatRequestFor(config, messages)).Unreachable? ==>
      r == Err(NetworkFailure(fetch(ChatRequestFor(config, messages)).message))
    ensures ChatConfigComplete(config) && fetch(ChatRequestFor(config, messages)).Response?
            && !fetch(ChatRequestFor(config, messages)).ok ==>
      r == Err(RequestFailed(fetch(ChatRequestFor(config, messages)).status,
                             fetch(ChatRequestFor(config, messages)).text))
    ensures ChatConfigComplete(config) && fetch(ChatRequestFor(config, messages)).Response?
            && fetch(ChatRequestFor(config, messages)).ok && fetch(ChatRequestFor(config, messages)).json.Err? ==>
      r == Err(InvalidJson(fetch(ChatRequestFor(config, messages)).json.error))
    ensures ChatConfigComplete(config) && fetch(ChatRequestFor(config, messages)).Response?
            && fetch(ChatRequestFor(config, messages)).ok && fetch(ChatRequestFor(config, messages)).json.Ok? ==>
      r == ExtractReply(fetch(ChatRequestFor(config, messages)).json.value)
    ensures r.Ok? ==> !Falsy(r.value)
  {
    if !ChatConfigComplete(config) then Err(MissingChatConfig)
    else match fetch(ChatRequestFor(config, messages))
      case Unreachable(m) => Err(NetworkFailure(m))
      case Response(ok, status, text, json) =>
        if !ok then Err(RequestFailed(status, text))
        else match json
          case Err(m) => Err(InvalidJson(m))
          case Ok(data) => ExtractReply(data)
  }

  /** Elements under their decimal indices, as spreading an array copies
      them. */
  function IndexedFields(items: seq<Json>): (r: map<string, Json>)
    ensures forall i :: 0 <= i < |items| ==> NatToString(i) in r && r[NatToString(i)] == items[i]
    ensures forall k :: k in r ==> exists i: nat :: k == NatToString(i)
  {
    NatToStringInjective();
    map i | 0 <= i < |items| :: NatToString(i) := items[i]
  }

  function Characters(s: string): (r: seq<Json>)
    ensures |r| == |s| && forall i :: 0 <= i < |s| ==> r[i] == JStr([s[i]])
  {
    seq(|s|, i requires 0 <= i < |s| => JStr([s[i]]))
  }

  /** The own enumerable properties `...m` copies: an object's fields, an
      array's elements or a string's characters under their decimal
      indices, and nothing for the other values. */
  function SpreadFields(m: Json): (r: map<string, Json>)
    ensures m.JObj? ==> r == m.fields
    ensures m.JArr? ==> forall i :: 0 <= i < |m.items| ==> NatToString(i) in r && r[NatToString(i)] == m.items[i]
    ensures m.JStr? ==> forall i :: 0 <= i < |m.s| ==> NatToString(i) in r && r[NatToString(i)] == JStr([m.s[i]])
    ensures m.JArr? || m.JStr? ==> forall k :: k in r ==> exists i: nat :: k == NatToString(i)
    ensures m.JNull? || m.JBool? || m.JNum? ==> r == map[]
  {
    match m
    case JObj(fields) => fields
    case JArr(items) => IndexedFields(items)
    case JStr(s) => IndexedFields(Characters(s))
    case _ => map[]
  }

  /** A model-list entry: `{ id: m.id ?? m.name ?? "unknown-model", ...m }`
      for an entry that is not `null`. The spread comes last, so every
      copied property survives, an `id` property included. */
  function ModelEntry(m: Json): (r: map<string, Json>)
    requires !m.JNull?
    ensures r.Keys == SpreadFields(m).Keys + {"id"}
    ensures forall k :: k in SpreadFields(m) ==> r[k] == SpreadFields(m)[k]
  {
    var id := Coalesce(Field(Some(m), "id"), Coalesce(Field(Some(m), "name"), JStr("unknown-model")));
    map["id" := id] + SpreadFields(m)
  }

  /** The id of an entry: its own `id` property when it has one (even a
      `null` one), else its non-null `name`, else "unknown-model". */
  lemma ModelEntryId(m: Json)
    requires !m.JNull?
    ensures m.JObj? && "id" in m.fields ==> ModelEntry(m)["id"] == m.fields["id"]
    ensures m.JObj? && "id" !in m.fields && "name" in m.fields && !m.fields["name"].JNull? ==>
      ModelEntry(m)["id"] == m.fields["name"]
    ensures (!m.JObj? || ("id" !in m.fields && ("name" !in m.fields || m.fields["name"].JNull?))) ==>
      ModelEntry(m)["id"] == JStr("unknown-model")
  {
    if (m.JArr? || m.JStr?) && "id" in SpreadFields(m) {
      assert false;
    }
  }

  /** The two settings `fetchModels` checks before any request. */
  predicate ModelsConfigComplete(config: AiConfig) {
    config.baseUrl != "" && config.apiKey != ""
  }

  /** The entries of a parsed model-list body that `fetchModels` maps: a
      non-empty array none of whose elements is `null`. */
  predicate UsableModelList(data: Json) {
    var list := ModelList(data);
    list.JArr? && |list.items| > 0 && forall i :: 0 <= i < |list.items| ==> !list.items[i].JNull?
  }

  /** `fetchModels`, with the transport `fetch` as a parameter. The list
      is `data`, or `models` when `data` is null or missing; a list that
      is not an array or is empty is an error; a `null` entry makes the
      mapping throw; otherwise each entry is mapped in order. */
  function FetchModels(config: AiConfig, fetch: HttpRequest -> HttpOutcome)
    : (r: Result<seq<map<string, Json>>, ClientError>)
    ensures r == Err(MissingModelsConfig) <==> !ModelsConfigComplete(config)
    ensures ModelsConfigComplete(config) && fetch(ModelsRequestFor(config)).Unreachable? ==>
      r == Err(NetworkFailure(fetch(ModelsRequestFor(config)).message))
    ensures ModelsConfigComplete(config) && fetch(ModelsRequestFor(config)).Response?
            && !fetch(ModelsRequestFor(config)).ok ==>
      r == Err(ModelsRequestFailed(fetch(ModelsRequestFor(config)).status, fetch(ModelsRequestFor(config)).text))
    ensures ModelsConfigComplete(config) && fetch(ModelsRequestFor(config)).Response?
            && fetch(ModelsRequestFor(config)).ok && fetch(ModelsRequestFor(config)).json.Err? ==>
      r == Err(InvalidJson(fetch(ModelsRequestFor(config)).json.error))
    ensures ModelsConfigComplete(config) && fetch(ModelsRequestFor(config)).Response?
            && fetch(ModelsRequestFor(config)).ok && fetch(ModelsRequestFor(config)).json.Ok? ==>
      (r.Ok? <==> UsableModelList(fetch(ModelsRequestFor(config)).json.value))
    ensures r.Ok? ==>
      && ModelsConfigComplete(config)
      && fetch(ModelsRequestFor(config)).Response? && fetch(ModelsRequestFor(config)).ok
      && fetch(ModelsRequestFor(config)).json.Ok?
      && var list := ModelList(fetch(ModelsRequestFor(config)).json.value);
      && list.JArr? && |list.items| > 0 && |r.value| == |list.items|
      && forall i :: 0 <= i < |r.value| ==> !list.items[i].JNull? && r.value[i] == ModelEntry(list.items[i])
  {
    if !ModelsConfigComplete(config) then Err(MissingModelsConfig)
    else match fetch(ModelsRequestFor(config))
      case Unreachable(m) => Err(NetworkFailure(m))
      case Response(ok, status, text, json) =>
        if !ok then Err(ModelsRequestFailed(status, text))
        else match json
          case Err(m) => Err(InvalidJson(m))
          case Ok(data) =>
            var list := ModelList(data);
            if !list.JArr? || |list.items| == 0 then Err(NoModels)
            else if exists i :: 0 <= i < |list.items| && list.items[i].JNull? then Err(NullModelEntry)
            else Ok(seq(|list.items|, i requires 0 <= i < |list.items| => ModelEntry(list.items[i])))
  }

  /** `data?.data ?? data?.models ?? []`. */
  function ModelList(data: Json): (r: Json)
    ensures !Nullish(Field(Some(data), "data")) ==> r == data.fields["data"]
    ensures Nullish(Field(Some(data), "data")) && !Nullish(Field(Some(data), "models")) ==> r == data.fields["models"]
  {
    Coalesce(Field(Some(data), "data"), Coalesce(Field(Some(data), "models"), JArr([])))
  }

  /** A successful answer whose list is missing, not an array or empty
      fails with the no-models error, and one whose list holds a `null`
      entry fails where the mapping reads its `id`. */
  lemma UnusableModelListErrors(config: AiConfig, fetch: HttpRequest -> HttpOutcome, data: Json)
    requires ModelsConfigComplete(config)
    requires fetch(ModelsRequestFor(config)).Response? && fetch(ModelsRequestFor(config)).ok
    requires fetch(ModelsRequestFor(config)).json == Ok(data)
    ensures !ModelList(data).JArr? || |ModelList(data).items| == 0 ==> FetchModels(config, fetch) == Err(NoModels)
    ensures ModelList(data).JArr? && |ModelList(data).items| > 0 && !UsableModelList(data) ==>
      FetchModels(config, fetch) == Err(NullModelEntry)
  {
  }
}

=== FILE: chat_log.dfy ===
/** The chat messages of src/screens/wechat/WeChatScreen.tsx, the slot a
    conversation occupies in local storage, and the "last id + 1" rule
    every appended message follows. */
module ChatLog {
  import opened Wrappers

  datatype Sender = Me | Other

  /** `UiMessage`: `timeLabel` and `timestamp` may be absent. */
  datatype Message = Message(
    id: int,
    from: Sender,
    text: string,
    timeLabel: Option<string>,
    timestamp: Option<int>)

  /** The storage slot of one conversation, when it holds something: a
      JSON array of messages, JSON that is neither an array nor a string,
      or text that is not JSON. A missing key is the absence of a slot. */
  datatype StoredLog = Log(messages: seq<Message>) | NotAList | Unparsable

  /** The id the next message gets: one more than the last message's id,
      or 1 for an empty list. */
  function NextId(ms: seq<Message>): (id: int)
    ensures |ms| == 0 ==> id == 1
    ensures |ms| > 0 ==> id > ms[|ms| - 1].id
  {
    if |ms| > 0 then ms[|ms| - 1].id + 1 else 1
  }

  /** Message ids grow strictly along the list. */
  predicate IdsIncreasing(ms: seq<Message>) {
    forall i, j :: 0 <= i < j < |ms| ==> ms[i].id < ms[j].id
  }

  /** Appending with the next id keeps the ids strictly increasing, and
      that id is larger than every id before it. */
  lemma NextIdKeepsIdsIncreasing(ms: seq<Message>, m: Message)
    requires m.id == NextId(ms)
    ensures IdsIncreasing(ms) ==> IdsIncreasing(ms + [m])
    ensures IdsIncreasing(ms) ==> forall i :: 0 <= i < |ms| ==> ms[i].id < m.id
  {
    if IdsIncreasing(ms) {
      forall i | 0 <= i < |ms| ensures ms[i].id < m.id {
        if i < |ms| - 1 {
          assert ms[i].id < ms[|ms| - 1].id;
        }
      }
    }
  }

  /** A list built by appending with the next id, starting from nothing,
      numbers its messages 1, 2, 3, ... */
  lemma {:induction false} NextIdNumbersFromOne(ms: seq<Message>)
    requires forall i :: 0 <= i < |ms| ==> ms[i].id == NextId(ms[..i])
    ensures forall i :: 0 <= i < |ms| ==> ms[i].id == i + 1
  {
    if |ms| > 0 {
      var init := ms[..|ms| - 1];
      forall i | 0 <= i < |init| ensures init[i].id == NextId(init[..i]) {
        assert init[..i] == ms[..i];
      }
      NextIdNumbersFromOne(init);
      assert ms[..|ms| - 1] == init;
    }
  }

  /** A message from the contact, as each reveal step creates it. */
  function OtherMessage(id: int, text: string, clock: string, ts: int): Message {
    Message(id, Other, text, Some(clock), Some(ts))
  }

  /** `createUserMessage`: the player's message, numbered after the
      current list. */
  function UserMessage(ms: seq<Message>, text: string, clock: string, ts: int): (m: Message)
    ensures m.from == Me && m.text == text && m.timestamp == Some(ts)
    ensures |ms| > 0 ==> m.id > ms[|ms| - 1].id
  {
    Message(NextId(ms), Me, text, Some(clock), Some(ts))
  }
}

=== FILE: chat_prompt.dfy ===
/** What one reply turn of src/screens/wechat/WeChatScreen.tsx sends and
    shows: the prompt built from the contact's persona and the conversation
    so far, the cutting of the reply into chat bubbles, and the pause
    before each bubble appears. */
module ChatPrompt {
  import opened Wrappers
  import opened Text
  import opened Settings
  import opened ChatLog
  import opened AiClient

  // ---------------------------------------------------------------- persona

  const PersonaLine: string := "你是一位性格温柔、说话软糯糯的乙女游戏 AI 角色，用轻松治愈的语气和玩家聊天。"
  const WorldbookRule: string := "你必须严格遵守下面给出的世界书设定，这些信息高于普通对话内容，不能与之矛盾。\n"
  const IdentityLead: string := "玩家在这个世界中的身份："
  const AddressLead: string := "你在对话中称呼玩家为「"
  const RoleLead: string := "你的角色身份："
  const StyleLead: string := "。你的说话风格："
  const UntitledWorldbook: string := "未命名世界书"
  const UnsetIdentity: string := "未设置"
  const FallbackRemark: string := "软糯糯·AI 好友"

  /** The persona a reply uses for a contact without a stored profile. */
  function FallbackProfile(chatId: string): ChatProfile {
    ChatProfile(chatId, FallbackRemark, DefaultAvatarEmoji, None, DefaultCallMeAs, [], "",
                DefaultCharacterIdentity, DefaultChatStyle, None)
  }

  function ProfileFor(profiles: map<string, ChatProfile>, chatId: string): ChatProfile {
    if chatId in profiles then profiles[chatId] else FallbackProfile(chatId)
  }

  /** A worldbook as the prompt shows it: a blank title reads "未命名世界书". */
  function PromptBook(b: WorldbookEntry): string {
    "【" + (if b.title == "" then UntitledWorldbook else b.title) + "】\n" + Join(RenderItems(b.entries), "\n")
  }

  function WorldbookSegment(books: seq<WorldbookEntry>): Option<string> {
    if |books| == 0 then None
    else Some(WorldbookRule + Join(seq(|books|, i requires 0 <= i < |books| => PromptBook(books[i])), "\n\n"))
  }

  function IdentitySegment(p: ChatProfile): Option<string> {
    if p.myIdentity == "" then None else Some(IdentityLead + p.myIdentity)
  }

  function AddressSegment(p: ChatProfile): Option<string> {
    if p.callMeAs == "" then None else Some(AddressLead + p.callMeAs + "」")
  }

  function RoleSegment(p: ChatProfile): Option<string> {
    if p.characterIdentity == "" && p.chatStyle == "" then None
    else Some(RoleLead + (if p.characterIdentity == "" then UnsetIdentity else p.characterIdentity)
              + (if p.chatStyle != "" then StyleLead + p.chatStyle else ""))
  }

  /** A segment that may be `null`, as the list of what it contributes
      once the `null`s are filtered out. */
  function Opt(o: Option<string>): (r: seq<string>)
    ensures |r| <= 1
  {
    if o.Some? then [o.value] else []
  }

  /** The system messages of the prompt: the fixed persona line, then the
      worldbook, identity, addressing and role segments that apply. */
  function SystemPrompt(p: ChatProfile): seq<string> {
    [PersonaLine] + Opt(WorldbookSegment(p.worldbooks)) + Opt(IdentitySegment(p))
    + Opt(AddressSegment(p)) + Opt(RoleSegment(p))
  }

  /** Which segment a system message is, read off its first two
      characters: 0 persona, 1 worldbook, 2 identity, 3 addressing, 4 role. */
  function SegmentKind(s: string): nat {
    var opening := if |s| < 2 then s else s[..2];
    if opening == "你是" then 0
    else if opening == "你必" then 1
    else if opening == "玩家" then 2
    else if opening == "你在" then 3
    else if opening == "你的" then 4
    else 5
  }

  lemma KindOfLead(lead: string, rest: string, kind: nat)
    requires |lead| >= 2 && SegmentKind(lead[..2]) == kind
    ensures SegmentKind(lead + rest) == kind
  {
    assert (lead + rest)[..2] == lead[..2];
  }

  function OptionalKinds(p: ChatProfile): seq<nat> {
    (if |p.worldbooks| > 0 then [1] else []) + (if p.myIdentity != "" then [2] else [])
    + (if p.callMeAs != "" then [3] else []) + (if p.characterIdentity != "" || p.chatStyle != "" then [4] else [])
  }

  lemma SegmentKinds(p: ChatProfile)
    ensures SegmentKind(PersonaLine) == 0
    ensures WorldbookSegment(p.worldbooks).Some? ==> SegmentKind(WorldbookSegment(p.worldbooks).value) == 1
    ensures IdentitySegment(p).Some? ==> SegmentKind(IdentitySegment(p).value) == 2
    ensures AddressSegment(p).Some? ==> SegmentKind(AddressSegment(p).value) == 3
    ensures RoleSegment(p).Some? ==> SegmentKind(RoleSegment(p).value) == 4
  {
    assert PersonaLine[0] == '你' && PersonaLine[1] == '是';
    WorldbookKind(p.worldbooks);
    IdentityKind(p);
    AddressKind(p);
    RoleKind(p);
  }

  lemma WorldbookKind(books: seq<WorldbookEntry>)
    ensures WorldbookSegment(books).Some? ==> SegmentKind(WorldbookSegment(books).value) == 1
  {
    if |books| > 0 {
      var s := WorldbookSegment(books).value;
      assert WorldbookRule[0] == '你' && WorldbookRule[1] == '必';
      KindOfLead(WorldbookRule, s[|WorldbookRule|..], 1);
      assert s == WorldbookRule + s[|WorldbookRule|..];
    }
  }

  lemma IdentityKind(p: ChatProfile)
    ensures IdentitySegment(p).Some? ==> SegmentKind(IdentitySegment(p).value) == 2
  {
    assert IdentityLead[0] == '玩' && IdentityLead[1] == '家';
    KindOfLead(IdentityLead, p.myIdentity, 2);
  }

  lemma AddressKind(p: ChatProfile)
    ensures AddressSegment(p).Some? ==> SegmentKind(AddressSegment(p).value) == 3
  {
    assert AddressLead[0] == '你' && AddressLead[1] == '在';
    KindOfLead(AddressLead, p.callMeAs + "」", 3);
    assert AddressLead + p.callMeAs + "」" == AddressLead + (p.callMeAs + "」");
  }

  lemma RoleKind(p: ChatProfile)
    ensures RoleSegment(p).Some? ==> SegmentKind(RoleSegment(p).value) == 4
  {
    if RoleSegment(p).Some? {
      var s := RoleSegment(p).value;
      assert RoleLead[0] == '你' && RoleLead[1] == '的';
      KindOfLead(RoleLead, s[|RoleLead|..], 4);
      assert s == RoleLead + s[|RoleLead|..];
    }
  }

  function OptKind(o: Option<string>, kind: nat): seq<nat> {
    if o.Some? then [kind] else []
  }

  lemma KindsOfConcat(a: seq<string>, b: seq<string>, ka: seq<nat>, kb: seq<nat>)
    requires |a| == |ka| && forall i :: 0 <= i < |a| ==> SegmentKind(a[i]) == ka[i]
    requires |b| == |kb| && forall i :: 0 <= i < |b| ==> SegmentKind(b[i]) == kb[i]
    ensures |a + b| == |ka + kb| && forall i :: 0 <= i < |a + b| ==> SegmentKind((a + b)[i]) == (ka + kb)[i]
  {
  }

  /** The system part of the prompt is the persona line followed by exactly
      the segments whose condition holds, in the fixed order worldbook,
      identity, addressing, role: a worldbook segment iff the contact has
      worldbooks, an identity segment iff `myIdentity` is set, an
      addressing segment iff `callMeAs` is set and a role segment iff the
      character identity or the chat style is set. */
  lemma SystemPromptOrder(p: ChatProfile)
    ensures SystemPrompt(p)[0] == PersonaLine
    ensures KindsOf(SystemPrompt(p)) == [0] + OptionalKinds(p)
  {
    SystemPromptKinds(p);
    assert OptKind(WorldbookSegment(p.worldbooks), 1) == (if |p.worldbooks| > 0 then [1] else []);
    assert OptKind(IdentitySegment(p), 2) == (if p.myIdentity != "" then [2] else []);
    assert OptKind(AddressSegment(p), 3) == (if p.callMeAs != "" then [3] else []);
    assert OptKind(RoleSegment(p), 4) == (if p.characterIdentity != "" || p.chatStyle != "" then [4] else []);
  }

  lemma SystemPromptKinds(p: ChatProfile)
    ensures var w, id, ad, ro := WorldbookSegment(p.worldbooks), IdentitySegment(p), AddressSegment(p), RoleSegment(p);
      KindsOf(SystemPrompt(p)) == [0] + OptKind(w, 1) + OptKind(id, 2) + OptKind(ad, 3) + OptKind(ro, 4)
  {
    var w, id, ad, ro := WorldbookSegment(p.worldbooks), IdentitySegment(p), AddressSegment(p), RoleSegment(p);
    var a := [PersonaLine] + Opt(w) + Opt(id) + Opt(ad) + Opt(ro);
    var k := [0] + OptKind(w, 1) + OptKind(id, 2) + OptKind(ad, 3) + OptKind(ro, 4);
    assert |a| == |k| && forall i :: 0 <= i < |a| ==> SegmentKind(a[i]) == k[i] by {
      SegmentKinds(p);
      KindsInOrder(w, id, ad, ro);
    }
    assert KindsOf(a) == k;
  }

  function KindsOf(ss: seq<string>): seq<nat> {
    seq(|ss|, i requires 0 <= i < |ss| => SegmentKind(ss[i]))
  }

  lemma KindsInOrder(w: Option<string>, id: Option<string>, ad: Option<string>, ro: Option<string>)
    requires SegmentKind(PersonaLine) == 0
    requires w.Some? ==> SegmentKind(w.value) == 1
    requires id.Some? ==> SegmentKind(id.value) == 2
    requires ad.Some? ==> SegmentKind(ad.value) == 3
    requires ro.Some? ==> SegmentKind(ro.value) == 4
    ensures var a := [PersonaLine] + Opt(w) + Opt(id) + Opt(ad) + Opt(ro);
      var k := [0] + OptKind(w, 1) + OptKind(id, 2) + OptKind(ad, 3) + OptKind(ro, 4);
      |a| == |k| && forall i :: 0 <= i < |a| ==> SegmentKind(a[i]) == k[i]
  {
    KindsOfConcat([PersonaLine], Opt(w), [0], OptKind(w, 1));
    KindsOfConcat([PersonaLine] + Opt(w), Opt(id), [0] + OptKind(w, 1), OptKind(id, 2));
    KindsOfConcat([PersonaLine] + Opt(w) + Opt(id), Opt(ad), [0] + OptKind(w, 1) + OptKind(id, 2), OptKind(ad, 3));
    KindsOfConcat([PersonaLine] + Opt(w) + Opt(id) + Opt(ad), Opt(ro),
                  [0] + OptKind(w, 1) + OptKind(id, 2) + OptKind(ad, 3), OptKind(ro, 4));
  }

  /** The kinds of the optional segments strictly increase, so none is
      repeated and they keep the fixed order. */
  lemma OptionalKindsIncrease(p: ChatProfile)
    ensures forall i, j :: 0 <= i < j < |OptionalKinds(p)| ==> OptionalKinds(p)[i] < OptionalKinds(p)[j]
    ensures forall k :: 1 <= k <= 4 ==> (k in OptionalKinds(p) <==>
      match k
      case 1 => |p.worldbooks| > 0
      case 2 => p.myIdentity != ""
      case 3 => p.callMeAs != ""
      case _ => p.characterIdentity != "" || p.chatStyle != "")
  {
  }

  /** Every item of every worldbook of the contact reaches the prompt as
      its own `- title：content` line, after the rule that puts the
      worldbooks above the conversation. */
  lemma WorldbookSegmentShowsEveryItem(books: seq<WorldbookEntry>, i: nat, j: nat)
    requires i < |books| && j < |books[i].entries|
    ensures WorldbookSegment(books).Some?
    ensures WorldbookRule <= WorldbookSegment(books).value
    ensures IsLineOf(RenderItem(books[i].entries[j]), WorldbookSegment(books).value)
  {
    var line := RenderItem(books[i].entries[j]);
    ItemIsLineOfPromptBook(books[i], j);
    var rendered := seq(|books|, t requires 0 <= t < |books| => PromptBook(books[t]));
    assert rendered[i] == PromptBook(books[i]);
    JoinLines(rendered, "\n\n", i);
    LineOfTransitive(line, PromptBook(books[i]), Join(rendered, "\n\n"));
    LineOfAfter(line, Join(rendered, "\n\n"), WorldbookRule);
  }

  /** Each item of a book is a line of the book's text. */
  lemma ItemIsLineOfPromptBook(b: WorldbookEntry, j: nat)
    requires j < |b.entries|
    ensures IsLineOf(RenderItem(b.entries[j]), PromptBook(b))
  {
    var items := RenderItems(b.entries);
    assert items[j] == RenderItem(b.entries[j]);
    JoinLines(items, "\n", j);
    LineOfAfter(RenderItem(b.entries[j]), Join(items, "\n"),
                "【" + (if b.title == "" then UntitledWorldbook else b.title) + "】\n");
  }

  // ---------------------------------------------------------------- history

  function RoleOf(m: Message): Role {
    if m.from == Me then User else Assistant
  }

  /** The conversation a reply is based on: the stored log when it parses
      to a non-empty list, otherwise the list on screen. */
  function HistorySource(slot: Option<StoredLog>, onScreen: seq<Message>): seq<Message> {
    if slot.Some? && slot.value.Log? && |slot.value.messages| > 0 then slot.value.messages else onScreen
  }

  function Conversation(ms: seq<Message>): seq<ChatMessage> {
    seq(|ms|, i requires 0 <= i < |ms| => ChatMessage(RoleOf(ms[i]), ms[i].text))
  }

  /** The whole prompt of one reply turn. */
  function ReplyPrompt(p: ChatProfile, slot: Option<StoredLog>, onScreen: seq<Message>, extra: Option<Message>): seq<ChatMessage>
  {
    var sys := SystemPrompt(p);
    var hist := HistorySource(slot, onScreen) + (if extra.Some? then [extra.value] else []);
    seq(|sys|, i requires 0 <= i < |sys| => ChatMessage(System, sys[i])) + Conversation(hist)
  }

  /** The prompt is the system segments, each as a system message, then
      the history with the extra message last: every history message
      keeps its text and speaks as the player exactly when the player
      wrote it, and no history message is a system message. */
  lemma ReplyPromptShape(p: ChatProfile, slot: Option<StoredLog>, onScreen: seq<Message>, extra: Option<Message>)
    ensures var r := ReplyPrompt(p, slot, onScreen, extra);
      var sys := SystemPrompt(p);
      var hist := HistorySource(slot, onScreen) + (if extra.Some? then [extra.value] else []);
      && |r| == |sys| + |hist|
      && (forall i :: 0 <= i < |sys| ==> r[i] == ChatMessage(System, sys[i]))
      && (forall i :: 0 <= i < |hist| ==> r[|sys| + i].content == hist[i].text)
      && (forall i :: 0 <= i < |hist| ==> (r[|sys| + i].role == User <==> hist[i].from == Me))
      && (forall i :: 0 <= i < |r| ==> (r[i].role == System <==> i < |sys|))
  {
  }

  /** The extra message of the turn, when there is one, is the last thing
      the prompt says, as the player. */
  lemma ExtraMessageLast(p: ChatProfile, slot: Option<StoredLog>, onScreen: seq<Message>, m: Message)
    requires m.from == Me
    ensures ReplyPrompt(p, slot, onScreen, Some(m))[|ReplyPrompt(p, slot, onScreen, Some(m))| - 1] == ChatMessage(User, m.text)
  {
    var hist := HistorySource(slot, onScreen) + [m];
    var r := ReplyPrompt(p, slot, onScreen, Some(m));
    var k := |hist| - 1;
    ReplyPromptShape(p, slot, onScreen, Some(m));
    assert r[|SystemPrompt(p)| + k].content == hist[k].text;
  }
}

=== FILE: chat_segments.dfy ===
/** How src/screens/wechat/WeChatScreen.tsx cuts an assistant reply into
    chat bubbles and paces their appearance. */
module ChatSegments {
  import opened Text

  /** The first place where two newlines follow each other, or `|s|`. */
  function DoubleBreak(s: string): (k: nat)
    ensures k <= |s|
    ensures k < |s| ==> k + 1 < |s| && s[k] == '\n' && s[k + 1] == '\n'
    ensures forall i :: 0 <= i < k && i + 1 < |s| ==> !(s[i] == '\n' && s[i + 1] == '\n')
  {
    if |s| < 2 then |s| else if s[0] == '\n' && s[1] == '\n' then 0 else 1 + DoubleBreak(s[1..])
  }

  /** The end of the run of newlines starting at `k`. */
  function NewlineRunEnd(s: string, k: nat): (e: nat)
    requires k <= |s|
    ensures k <= e <= |s|
    ensures forall i :: k <= i < e ==> s[i] == '\n'
    ensures e < |s| ==> s[e] != '\n'
    decreases |s| - k
  {
    if k < |s| && s[k] == '\n' then NewlineRunEnd(s, k + 1) else k
  }

  /** `s.split(/\n{2,}/)`: the pieces between runs of two or more
      newlines. */
  function Blocks(s: string): seq<string>
    decreases |s|
  {
    var k := DoubleBreak(s);
    if k == |s| then [s] else [s[..k]] + Blocks(s[NewlineRunEnd(s, k)..])
  }

  /** `flatMap((block) => block.split(/\n/))`. */
  function FlatLines(blocks: seq<string>): seq<string> {
    if |blocks| == 0 then [] else Lines(blocks[0]) + FlatLines(blocks[1..])
  }

  /** `map((s) => s.trim()).filter(Boolean)`. */
  function CleanPieces(ps: seq<string>): seq<string> {
    if |ps| == 0 then [] else CleanPiece(ps[0]) + CleanPieces(ps[1..])
  }

  function CleanPiece(p: string): seq<string> {
    var t := Trim(p);
    if t == "" then [] else [t]
  }

  /** The chat bubbles a reply is shown as. */
  function Segments(reply: string): seq<string> {
    CleanPieces(FlatLines(Blocks(reply)))
  }

  lemma {:induction false} CleanPiecesAppend(a: seq<string>, b: seq<string>)
    ensures CleanPieces(a + b) == CleanPieces(a) + CleanPieces(b)
  {
    if |a| > 0 {
      assert (a + b)[0] == a[0];
      assert (a + b)[1..] == a[1..] + b;
      CleanPiecesAppend(a[1..], b);
      calc {
        CleanPieces(a + b);
        CleanPiece(a[0]) + CleanPieces(a[1..] + b);
        CleanPiece(a[0]) + (CleanPieces(a[1..]) + CleanPieces(b));
        (CleanPiece(a[0]) + CleanPieces(a[1..])) + CleanPieces(b);
      }
    } else {
      assert a + b == b;
    }
  }

  /** Newlines at the front of a text only add empty lines, which the
      cleaning drops. */
  lemma {:induction false} LeadingNewlinesVanish(t: string, j: nat)
    requires j <= |t| && forall i :: 0 <= i < j ==> t[i] == '\n'
    ensures CleanPieces(Lines(t)) == CleanPieces(Lines(t[j..]))
  {
    if j > 0 {
      assert Lines(t) == [""] + Lines(t[1..]) by {
        assert t == "" + "\n" + t[1..];
        LinesAppend("", t[1..]);
        assert Lines("") == [""];
      }
      assert CleanPieces([""] + Lines(t[1..])) == CleanPieces(Lines(t[1..])) by {
        assert ([""] + Lines(t[1..]))[1..] == Lines(t[1..]);
        assert CleanPiece("") == [];
      }
      LeadingNewlinesVanish(t[1..], j - 1);
      assert t[1..][j - 1..] == t[j..];
    }
  }

  /** Splitting first at blank-line runs and then at single newlines gives,
      once cleaned, the same bubbles as splitting at every newline: the
      bubbles are the non-blank lines of the reply, trimmed, in order. */
  lemma {:induction false} SegmentsAreCleanLines(reply: string)
    ensures Segments(reply) == CleanPieces(Lines(reply))
    decreases |reply|
  {
    var k := DoubleBreak(reply);
    if k == |reply| {
      assert Blocks(reply) == [reply];
      assert FlatLines([reply]) == Lines(reply) by {
        assert [reply][1..] == [];
      }
    } else {
      var e := NewlineRunEnd(reply, k);
      var rest := reply[e..];
      assert Blocks(reply) == [reply[..k]] + Blocks(rest);
      SegmentsAreCleanLines(rest);
      BreakSplitsLines(reply, k, e);
      FlatLinesCons(reply[..k], Blocks(rest));
      CleanPiecesAppend(Lines(reply[..k]), FlatLines(Blocks(rest)));
    }
  }

  lemma FlatLinesCons(b: string, bs: seq<string>)
    ensures FlatLines([b] + bs) == Lines(b) + FlatLines(bs)
  {
    assert ([b] + bs)[1..] == bs;
  }

  /** At a blank-line run the cleaned lines split into those before the
      run and those after it. */
  lemma BreakSplitsLines(reply: string, k: nat, e: nat)
    requires k < e <= |reply| && forall i :: k <= i < e ==> reply[i] == '\n'
    ensures CleanPieces(Lines(reply)) == CleanPieces(Lines(reply[..k])) + CleanPieces(Lines(reply[e..]))
  {
    LinesAtNewline(reply, k);
    CleanPiecesAppend(Lines(reply[..k]), Lines(reply[k + 1..]));
    NewlineRunVanishes(reply, k, e);
  }

  lemma LinesAtNewline(s: string, k: nat)
    requires k < |s| && s[k] == '\n'
    ensures Lines(s) == Lines(s[..k]) + Lines(s[k + 1..])
  {
    assert s == s[..k] + "\n" + s[k + 1..];
    LinesAppend(s[..k], s[k + 1..]);
  }

  lemma NewlineRunVanishes(s: string, k: nat, e: nat)
    requires k < e <= |s| && forall i :: k <= i < e ==> s[i] == '\n'
    ensures CleanPieces(Lines(s[k + 1..])) == CleanPieces(Lines(s[e..]))
  {
    LeadingNewlinesVanish(s[k + 1..], e - k - 1);
    assert s[k + 1..][e - k - 1..] == s[e..];
  }

  /** What cleaning keeps of one piece is non-blank, trimmed and free of
      newlines when the piece was. */
  predicate Clean(s: string) {
    s != "" && Trim(s) == s && '\n' !in s
  }

  lemma CleanPieceClean(p: string)
    requires '\n' !in p
    ensures forall s :: s in CleanPiece(p) ==> Clean(s)
  {
    TrimIdempotent(p);
    if '\n' in Trim(p) {
      TrimKeepsOnly(p, '\n');
    }
  }

  lemma {:induction false} CleanPiecesClean(ps: seq<string>)
    requires forall i :: 0 <= i < |ps| ==> '\n' !in ps[i]
    ensures forall s :: s in CleanPieces(ps) ==> Clean(s)
  {
    if |ps| > 0 {
      CleanPiecesClean(ps[1..]);
      CleanPieceClean(ps[0]);
    }
  }

  /** Every bubble is non-empty, already trimmed and a single line. */
  lemma SegmentsAreClean(reply: string)
    ensures forall s :: s in Segments(reply) ==> s != "" && Trim(s) == s && '\n' !in s
  {
    SegmentsAreCleanLines(reply);
    LinesHaveNoNewline(reply);
    CleanPiecesClean(Lines(reply));
  }

  /** A one-line reply that is not blank becomes exactly one bubble, the
      reply trimmed. */
  lemma SingleLineReply(reply: string)
    requires '\n' !in reply && Trim(reply) != ""
    ensures Segments(reply) == [Trim(reply)]
  {
    assert Blocks(reply) == [reply] by {
      assert DoubleBreak(reply) == |reply|;
    }
    LinesOfSingleLine(reply);
    assert FlatLines([reply]) == [reply] by {
      assert [reply][1..] == [];
    }
    assert CleanPieces([reply]) == CleanPiece(reply) by {
      assert [reply][1..] == [];
    }
  }

  // ---------------------------------------------------------------- pacing

  /** The pause after a bubble of `len` UTF-16 units: 35 ms per unit on
      top of 400 ms, capped at 6 s. */
  function RevealDelay(len: nat): (d: nat)
    ensures 400 <= d <= 6000
    ensures len <= 160 ==> d == 400 + 35 * len
    ensures len > 160 ==> d == 6000
  {
    var raw := 400 + 35 * len;
    var atLeast := if raw < 400 then 400 else raw;
    if atLeast < 6000 then atLeast else 6000
  }

  function SegmentDelay(text: string): nat {
    RevealDelay(Utf16Length(text))
  }

  /** The pauses of a whole reply, bubble by bubble. */
  function Pauses(segs: seq<string>): (r: seq<nat>)
    ensures |r| == |segs|
    ensures forall j :: 0 <= j < |segs| ==> r[j] == SegmentDelay(segs[j])
  {
    if |segs| == 0 then [] else Pauses(segs[..|segs| - 1]) + [SegmentDelay(segs[|segs| - 1])]
  }

  /** A longer bubble never waits less. */
  lemma DelayGrowsWithLength(a: string, b: string)
    requires Utf16Length(a) <= Utf16Length(b)
    ensures SegmentDelay(a) <= SegmentDelay(b)
  {
  }
}

=== FILE: chat_time.dfy ===
/** The time shown in a conversation (src/screens/wechat/WeChatScreen.tsx):
    the day-bucketed label of a message time and the rule that decides
    which messages get a time separator above them. The host clock and
    time zone are replaced by the calendar fields of the message time in
    local time, the current year and the number of local midnights between
    the message and now. */
module ChatTime {
  import opened Wrappers
  import opened Text
  import opened ChatLog

  /** `Date.prototype.getDay()`: 0 is Sunday. */
  type Weekday = d: nat | d < 7

  /** A message time in local time: `month` counts from 0 as
      `getMonth()` does. */
  type Hour = h: nat | h < 24
  type Minute = m: nat | m < 60

  datatype LocalTime = LocalTime(year: int, month: nat, date: nat, hours: Hour, minutes: Minute, weekday: Weekday)

  /** The host's local time of a timestamp, as a `Date` built from it
      reads it; time zone and daylight saving are the host's. */
  type Zone = int -> LocalTime

  const FiveMinutes: int := 5 * 60 * 1000

  /** `HH:MM`: hours and minutes, each as two digits. */
  function HourMinute(t: LocalTime): string {
    [DigitChar(t.hours / 10), DigitChar(t.hours % 10), ':', DigitChar(t.minutes / 10), DigitChar(t.minutes % 10)]
  }

  /** The time of day is the hours and the minutes, each padded to two
      digits with `padStart(2, "0")`, around a colon. */
  lemma HourMinuteIsPadded(t: LocalTime)
    ensures HourMinute(t) == Pad2(t.hours) + ":" + Pad2(t.minutes)
  {
    Pad2TwoDigits(t.hours);
    Pad2TwoDigits(t.minutes);
  }

  lemma Pad2TwoDigits(n: nat)
    requires n < 100
    ensures Pad2(n) == [DigitChar(n / 10), DigitChar(n % 10)]
  {
    if n >= 10 {
      assert NatToString(n) == NatToString(n / 10) + [DigitChar(n % 10)];
      assert NatToString(n / 10) == [DigitChar(n / 10)];
    }
  }

  function WeekdayName(d: Weekday): string {
    ["日", "一", "二", "三", "四", "五", "六"][d]
  }

  /** `formatChatTimeLabel`: a message from an earlier year shows its full
      date, one more than seven days old its month and day, one from today
      only its time, yesterday's "昨天", the day before's "前天" and its
      weekday, and any other its weekday. */
  function FormatChatTimeLabel(t: LocalTime, nowYear: int, dayDiff: int): string {
    var hm := HourMinute(t);
    if t.year < nowYear then
      IntToString(t.year) + "年" + Pad2(t.month + 1) + "月" + Pad2(t.date) + "日 " + hm
    else if dayDiff > 7 then
      Pad2(t.month + 1) + "月" + Pad2(t.date) + "日 " + hm
    else if dayDiff == 0 then
      hm
    else if dayDiff == 1 then
      "昨天 " + hm
    else
      var weekday := "星期" + WeekdayName(t.weekday);
      if dayDiff == 2 then "前天 " + weekday + " " + hm else weekday + " " + hm
  }

  /** Every label ends with the time of day, and only today's is nothing
      more than that. */
  lemma LabelEndsWithTime(t: LocalTime, nowYear: int, dayDiff: int)
    ensures EndsWith(FormatChatTimeLabel(t, nowYear, dayDiff), HourMinute(t))
    ensures FormatChatTimeLabel(t, nowYear, dayDiff) == HourMinute(t) <==> t.year >= nowYear && dayDiff == 0
  {
    var hm := HourMinute(t);
    var p: string;
    if t.year < nowYear {
      p := IntToString(t.year) + "年" + Pad2(t.month + 1) + "月" + Pad2(t.date) + "日 ";
    } else if dayDiff > 7 {
      p := Pad2(t.month + 1) + "月" + Pad2(t.date) + "日 ";
    } else if dayDiff == 0 {
      p := "";
    } else if dayDiff == 1 {
      p := "昨天 ";
    } else if dayDiff == 2 {
      p := "前天 " + "星期" + WeekdayName(t.weekday) + " ";
    } else {
      p := "星期" + WeekdayName(t.weekday) + " ";
    }
    assert FormatChatTimeLabel(t, nowYear, dayDiff) == p + hm;
    assert (p + hm)[|p + hm| - |hm|..] == hm;
    assert |p + hm| == |hm| <==> p == "";
  }

  /** The year is shown exactly for messages of an earlier year. */
  lemma YearShownIffEarlierYear(t: LocalTime, nowYear: int, dayDiff: int)
    ensures '年' in FormatChatTimeLabel(t, nowYear, dayDiff) <==> t.year < nowYear
  {
    var hm := HourMinute(t);
    assert '年' !in hm;
    assert '年' !in Pad2(t.month + 1) && '年' !in Pad2(t.date);
    assert '年' !in "星期" + WeekdayName(t.weekday);
  }

  /** The month is shown exactly for an earlier year or more than seven
      days back. */
  lemma MonthShownIffOld(t: LocalTime, nowYear: int, dayDiff: int)
    ensures '月' in FormatChatTimeLabel(t, nowYear, dayDiff) <==> t.year < nowYear || dayDiff > 7
  {
    var hm := HourMinute(t);
    assert '月' !in hm;
    assert '月' !in IntToString(t.year);
    assert '月' !in "星期" + WeekdayName(t.weekday);
  }

  /** The weekday is shown exactly for this year's messages two to seven
      days back and, as the code is written, for those from after today
      (a negative day difference falls through to the weekday case). */
  lemma WeekdayShownIff(t: LocalTime, nowYear: int, dayDiff: int)
    ensures '星' in FormatChatTimeLabel(t, nowYear, dayDiff)
       <==> t.year >= nowYear && (2 <= dayDiff <= 7 || dayDiff < 0)
  {
    var hm := HourMinute(t);
    assert '星' !in hm;
    assert '星' !in IntToString(t.year);
    assert '星' !in Pad2(t.month + 1) && '星' !in Pad2(t.date);
  }

  /** Yesterday's messages are labelled "昨天" and the time; those of the
      day before, "前天", their weekday and the time. Neither word appears
      in any other label. */
  lemma DayLabels(t: LocalTime, nowYear: int, dayDiff: int)
    ensures t.year >= nowYear && dayDiff == 1 ==> FormatChatTimeLabel(t, nowYear, dayDiff) == "昨天 " + HourMinute(t)
    ensures t.year >= nowYear && dayDiff == 2 ==>
      && |FormatChatTimeLabel(t, nowYear, dayDiff)| >= 6
      && FormatChatTimeLabel(t, nowYear, dayDiff)[..5] == "前天 星期"
      && FormatChatTimeLabel(t, nowYear, dayDiff)[5..6] == WeekdayName(t.weekday)
      && EndsWith(FormatChatTimeLabel(t, nowYear, dayDiff), " " + HourMinute(t))
    ensures '昨' in FormatChatTimeLabel(t, nowYear, dayDiff) <==> t.year >= nowYear && dayDiff == 1
    ensures '前' in FormatChatTimeLabel(t, nowYear, dayDiff) <==> t.year >= nowYear && dayDiff == 2
  {
    var hm := HourMinute(t);
    var shown := FormatChatTimeLabel(t, nowYear, dayDiff);
    assert '昨' !in hm && '前' !in hm;
    assert '昨' !in IntToString(t.year) && '前' !in IntToString(t.year);
    assert '昨' !in Pad2(t.month + 1) && '昨' !in Pad2(t.date);
    assert '前' !in Pad2(t.month + 1) && '前' !in Pad2(t.date);
    assert '昨' !in "星期" + WeekdayName(t.weekday) && '前' !in "星期" + WeekdayName(t.weekday);
    if t.year >= nowYear && dayDiff == 2 {
      assert shown == "前天 星期" + WeekdayName(t.weekday) + (" " + hm);
    }
  }

  // ---------------------------------------------------------------- clock

  /** The `HH:MM` of a timestamp, as `getHours()`/`getMinutes()` and
      `toTimeString().slice(0, 5)` give it. */
  function ClockLabel(ts: int, zone: Zone): string {
    HourMinute(zone(ts))
  }

  /** A clock label is five characters: two digits, a colon, two digits. */
  lemma ClockLabelFormat(ts: int, zone: Zone)
    ensures var r := ClockLabel(ts, zone);
      |r| == 5 && r[2] == ':' && forall i :: 0 <= i < 5 && i != 2 ==> IsDigit(r[i])
  {
  }

  // ---------------------------------------------------------------- separators

  /** `m.timestamp ?? 0`. */
  function TimestampOrZero(m: Message): int {
    m.timestamp.GetOr(0)
  }

  /** `needTime`: the first message, and any message more than five
      minutes after the previous one (a missing time counting as 0), gets
      a time separator. */
  predicate NeedTime(ms: seq<Message>, i: nat)
    requires i < |ms|
  {
    i == 0 || TimestampOrZero(ms[i]) - TimestampOrZero(ms[i - 1]) > FiveMinutes
  }

  /** In a conversation whose consecutive messages are all at most five
      minutes apart, only the first message gets a separator. */
  lemma OnlyFirstSeparatorWithoutGaps(ms: seq<Message>)
    requires forall i :: 0 < i < |ms| ==> TimestampOrZero(ms[i]) - TimestampOrZero(ms[i - 1]) <= FiveMinutes
    ensures forall i :: 0 <= i < |ms| ==> (NeedTime(ms, i) <==> i == 0)
  {
  }

  /** A message without a time after one that has a positive time never
      gets a separator; a message with a time more than five minutes after
      the epoch, after one without, always does. */
  lemma MissingTimeSeparators(ms: seq<Message>, i: nat)
    requires 0 < i < |ms|
    ensures ms[i].timestamp.None? && TimestampOrZero(ms[i - 1]) >= 0 ==> !NeedTime(ms, i)
    ensures ms[i - 1].timestamp.None? && TimestampOrZero(ms[i]) > FiveMinutes ==> NeedTime(ms, i)
  {
  }
}

=== FILE: contacts.dfy ===
/** The "new contact" form of src/screens/wechat/WeChatScreen.tsx: the
    three required fields, the id made from the clock, and the profile
    patch it hands to `updateChatProfile`. */
module Contacts {
  import opened Wrappers
  import opened Text
  import opened Settings
  import opened SettingsMigration
  import opened WeChat

  /** What the player typed into the form, untrimmed. */
  datatype ContactForm = ContactForm(
    remark: string,
    callMeAs: string,
    myIdentity: string,
    characterIdentity: string,
    chatStyle: string,
    openingLine: string)

  const RequiredFieldsMessage: string := "备注名、我的身份、聊天对象的身份为必填项哦～"
  const ContactIdPrefix: string := "friend_"

  /** `friend_${Date.now()}`: the clock is a parameter. */
  function ContactId(now: nat): (id: string)
    ensures |id| > |ContactIdPrefix| && id[..|ContactIdPrefix|] == ContactIdPrefix
  {
    ContactIdPrefix + NatToString(now)
  }

  /** Two creations at different milliseconds get different ids. */
  lemma ContactIdsDiffer(a: nat, b: nat)
    requires a != b
    ensures ContactId(a) != ContactId(b)
  {
    if ContactId(a) == ContactId(b) {
      assert ContactId(a)[|ContactIdPrefix|..] == NatToString(a);
      assert ContactId(b)[|ContactIdPrefix|..] == NatToString(b);
      NatToStringInjective();
    }
  }

  /** The patch the form submits: every field trimmed, a blank addressing
      replaced by "你", a blank opening line left `undefined`, and no
      worldbooks. */
  function ContactPatch(id: string, f: ContactForm): ChatProfilePatch {
    var callMeAs := if Trim(f.callMeAs) == "" then DefaultCallMeAs else Trim(f.callMeAs);
    var opening := if Trim(f.openingLine) == "" then None else Some(Trim(f.openingLine));
    ChatProfilePatch(Some(id), Some(Trim(f.remark)), None, None, Some(callMeAs), Some([]),
                     Some(Trim(f.myIdentity)), Some(Trim(f.characterIdentity)), Some(Trim(f.chatStyle)),
                     Some(opening))
  }

  /** `handleCreate`: refused with the required-fields message when the
      remark, the player's identity or the contact's identity is blank;
      otherwise the settings with the new profile, and the new contact's id. */
  function CreateContact(s: SettingsState, f: ContactForm, now: nat): (r: Result<(SettingsState, string), string>)
    ensures r.Err? <==> Trim(f.remark) == "" || Trim(f.myIdentity) == "" || Trim(f.characterIdentity) == ""
    ensures r.Err? ==> r.error == RequiredFieldsMessage
    ensures r.Ok? ==> r.value.1 == ContactId(now)
    ensures r.Ok? ==> r.value.0.chatProfiles.Keys == s.chatProfiles.Keys + {ContactId(now)}
    ensures r.Ok? ==> r.value.0.(chatProfiles := s.chatProfiles) == s
  {
    if Trim(f.remark) == "" || Trim(f.myIdentity) == "" || Trim(f.characterIdentity) == "" then
      Err(RequiredFieldsMessage)
    else
      var id := ContactId(now);
      Ok((UpdateChatProfile(s, id, ContactPatch(id, f)), id))
  }

  /** The stored profile of a created contact: the trimmed form, the
      defaults for a blank addressing or opening line, no worldbooks, and
      the avatar of the profile it was spread over. Every other contact is
      untouched. */
  lemma CreatedProfile(s: SettingsState, f: ContactForm, now: nat)
    requires CreateContact(s, f, now).Ok?
    ensures var id := ContactId(now);
      var p := CreateContact(s, f, now).value.0.chatProfiles[id];
      var base := if id in s.chatProfiles then s.chatProfiles[id] else BlankProfile(id);
      && p.id == id
      && p.remark == Trim(f.remark) && p.remark != ""
      && p.myIdentity == Trim(f.myIdentity) && p.myIdentity != ""
      && p.characterIdentity == Trim(f.characterIdentity) && p.characterIdentity != ""
      && p.chatStyle == Trim(f.chatStyle)
      && p.callMeAs == (if Trim(f.callMeAs) == "" then "你" else Trim(f.callMeAs))
      && p.openingLine == (if Trim(f.openingLine) == "" then None else Some(Trim(f.openingLine)))
      && p.worldbooks == []
      && p.avatarEmoji == base.avatarEmoji && p.avatarUrl == base.avatarUrl
    ensures forall k :: k in s.chatProfiles && k != ContactId(now) ==>
      CreateContact(s, f, now).value.0.chatProfiles[k] == s.chatProfiles[k]
  {
  }

  /** The text fields of a created profile are already trimmed, so editing
      them again in the form and trimming changes nothing. */
  lemma CreatedFieldsTrimmed(s: SettingsState, f: ContactForm, now: nat)
    requires CreateContact(s, f, now).Ok?
    ensures var p := CreateContact(s, f, now).value.0.chatProfiles[ContactId(now)];
      Trim(p.remark) == p.remark && Trim(p.myIdentity) == p.myIdentity
      && Trim(p.characterIdentity) == p.characterIdentity && Trim(p.callMeAs) == p.callMeAs
  {
    CreatedProfile(s, f, now);
    TrimIdempotent(f.remark);
    TrimIdempotent(f.myIdentity);
    TrimIdempotent(f.characterIdentity);
    TrimIdempotent(f.callMeAs);
    DefaultCallMeAsTrimmed();
  }

  lemma DefaultCallMeAsTrimmed()
    ensures Trim(DefaultCallMeAs) == DefaultCallMeAs
  {
    assert DefaultCallMeAs == ['你'];
    assert !IsJsSpace('你');
    assert TrimStart(['你']) == ['你'];
  }

  /** The new conversation opens with the trimmed opening line as the
      contact's first message, and with nothing when the line was left
      blank. */
  lemma CreatedContactOpening(s: SettingsState, f: ContactForm, now: nat)
    requires CreateContact(s, f, now).Ok?
    ensures OpeningText(CreateContact(s, f, now).value.0.chatProfiles, ContactId(now)) == Trim(f.openingLine)
  {
    CreatedProfile(s, f, now);
    TrimIdempotent(f.openingLine);
  }

  /** A contact created under a fresh id without an opening line has the
      default opening line once the settings are saved and read back: the
      stored `undefined` is filled in on reload. */
  lemma CreatedContactAfterReload(s: SettingsState, f: ContactForm, now: nat)
    requires CreateContact(s, f, now).Ok? && ContactId(now) !in s.chatProfiles
    requires Trim(f.openingLine) == ""
    ensures var s1 := CreateContact(s, f, now).value.0;
      Migrated(Parsed(Encode(s1))).chatProfiles[ContactId(now)]
        == s1.chatProfiles[ContactId(now)].(openingLine := Some(DefaultOpeningLine))
  {
    CreatedProfile(s, f, now);
    ReloadFillsOpeningLine(CreateContact(s, f, now).value.0, ContactId(now));
  }
}

=== FILE: home.dfy ===
/** The home screen's app grid of src/screens/home/HomeScreen.tsx: the
    order of the app icons, restored from storage on mount, rearranged by
    dragging one icon over another, and saved back once it has been
    restored. */
module Home {
  import opened Wrappers
  import opened Seqs

  datatype App = App(id: string, name: string, icon: string)

  /** The apps on the home screen, in their default order. */
  const Apps: seq<App> := [
    App("wechat", "微信", "💬"),
    App("weibo", "微博", "✿"),
    App("food", "外卖", "🍰"),
    App("xiaohongshu", "小红书", "♡"),
    App("shopping", "购物", "🛍"),
    App("worldbook", "世界书", "📖"),
    App("settings", "设置", "⚙")
  ]

  /** `apps.map((a) => a.id)`. */
  const DefaultOrder: seq<string> := ["wechat", "weibo", "food", "xiaohongshu", "shopping", "worldbook", "settings"]

  lemma DefaultOrderIsAppIds()
    ensures |DefaultOrder| == |Apps|
    ensures forall i :: 0 <= i < |Apps| ==> DefaultOrder[i] == Apps[i].id
    ensures NoDuplicates(DefaultOrder)
  {
  }

  /** `apps.some((a) => a.id === id)`. */
  predicate IsKnown(id: string) {
    id in DefaultOrder
  }

  /** `apps.find((a) => a.id === id)`. */
  function FindApp(id: string): (r: Option<App>)
    ensures r.Some? <==> IsKnown(id)
    ensures r.Some? ==> r.value in Apps && r.value.id == id
  {
    FindIn(Apps, id)
  }

  function FindIn(apps: seq<App>, id: string): (r: Option<App>)
    ensures r.Some? <==> exists i :: 0 <= i < |apps| && apps[i].id == id
    ensures r.Some? ==> r.value in apps && r.value.id == id
  {
    if |apps| == 0 then None
    else if apps[0].id == id then Some(apps[0])
    else FindIn(apps[1..], id)
  }

  // ---------------------------------------------------------------- restore

  /** What the order slot of storage holds: nothing (or the empty
      string), something that is not a JSON array, or an array. */
  datatype StoredOrder = NoOrder | BadOrder | Order(ids: seq<string>)

  /** `[...valid, ...missing]`: the stored ids that name an app, followed by
      the apps the stored list lacks, in default order. */
  function Reconcile(stored: seq<string>): (r: seq<string>)
    ensures forall id :: id in r <==> IsKnown(id)
  {
    var valid := Filter(stored, IsKnown);
    valid + Without(DefaultOrder, valid)
  }

  /** The front of the reconciled order is the known ids of the stored
      list in their stored relative order, and the rest is exactly the
      apps the stored list lacks, in default order. */
  lemma ReconcileKeepsStoredOrder(stored: seq<string>)
    ensures var valid := Filter(stored, IsKnown);
      && Reconcile(stored)[..|valid|] == valid
      && IsSubsequence(valid, stored)
      && IsSubsequence(Reconcile(stored)[|valid|..], DefaultOrder)
      && forall id :: id in Reconcile(stored)[|valid|..] <==> id in DefaultOrder && id !in stored
  {
    var valid := Filter(stored, IsKnown);
    var r := Reconcile(stored);
    assert r[..|valid|] == valid;
    assert r[|valid|..] == Without(DefaultOrder, valid);
    FilterIsSubsequence(stored, IsKnown);
    WithoutIsSubsequence(DefaultOrder, valid);
    forall id | id in DefaultOrder ensures id in valid <==> id in stored {
      assert IsKnown(id);
    }
  }

  /** With no stored order, or an empty one, the default order is kept. */
  lemma ReconcileEmpty()
    ensures Reconcile([]) == DefaultOrder
  {
    assert Filter([], IsKnown) == [];
    WithoutNothing(DefaultOrder);
  }

  lemma {:induction false} WithoutNothing(s: seq<string>)
    ensures Without(s, []) == s
  {
    if |s| > 0 {
      WithoutNothing(s[1..]);
    }
  }

  /** A stored list without duplicates is reconciled into a permutation of
      the app ids. */
  lemma ReconcileIsPermutation(stored: seq<string>)
    requires NoDuplicates(stored)
    ensures multiset(Reconcile(stored)) == multiset(DefaultOrder)
  {
    var valid := Filter(stored, IsKnown);
    forall x ensures multiset(valid)[x] <= 1 {
      MultisetOfFilter(stored, IsKnown, x);
      AtMostOnce(stored, x);
    }
    DefaultOrderIsAppIds();
    SplitPermutation(valid, DefaultOrder);
  }

  /** Some of the known ids, each at most once, followed by the rest of
      them is a permutation of the known ids. */
  lemma SplitPermutation(valid: seq<string>, known: seq<string>)
    requires NoDuplicates(known)
    requires forall x :: multiset(valid)[x] <= 1
    requires forall x :: x in valid ==> x in known
    ensures multiset(valid + Without(known, valid)) == multiset(known)
  {
    assert multiset(valid + Without(known, valid)) == multiset(valid) + multiset(Without(known, valid));
    forall x ensures multiset(valid + Without(known, valid))[x] == multiset(known)[x] {
      MultisetOfWithout(known, valid, x);
      AtMostOnce(known, x);
    }
  }

  // ---------------------------------------------------------------- drag

  /** `arr.indexOf(x)`: the first position of `x`, or -1. */
  function IndexOf(s: seq<string>, x: string): (k: int)
    ensures -1 <= k < |s|
    ensures k == -1 <==> x !in s
    ensures k >= 0 ==> s[k] == x && x !in s[..k]
  {
    if |s| == 0 then -1
    else if s[0] == x then 0
    else
      var k := IndexOf(s[1..], x);
      assert k >= 0 ==> s[..k + 1] == [s[0]] + s[1..][..k];
      if k == -1 then -1 else k + 1
  }

  /** `splice(f, 1)`. */
  function Remove(s: seq<string>, f: nat): (r: seq<string>)
    requires f < |s|
    ensures |r| == |s| - 1
  {
    s[..f] + s[f + 1..]
  }

  /** `splice(t, 0, x)`. */
  function Insert(s: seq<string>, t: nat, x: string): (r: seq<string>)
    requires t <= |s|
    ensures |r| == |s| + 1
  {
    s[..t] + [x] + s[t..]
  }

  /** The element at `f` taken out and put back in at `t`. */
  function Move(s: seq<string>, f: nat, t: nat): (r: seq<string>)
    requires f < |s| && t < |s|
    ensures |r| == |s|
  {
    Insert(Remove(s, f), t, s[f])
  }

  /** Where each element of a move comes from. */
  lemma MoveAt(s: seq<string>, f: nat, t: nat, k: nat)
    requires f < |s| && t < |s| && k < |s|
    ensures Move(s, f, t)[k] ==
      if k == t then s[f]
      else if f < t && f <= k < t then s[k + 1]
      else if t < f && t < k <= f then s[k - 1]
      else s[k]
  {
  }

  /** A move keeps every element with its multiplicity. */
  lemma MoveIsPermutation(s: seq<string>, f: nat, t: nat)
    requires f < |s| && t < |s|
    ensures multiset(Move(s, f, t)) == multiset(s)
  {
    var r := Remove(s, f);
    assert s == s[..f] + [s[f]] + s[f + 1..];
    assert multiset(s) == multiset(s[..f]) + multiset{s[f]} + multiset(s[f + 1..]);
    assert r == s[..f] + s[f + 1..];
    assert multiset(r) == multiset(s[..f]) + multiset(s[f + 1..]);
    assert r == r[..t] + r[t..];
    assert multiset(r) == multiset(r[..t]) + multiset(r[t..]);
    assert Move(s, f, t) == r[..t] + [s[f]] + r[t..];
    assert multiset(Move(s, f, t)) == multiset(r[..t]) + multiset{s[f]} + multiset(r[t..]);
    assert multiset(Move(s, f, t)) == multiset(r) + multiset{s[f]};
  }

  /** The moved element lands at the target index, and taking it out again
      leaves the others in their original relative order. */
  lemma MoveLandsAtTarget(s: seq<string>, f: nat, t: nat)
    requires f < |s| && t < |s|
    ensures Move(s, f, t)[t] == s[f]
    ensures Remove(Move(s, f, t), t) == Remove(s, f)
  {
    var r := Remove(s, f);
    var m := Move(s, f, t);
    assert m[..t] == r[..t];
    assert m[t + 1..] == r[t..];
  }

  /** The in-place splice pair on a copy: the element at `f` is taken out
      and inserted at `t`, shifting the elements between one place. */
  method MoveInPlace(a: array<string>, f: nat, t: nat)
    requires f < a.Length && t < a.Length
    modifies a
    ensures a[..] == Move(old(a[..]), f, t)
  {
    var x := a[f];
    if f < t {
      ShiftDown(a, f, t);
    } else {
      ShiftUp(a, t, f);
    }
    a[t] := x;
    forall k | 0 <= k < a.Length ensures a[k] == Move(old(a[..]), f, t)[k] {
      MoveAt(old(a[..]), f, t, k);
    }
  }

  /** The elements after `f` up to `t` each move one place towards the
      front; the rest stay. */
  method ShiftDown(a: array<string>, f: nat, t: nat)
    requires f < t < a.Length
    modifies a
    ensures forall k :: 0 <= k < f || t <= k < a.Length ==> a[k] == old(a[k])
    ensures forall k :: f <= k < t ==> a[k] == old(a[k + 1])
  {
    var i := f;
    while i < t
      invariant f <= i <= t
      invariant forall k :: 0 <= k < f || i <= k < a.Length ==> a[k] == old(a[k])
      invariant forall k :: f <= k < i ==> a[k] == old(a[k + 1])
    {
      a[i] := a[i + 1];
      i := i + 1;
    }
  }

  /** The elements from `t` up to before `f` each move one place towards
      the back; the rest stay. */
  method ShiftUp(a: array<string>, t: nat, f: nat)
    requires t <= f < a.Length
    modifies a
    ensures forall k :: 0 <= k <= t || f < k < a.Length ==> a[k] == old(a[k])
    ensures forall k :: t < k <= f ==> a[k] == old(a[k - 1])
  {
    var i := f;
    while i > t
      invariant t <= i <= f
      invariant forall k :: 0 <= k <= i || f < k < a.Length ==> a[k] == old(a[k])
      invariant forall k :: i < k <= f ==> a[k] == old(a[k - 1])
    {
      a[i] := a[i - 1];
      i := i - 1;
    }
  }

  // ---------------------------------------------------------------- display

  /** `orderedApps`: each id mapped to its app, unknown ids dropped. */
  function OrderedApps(order: seq<string>): (r: seq<App>)
    ensures |r| <= |order|
    ensures forall a :: a in r ==> a in Apps
  {
    if |order| == 0 then []
    else
      var rest := OrderedApps(order[1..]);
      match FindApp(order[0])
      case Some(app) => [app] + rest
      case None => rest
  }

  /** The displayed apps are exactly the known ids of the order, in order. */
  lemma {:induction false} OrderedAppsFollowOrder(order: seq<string>)
    ensures |OrderedApps(order)| == |Filter(order, IsKnown)|
    ensures forall i :: 0 <= i < |OrderedApps(order)| ==> OrderedApps(order)[i].id == Filter(order, IsKnown)[i]
  {
    if |order| > 0 {
      var rest := order[1..];
      OrderedAppsFollowOrder(rest);
      var o, f := OrderedApps(order), Filter(order, IsKnown);
      var ro, rf := OrderedApps(rest), Filter(rest, IsKnown);
      if FindApp(order[0]).Some? {
        assert o == [FindApp(order[0]).value] + ro;
        assert f == [order[0]] + rf;
        forall i | 0 < i < |o| ensures o[i].id == f[i] {
          assert o[i] == ro[i - 1] && f[i] == rf[i - 1];
        }
      } else {
        assert o == ro;
        assert f == [] + rf;
      }
    }
  }

  // ---------------------------------------------------------------- screen

  /** The home screen's order state and the storage slot it restores from
      and saves to. */
  class HomeScreen {
    var appsOrder: seq<string>
    var orderLoaded: bool
    var dragFrom: Option<string>
    /** The order slot of local storage. */
    var stored: StoredOrder

    constructor (slot: StoredOrder)
      ensures appsOrder == DefaultOrder && !orderLoaded && dragFrom == None && stored == slot
    {
      appsOrder := DefaultOrder;
      orderLoaded := false;
      dragFrom := None;
      stored := slot;
    }

    /** The mount effect. An empty slot returns before the order is marked
      as loaded; an unreadable one is ignored and the order is marked as
      loaded; an array is reconciled. */
    method RestoreOrder()
      modifies this
      ensures stored == old(stored) && dragFrom == old(dragFrom)
      ensures old(stored).NoOrder? ==> appsOrder == old(appsOrder) && orderLoaded == old(orderLoaded)
      ensures old(stored).BadOrder? ==> appsOrder == old(appsOrder) && orderLoaded
      ensures old(stored).Order? ==> appsOrder == Reconcile(old(stored).ids) && orderLoaded
    {
      if stored.NoOrder? {
        return;
      }
      if stored.Order? {
        appsOrder := Reconcile(stored.ids);
      }
      orderLoaded := true;
    }

    /** The saving effect: it writes only once the order is loaded. */
    method SaveOrder()
      modifies this
      ensures appsOrder == old(appsOrder) && orderLoaded == old(orderLoaded) && dragFrom == old(dragFrom)
      ensures stored == if orderLoaded then Order(appsOrder) else old(stored)
    {
      if orderLoaded {
        stored := Order(appsOrder);
      }
    }

    method DragStart(id: string)
      modifies this
      ensures dragFrom == Some(id)
      ensures appsOrder == old(appsOrder) && orderLoaded == old(orderLoaded) && stored == old(stored)
    {
      dragFrom := Some(id);
    }

    method DragEnd()
      modifies this
      ensures dragFrom == None
      ensures appsOrder == old(appsOrder) && orderLoaded == old(orderLoaded) && stored == old(stored)
    {
      dragFrom := None;
    }

    /** `handleDragOver`: the dragged app moves to the index of the app it
      is over. Nothing happens without a drag source, over the source
      itself, or when either id is not in the order. The drag source is
      kept, so the drag goes on. */
    method DragOver(id: string)
      modifies this
      ensures dragFrom == old(dragFrom) && orderLoaded == old(orderLoaded) && stored == old(stored)
      ensures (old(dragFrom).None? || old(dragFrom).value == id
               || old(dragFrom).value !in old(appsOrder) || id !in old(appsOrder)) ==> appsOrder == old(appsOrder)
      ensures old(dragFrom).Some? && old(dragFrom).value != id
              && old(dragFrom).value in old(appsOrder) && id in old(appsOrder) ==>
                appsOrder == Move(old(appsOrder), IndexOf(old(appsOrder), old(dragFrom).value), IndexOf(old(appsOrder), id))
    {
      if dragFrom.None? || dragFrom.value == id {
        return;
      }
      var from := dragFrom.value;
      var prev := appsOrder;
      var fromIndex := IndexOf(prev, from);
      var toIndex := IndexOf(prev, id);
      if fromIndex == -1 || toIndex == -1 {
        return;
      }
      var current := new string[|prev|](i requires 0 <= i < |prev| => prev[i]);
      assert current[..] == prev;
      MoveInPlace(current, fromIndex, toIndex);
      appsOrder := current[..];
    }
  }

  /** A drag changes the order by a move: the same ids, the dragged one at
      the target's old index, the others in their old relative order. */
  lemma DragOverSummary(order: seq<string>, from: string, over: string)
    requires from != over && from in order && over in order
    ensures var m := Move(order, IndexOf(order, from), IndexOf(order, over));
      && multiset(m) == multiset(order)
      && m[IndexOf(order, over)] == from
      && Remove(m, IndexOf(order, over)) == Remove(order, IndexOf(order, from))
  {
    MoveIsPermutation(order, IndexOf(order, from), IndexOf(order, over));
    MoveLandsAtTarget(order, IndexOf(order, from), IndexOf(order, over));
  }
}

=== FILE: seqs.dfy ===
/** `Array.prototype.filter` and the order facts the model relies on. */
module Seqs {

  /** `s.filter(keep)`. */
  function Filter<T>(s: seq<T>, keep: T -> bool): (r: seq<T>)
    ensures |r| <= |s|
    ensures forall x :: x in r ==> x in s && keep(x)
    ensures forall x :: x in s && keep(x) ==> x in r
  {
    if |s| == 0 then [] else (if keep(s[0]) then [s[0]] else []) + Filter(s[1..], keep)
  }

  /** `sub` is `s` with some elements left out and the rest in order. */
  predicate IsSubsequence<T(==)>(sub: seq<T>, s: seq<T>)
    decreases |s|
  {
    if |sub| == 0 then true
    else if |s| == 0 then false
    else if sub[0] == s[0] then IsSubsequence(sub[1..], s[1..])
    else IsSubsequence(sub, s[1..])
  }

  /** Filtering keeps the surviving elements in their original order. */
  lemma {:induction false} FilterIsSubsequence<T>(s: seq<T>, keep: T -> bool)
    ensures IsSubsequence(Filter(s, keep), s)
  {
    if |s| > 0 {
      FilterIsSubsequence(s[1..], keep);
      var rest := Filter(s[1..], keep);
      if keep(s[0]) {
        assert Filter(s, keep) == [s[0]] + rest;
        assert ([s[0]] + rest)[1..] == rest;
      } else {
        assert Filter(s, keep) == rest;
        SubsequenceDropHead(rest, s);
      }
    }
  }

  /** A subsequence of the tail is a subsequence of the whole. */
  lemma {:induction false} SubsequenceDropHead<T>(sub: seq<T>, s: seq<T>)
    requires |s| > 0 && IsSubsequence(sub, s[1..])
    ensures IsSubsequence(sub, s)
    decreases |s|, |sub|
  {
    if |sub| > 0 && sub[0] == s[0] {
      // IsSubsequence(sub, s) reduces to IsSubsequence(sub[1..], s[1..])
      SubsequenceOfTail(sub, s[1..]);
    }
  }

  /** Dropping the head of a subsequence keeps it a subsequence. */
  lemma {:induction false} SubsequenceOfTail<T>(sub: seq<T>, s: seq<T>)
    requires |sub| > 0 && IsSubsequence(sub, s)
    ensures IsSubsequence(sub[1..], s)
    decreases |s|, |sub|
  {
    if |s| > 0 {
      if sub[0] == s[0] {
        SubsequenceDropHead(sub[1..], s);
      } else {
        SubsequenceOfTail(sub, s[1..]);
        SubsequenceDropHead(sub[1..], s);
      }
    }
  }

  /** Filtering distributes over concatenation. */
  lemma {:induction false} FilterAppend<T>(a: seq<T>, b: seq<T>, keep: T -> bool)
    ensures Filter(a + b, keep) == Filter(a, keep) + Filter(b, keep)
  {
    if |a| > 0 {
      assert (a + b)[1..] == a[1..] + b;
      FilterAppend(a[1..], b, keep);
    } else {
      assert a + b == b;
    }
  }

  /** Elements of `s` that satisfy `keep`, counted. */
  function Count<T>(s: seq<T>, keep: T -> bool): nat {
    if |s| == 0 then 0 else (if keep(s[0]) then 1 else 0) + Count(s[1..], keep)
  }

  /** The filter holds exactly the elements the count counts. */
  lemma {:induction false} FilterLength<T>(s: seq<T>, keep: T -> bool)
    ensures |Filter(s, keep)| == Count(s, keep)
  {
    if |s| > 0 {
      FilterLength(s[1..], keep);
    }
  }

  /** What `keep` does not keep is what `drop` counts. */
  lemma {:induction false} CountComplement<T>(s: seq<T>, keep: T -> bool, drop: T -> bool)
    requires forall x :: keep(x) <==> !drop(x)
    ensures Count(s, keep) == |s| - Count(s, drop)
  {
    if |s| > 0 {
      CountComplement(s[1..], keep, drop);
    }
  }

  /** Filtering keeps the order and drops exactly the elements `drop`
      counts. */
  lemma FilterDropsCounted<T>(keep: T -> bool, drop: T -> bool)
    requires forall x :: keep(x) <==> !drop(x)
    ensures forall s :: IsSubsequence(Filter(s, keep), s) && |Filter(s, keep)| == |s| - Count(s, drop)
  {
    forall s ensures IsSubsequence(Filter(s, keep), s) && |Filter(s, keep)| == |s| - Count(s, drop) {
      FilterIsSubsequence(s, keep);
      FilterLength(s, keep);
      CountComplement(s, keep, drop);
    }
  }

  /** No element occurs twice. */
  predicate NoDuplicates<T(==)>(s: seq<T>) {
    forall i, j :: 0 <= i < j < |s| ==> s[i] != s[j]
  }

  /** The elements of `s` that do not occur in `drop`, in order. */
  function Without<T(==,!new)>(s: seq<T>, drop: seq<T>): (r: seq<T>)
    ensures forall x :: x in r <==> x in s && x !in drop
  {
    if |s| == 0 then [] else (if s[0] in drop then [] else [s[0]]) + Without(s[1..], drop)
  }

  lemma {:induction false} WithoutIsSubsequence<T(!new)>(s: seq<T>, drop: seq<T>)
    ensures IsSubsequence(Without(s, drop), s)
  {
    if |s| > 0 {
      WithoutIsSubsequence(s[1..], drop);
      var rest := Without(s[1..], drop);
      if s[0] !in drop {
        assert Without(s, drop) == [s[0]] + rest;
        assert ([s[0]] + rest)[1..] == rest;
      } else {
        assert Without(s, drop) == rest;
        SubsequenceDropHead(rest, s);
      }
    }
  }

  /** Filtering keeps each kept value as often as it occurs. */
  lemma {:induction false} MultisetOfFilter<T>(s: seq<T>, keep: T -> bool, x: T)
    ensures multiset(Filter(s, keep))[x] == if keep(x) then multiset(s)[x] else 0
  {
    if |s| > 0 {
      MultisetOfFilter(s[1..], keep, x);
      assert s == [s[0]] + s[1..];
      assert multiset(s) == multiset{s[0]} + multiset(s[1..]);
      var head: seq<T> := if keep(s[0]) then [s[0]] else [];
      assert Filter(s, keep) == head + Filter(s[1..], keep);
      assert multiset(Filter(s, keep)) == multiset(head) + multiset(Filter(s[1..], keep));
    }
  }

  /** Leaving out the dropped values keeps the others as often as they
      occur. */
  lemma {:induction false} MultisetOfWithout<T(!new)>(s: seq<T>, drop: seq<T>, x: T)
    ensures multiset(Without(s, drop))[x] == if x in drop then 0 else multiset(s)[x]
  {
    if |s| > 0 {
      MultisetOfWithout(s[1..], drop, x);
      assert s == [s[0]] + s[1..];
      assert multiset(s) == multiset{s[0]} + multiset(s[1..]);
      var head: seq<T> := if s[0] in drop then [] else [s[0]];
      assert Without(s, drop) == head + Without(s[1..], drop);
      assert multiset(Without(s, drop)) == multiset(head) + multiset(Without(s[1..], drop));
    }
  }

  /** In a list without duplicates, every value occurs at most once. */
  lemma {:induction false} AtMostOnce<T>(s: seq<T>, x: T)
    requires NoDuplicates(s)
    ensures multiset(s)[x] <= 1
  {
    if |s| > 0 {
      assert NoDuplicates(s[1..]) by {
        forall i, j | 0 <= i < j < |s[1..]| ensures s[1..][i] != s[1..][j] {
          assert s[1..][i] == s[i + 1] && s[1..][j] == s[j + 1];
        }
      }
      AtMostOnce(s[1..], x);
      assert s == [s[0]] + s[1..];
      assert multiset(s) == multiset{s[0]} + multiset(s[1..]);
      if x == s[0] {
        assert x !in s[1..];
      }
    }
  }
}

=== FILE: settings.dfy ===
/** The persona store of src/context/SettingsContext.tsx: the settings
    snapshot, its patch operations (each builds a new snapshot from the
    previous one) and the global worldbook text. Fresh ids, which the
    source draws from the clock and a random number, are parameters. */
module Settings {
  import opened Wrappers
  import opened Text
  import opened Seqs

  datatype Wallpaper = CreamPink | BlueMilk | MintSoda

  datatype AiConfig = AiConfig(baseUrl: string, apiKey: string, model: string)

  /** One fact of a worldbook. */
  datatype WorldbookItem = WorldbookItem(id: string, title: string, content: string)

  /** A worldbook: a titled, ordered group of items. */
  datatype WorldbookEntry = WorldbookEntry(id: string, title: string, entries: seq<WorldbookItem>)

  /** A contact's persona. `avatarUrl` and `openingLine` can be `undefined`
      (None): contact creation stores an `undefined` opening line. */
  datatype ChatProfile = ChatProfile(
    id: string,
    remark: string,
    avatarEmoji: string,
    avatarUrl: Option<string>,
    callMeAs: string,
    worldbooks: seq<WorldbookEntry>,
    myIdentity: string,
    characterIdentity: string,
    chatStyle: string,
    openingLine: Option<string>)

  datatype EmojiKind = Static | Gif

  datatype EmojiItem = EmojiItem(id: string, name: string, url: string, kind: EmojiKind)

  /** An emoji item before it has an id (`Omit<EmojiItem, "id">`). */
  datatype NewEmoji = NewEmoji(name: string, url: string, kind: EmojiKind)

  datatype EmojiGroup = EmojiGroup(id: string, name: string, emojis: seq<EmojiItem>)

  datatype UserProfile = UserProfile(
    avatarEmoji: string,
    avatarUrl: Option<string>,
    emojiPackUrl: string,
    emojiGroups: seq<EmojiGroup>)

  datatype SettingsState = SettingsState(
    wallpaper: Wallpaper,
    aiConfig: AiConfig,
    worldbookEntries: seq<WorldbookEntry>,
    chatProfiles: map<string, ChatProfile>,
    userProfile: UserProfile)

  // ---------------------------------------------------------------- defaults

  const DefaultFriendId: string := "aiFriend"
  const DefaultAvatarEmoji: string := "🌙"
  const DefaultCallMeAs: string := "你"
  const DefaultCharacterIdentity: string := "温柔的乙女游戏 AI 陪伴角色"
  const DefaultChatStyle: string := "软糯糯、温柔、像恋爱游戏里的角色那样和玩家聊天"
  const DefaultOpeningLine: string := "嗨～我是软糯糯小手机里的陪伴 AI，以后就由我来陪你聊天啦。"
  const DefaultItemTitle: string := "条目"
  const DefaultWorldTitle: string := "默认世界"

  /** The profile `updateChatProfile` starts from when the contact has none. */
  function BlankProfile(id: string): ChatProfile {
    ChatProfile(id, "", DefaultAvatarEmoji, Some(""), DefaultCallMeAs, [], "",
                DefaultCharacterIdentity, DefaultChatStyle, Some(DefaultOpeningLine))
  }

  const DefaultChatProfiles: map<string, ChatProfile> :=
    map[DefaultFriendId := BlankProfile(DefaultFriendId).(remark := "软糯糯·AI 好友")]

  const DefaultUserProfile: UserProfile := UserProfile("👤", Some(""), "", [])

  const DefaultState: SettingsState :=
    SettingsState(CreamPink, AiConfig("", "", ""), [], DefaultChatProfiles, DefaultUserProfile)

  // ---------------------------------------------------------------- patches

  /** `Partial<AiConfig>`: a field that is None is absent from the patch. */
  datatype AiConfigPatch = AiConfigPatch(baseUrl: Option<string>, apiKey: Option<string>, model: Option<string>)

  datatype WorldbookEntryPatch = WorldbookEntryPatch(
    id: Option<string>, title: Option<string>, entries: Option<seq<WorldbookItem>>)

  /** `Partial<ChatProfile>`. For the two optional fields, `Some(None)` is a
      patch that sets the field to `undefined`. */
  datatype ChatProfilePatch = ChatProfilePatch(
    id: Option<string>,
    remark: Option<string>,
    avatarEmoji: Option<string>,
    avatarUrl: Option<Option<string>>,
    callMeAs: Option<string>,
    worldbooks: Option<seq<WorldbookEntry>>,
    myIdentity: Option<string>,
    characterIdentity: Option<string>,
    chatStyle: Option<string>,
    openingLine: Option<Option<string>>)

  datatype UserProfilePatch = UserProfilePatch(
    avatarEmoji: Option<string>, avatarUrl: Option<Option<string>>,
    emojiPackUrl: Option<string>, emojiGroups: Option<seq<EmojiGroup>>)

  datatype EmojiGroupPatch = EmojiGroupPatch(id: Option<string>, name: Option<string>, emojis: Option<seq<EmojiItem>>)

  datatype EmojiItemPatch = EmojiItemPatch(
    id: Option<string>, name: Option<string>, url: Option<string>, kind: Option<EmojiKind>)

  /** `{ ...c, ...patch }`: each field the patch carries replaces the old
      value; every other field stays. */
  function PatchAiConfig(c: AiConfig, p: AiConfigPatch): (r: AiConfig)
    ensures r.baseUrl == (if p.baseUrl.Some? then p.baseUrl.value else c.baseUrl)
    ensures r.apiKey == (if p.apiKey.Some? then p.apiKey.value else c.apiKey)
    ensures r.model == (if p.model.Some? then p.model.value else c.model)
  {
    AiConfig(p.baseUrl.GetOr(c.baseUrl), p.apiKey.GetOr(c.apiKey), p.model.GetOr(c.model))
  }

  function PatchBook(b: WorldbookEntry, p: WorldbookEntryPatch): WorldbookEntry {
    WorldbookEntry(p.id.GetOr(b.id), p.title.GetOr(b.title), p.entries.GetOr(b.entries))
  }

  function PatchProfile(c: ChatProfile, p: ChatProfilePatch): ChatProfile {
    ChatProfile(
      p.id.GetOr(c.id), p.remark.GetOr(c.remark), p.avatarEmoji.GetOr(c.avatarEmoji),
      p.avatarUrl.GetOr(c.avatarUrl), p.callMeAs.GetOr(c.callMeAs),
      p.worldbooks.GetOr(c.worldbooks), p.myIdentity.GetOr(c.myIdentity),
      p.characterIdentity.GetOr(c.characterIdentity), p.chatStyle.GetOr(c.chatStyle),
      p.openingLine.GetOr(c.openingLine))
  }

  function PatchUserProfile(u: UserProfile, p: UserProfilePatch): UserProfile {
    UserProfile(p.avatarEmoji.GetOr(u.avatarEmoji), p.avatarUrl.GetOr(u.avatarUrl),
                p.emojiPackUrl.GetOr(u.emojiPackUrl), p.emojiGroups.GetOr(u.emojiGroups))
  }

  function PatchGroup(g: EmojiGroup, p: EmojiGroupPatch): EmojiGroup {
    EmojiGroup(p.id.GetOr(g.id), p.name.GetOr(g.name), p.emojis.GetOr(g.emojis))
  }

  function PatchEmoji(e: EmojiItem, p: EmojiItemPatch): EmojiItem {
    EmojiItem(p.id.GetOr(e.id), p.name.GetOr(e.name), p.url.GetOr(e.url), p.kind.GetOr(e.kind))
  }

  /** Spreading the same patch twice is spreading it once. */
  lemma PatchProfileIdempotent(c: ChatProfile, p: ChatProfilePatch)
    ensures PatchProfile(PatchProfile(c, p), p) == PatchProfile(c, p)
  {
  }

  // ---------------------------------------------------------------- operations

  function SetWallpaper(s: SettingsState, w: Wallpaper): (r: SettingsState)
    ensures r.wallpaper == w && r.(wallpaper := s.wallpaper) == s
  {
    s.(wallpaper := w)
  }

  /** `updateAiConfig`: exactly the patched fields of the endpoint
      configuration change; nothing else in the state does. */
  function UpdateAiConfig(s: SettingsState, p: AiConfigPatch): (r: SettingsState)
    ensures r.aiConfig.baseUrl == (if p.baseUrl.Some? then p.baseUrl.value else s.aiConfig.baseUrl)
    ensures r.aiConfig.apiKey == (if p.apiKey.Some? then p.apiKey.value else s.aiConfig.apiKey)
    ensures r.aiConfig.model == (if p.model.Some? then p.model.value else s.aiConfig.model)
    ensures r.(aiConfig := s.aiConfig) == s
  {
    s.(aiConfig := PatchAiConfig(s.aiConfig, p))
  }

  /** `addWorldbookEntry`: appends one book holding one item; the item's
      title falls back to "条目" when the given title is empty. */
  function AddWorldbookEntry(s: SettingsState, title: string, content: string,
                             bookId: string, itemId: string): (r: SettingsState)
    ensures |r.worldbookEntries| == |s.worldbookEntries| + 1
    ensures r.worldbookEntries[..|s.worldbookEntries|] == s.worldbookEntries
    ensures var b := r.worldbookEntries[|s.worldbookEntries|];
      && b.id == bookId && b.title == title && |b.entries| == 1
      && b.entries[0].id == itemId && b.entries[0].content == content
      && b.entries[0].title == (if title == "" then DefaultItemTitle else title)
    ensures r.(worldbookEntries := s.worldbookEntries) == s
  {
    var item := WorldbookItem(itemId, if title == "" then DefaultItemTitle else title, content);
    s.(worldbookEntries := s.worldbookEntries + [WorldbookEntry(bookId, title, [item])])
  }

  /** `updateWorldbookEntry`: books whose id matches take the patch, every
      other book is left as it was, and the order is kept. */
  function UpdateWorldbookEntry(s: SettingsState, id: string, p: WorldbookEntryPatch): (r: SettingsState)
    ensures |r.worldbookEntries| == |s.worldbookEntries|
    ensures forall i :: 0 <= i < |s.worldbookEntries| ==>
      r.worldbookEntries[i] == (if s.worldbookEntries[i].id == id
                                then PatchBook(s.worldbookEntries[i], p)
                                else s.worldbookEntries[i])
    ensures r.(worldbookEntries := s.worldbookEntries) == s
  {
    var books := s.worldbookEntries;
    s.(worldbookEntries := seq(|books|, i requires 0 <= i < |books| =>
                                 if books[i].id == id then PatchBook(books[i], p) else books[i]))
  }

  /** `removeWorldbookEntry`: drops exactly the books with that id. */
  function RemoveWorldbookEntry(s: SettingsState, id: string): (r: SettingsState)
    ensures forall b :: b in r.worldbookEntries <==> b in s.worldbookEntries && b.id != id
    ensures r.(worldbookEntries := s.worldbookEntries) == s
  {
    s.(worldbookEntries := Filter(s.worldbookEntries, (b: WorldbookEntry) => b.id != id))
  }

  /** The remaining books keep their relative order, and as many are
      removed as carried the id. */
  lemma RemoveWorldbookEntryKeepsOrder(s: SettingsState, id: string)
    ensures IsSubsequence(RemoveWorldbookEntry(s, id).worldbookEntries, s.worldbookEntries)
    ensures |RemoveWorldbookEntry(s, id).worldbookEntries|
         == |s.worldbookEntries| - Count(s.worldbookEntries, (b: WorldbookEntry) => b.id == id)
  {
    FilterDropsCounted((b: WorldbookEntry) => b.id != id, (b: WorldbookEntry) => b.id == id);
  }

  /** `updateChatProfile`: the patch is spread over the existing profile, or
      over the blank one when there is none; every other profile stays. */
  function UpdateChatProfile(s: SettingsState, id: string, p: ChatProfilePatch): (r: SettingsState)
    ensures r.chatProfiles.Keys == s.chatProfiles.Keys + {id}
    ensures r.chatProfiles[id]
         == PatchProfile(if id in s.chatProfiles then s.chatProfiles[id] else BlankProfile(id), p)
    ensures forall k :: k in s.chatProfiles && k != id ==> r.chatProfiles[k] == s.chatProfiles[k]
    ensures r.(chatProfiles := s.chatProfiles) == s
  {
    var base := if id in s.chatProfiles then s.chatProfiles[id] else BlankProfile(id);
    s.(chatProfiles := s.chatProfiles[id := PatchProfile(base, p)])
  }

  function UpdateUserProfile(s: SettingsState, p: UserProfilePatch): (r: SettingsState)
    ensures r.userProfile.emojiGroups
         == (if p.emojiGroups.Some? then p.emojiGroups.value else s.userProfile.emojiGroups)
    ensures r.(userProfile := s.userProfile) == s
  {
    s.(userProfile := PatchUserProfile(s.userProfile, p))
  }

  /** `addEmojiGroup`: appends an empty group and returns the id it was
      given. */
  function AddEmojiGroup(s: SettingsState, name: string, freshId: string): (r: (SettingsState, string))
    ensures r.1 == freshId
    ensures var gs, gs' := s.userProfile.emojiGroups, r.0.userProfile.emojiGroups;
      |gs'| == |gs| + 1 && gs'[..|gs|] == gs && gs'[|gs|] == EmojiGroup(r.1, name, [])
    ensures r.0.userProfile.(emojiGroups := s.userProfile.emojiGroups) == s.userProfile
    ensures r.0.(userProfile := s.userProfile) == s
  {
    var u := s.userProfile;
    (s.(userProfile := u.(emojiGroups := u.emojiGroups + [EmojiGroup(freshId, name, [])])), freshId)
  }

  /** The emoji groups after replacing each group with id `groupId` by
      `f` of it. */
  function MapGroups(gs: seq<EmojiGroup>, groupId: string, f: EmojiGroup -> EmojiGroup): (r: seq<EmojiGroup>)
    ensures |r| == |gs|
    ensures forall i :: 0 <= i < |gs| ==> r[i] == (if gs[i].id == groupId then f(gs[i]) else gs[i])
  {
    seq(|gs|, i requires 0 <= i < |gs| => if gs[i].id == groupId then f(gs[i]) else gs[i])
  }

  function WithGroups(s: SettingsState, gs: seq<EmojiGroup>): SettingsState {
    s.(userProfile := s.userProfile.(emojiGroups := gs))
  }

  /** `updateEmojiGroup`: only groups with the matching id change. */
  function UpdateEmojiGroup(s: SettingsState, groupId: string, p: EmojiGroupPatch): (r: SettingsState)
    ensures var gs, gs' := s.userProfile.emojiGroups, r.userProfile.emojiGroups;
      |gs'| == |gs| &&
      forall i :: 0 <= i < |gs| ==> gs'[i] == (if gs[i].id == groupId then PatchGroup(gs[i], p) else gs[i])
    ensures WithGroups(r, s.userProfile.emojiGroups) == s
  {
    WithGroups(s, MapGroups(s.userProfile.emojiGroups, groupId, g => PatchGroup(g, p)))
  }

  /** `removeEmojiGroup`: drops exactly the groups with that id. The rest
      keep their order, and as many go as carried the id, so every copy of
      a kept group stays. */
  function RemoveEmojiGroup(s: SettingsState, groupId: string): (r: SettingsState)
    ensures forall g :: g in r.userProfile.emojiGroups <==> g in s.userProfile.emojiGroups && g.id != groupId
    ensures IsSubsequence(r.userProfile.emojiGroups, s.userProfile.emojiGroups)
    ensures |r.userProfile.emojiGroups|
         == |s.userProfile.emojiGroups| - Count(s.userProfile.emojiGroups, (g: EmojiGroup) => g.id == groupId)
    ensures WithGroups(r, s.userProfile.emojiGroups) == s
  {
    var keep := (g: EmojiGroup) => g.id != groupId;
    FilterDropsCounted(keep, (g: EmojiGroup) => g.id == groupId);
    WithGroups(s, Filter(s.userProfile.emojiGroups, keep))
  }

  /** `addEmoji`: the emoji, with the fresh id, is appended to every group
      with the matching id; other groups are left identical. */
  function AddEmoji(s: SettingsState, groupId: string, e: NewEmoji, freshId: string): (r: SettingsState)
    ensures var gs, gs' := s.userProfile.emojiGroups, r.userProfile.emojiGroups;
      |gs'| == |gs| &&
      forall i :: 0 <= i < |gs| ==>
        if gs[i].id == groupId
        then gs'[i] == gs[i].(emojis := gs[i].emojis + [EmojiItem(freshId, e.name, e.url, e.kind)])
        else gs'[i] == gs[i]
    ensures WithGroups(r, s.userProfile.emojiGroups) == s
  {
    var item := EmojiItem(freshId, e.name, e.url, e.kind);
    WithGroups(s, MapGroups(s.userProfile.emojiGroups, groupId, (g: EmojiGroup) => g.(emojis := g.emojis + [item])))
  }

  /** Adding an emoji to a group that does not exist changes nothing. */
  lemma AddEmojiToMissingGroup(s: SettingsState, groupId: string, e: NewEmoji, freshId: string)
    requires forall g :: g in s.userProfile.emojiGroups ==> g.id != groupId
    ensures AddEmoji(s, groupId, e, freshId) == s
  {
    var gs, gs' := s.userProfile.emojiGroups, AddEmoji(s, groupId, e, freshId).userProfile.emojiGroups;
    assert forall i :: 0 <= i < |gs| ==> gs[i] in gs;
    assert gs' == gs;
  }

  /** `updateEmoji`: inside the matching groups, the emojis with the
      matching id take the patch; nothing outside them changes. */
  function UpdateEmoji(s: SettingsState, groupId: string, emojiId: string, p: EmojiItemPatch): (r: SettingsState)
    ensures var gs, gs' := s.userProfile.emojiGroups, r.userProfile.emojiGroups;
      |gs'| == |gs| &&
      forall i :: 0 <= i < |gs| ==>
        if gs[i].id == groupId
        then gs'[i].id == gs[i].id && gs'[i].name == gs[i].name && |gs'[i].emojis| == |gs[i].emojis|
             && forall j :: 0 <= j < |gs[i].emojis| ==>
                  gs'[i].emojis[j] == (if gs[i].emojis[j].id == emojiId
                                       then PatchEmoji(gs[i].emojis[j], p) else gs[i].emojis[j])
        else gs'[i] == gs[i]
    ensures WithGroups(r, s.userProfile.emojiGroups) == s
  {
    WithGroups(s, MapGroups(s.userProfile.emojiGroups, groupId,
      (g: EmojiGroup) => g.(emojis := seq(|g.emojis|, j requires 0 <= j < |g.emojis| =>
                              if g.emojis[j].id == emojiId then PatchEmoji(g.emojis[j], p) else g.emojis[j]))))
  }

  /** `removeEmoji`: inside the matching groups, exactly the emojis with
      that id go and the others keep their order and number; other groups
      are left identical. */
  function RemoveEmoji(s: SettingsState, groupId: string, emojiId: string): (r: SettingsState)
    ensures var gs, gs' := s.userProfile.emojiGroups, r.userProfile.emojiGroups;
      |gs'| == |gs| &&
      forall i :: 0 <= i < |gs| ==>
        if gs[i].id == groupId
        then gs'[i].id == gs[i].id && gs'[i].name == gs[i].name
             && (forall x :: x in gs'[i].emojis <==> x in gs[i].emojis && x.id != emojiId)
             && IsSubsequence(gs'[i].emojis, gs[i].emojis)
             && |gs'[i].emojis| == |gs[i].emojis| - Count(gs[i].emojis, (x: EmojiItem) => x.id == emojiId)
        else gs'[i] == gs[i]
    ensures WithGroups(r, s.userProfile.emojiGroups) == s
  {
    var keep := (x: EmojiItem) => x.id != emojiId;
    FilterDropsCounted(keep, (x: EmojiItem) => x.id == emojiId);
    WithGroups(s, MapGroups(s.userProfile.emojiGroups, groupId,
      (g: EmojiGroup) => g.(emojis := Filter(g.emojis, keep))))
  }

  // ---------------------------------------------------------------- worldbook text

  /** One item line, `- title：content`, with "条目" for a blank title. */
  function RenderItem(it: WorldbookItem): (r: string)
    ensures IsInfix(it.content, r)
  {
    var r := "- " + (if it.title == "" then DefaultItemTitle else it.title) + "：" + it.content;
    assert InfixAt(it.content, r, |r| - |it.content|);
    r
  }

  function RenderItems(items: seq<WorldbookItem>): seq<string>
  {
    seq(|items|, j requires 0 <= j < |items| => RenderItem(items[j]))
  }

  /** A book as the global worldbook text shows it. */
  function RenderBook(b: WorldbookEntry): string {
    "【" + b.title + "】\n" + Join(RenderItems(b.entries), "\n")
  }

  /** `worldbookText`: the global books, blank-line separated. */
  function WorldbookText(books: seq<WorldbookEntry>): string {
    Join(seq(|books|, i requires 0 <= i < |books| => RenderBook(books[i])), "\n\n")
  }

  /** Every item of every global book appears in the worldbook text as its
      own `- title：content` line, so its content is never lost. */
  lemma WorldbookTextShowsEveryItem(books: seq<WorldbookEntry>, i: nat, j: nat)
    requires i < |books| && j < |books[i].entries|
    ensures IsLineOf(RenderItem(books[i].entries[j]), WorldbookText(books))
    ensures IsInfix(books[i].entries[j].content, WorldbookText(books))
  {
    var line := RenderItem(books[i].entries[j]);
    ItemIsLineOfBook(books[i], j);
    var rendered := seq(|books|, t requires 0 <= t < |books| => RenderBook(books[t]));
    assert rendered[i] == RenderBook(books[i]);
    JoinLines(rendered, "\n\n", i);
    LineOfTransitive(line, RenderBook(books[i]), WorldbookText(books));
    LineOfIsInfix(line, WorldbookText(books));
    InfixTransitive(books[i].entries[j].content, line, WorldbookText(books));
  }

  /** Each item of a book is a line of the book's text. */
  lemma ItemIsLineOfBook(b: WorldbookEntry, j: nat)
    requires j < |b.entries|
    ensures IsLineOf(RenderItem(b.entries[j]), RenderBook(b))
  {
    var items := RenderItems(b.entries);
    assert items[j] == RenderItem(b.entries[j]);
    JoinLines(items, "\n", j);
    LineOfAfter(RenderItem(b.entries[j]), Join(items, "\n"), "【" + b.title + "】\n");
  }
}

=== FILE: settings_migration.dfy ===
/** Loading the settings snapshot in src/context/SettingsContext.tsx: the
    stored JSON may come from an older version of the app, so every field
    may be missing, worldbooks may be single strings or books without
    items, and the result is completed with defaults. Saving is
    `JSON.stringify`, modelled by `Encode`; loading what was saved gives
    the saved state back, except for the `undefined` fields the save drops. */
module SettingsMigration {
  import opened Wrappers
  import opened Text
  import opened Settings

  // ---------------------------------------------------------------- stored form

  /** A worldbook as an older version stored it: perhaps without id or
      title, perhaps with its text in `content` instead of `entries`. */
  datatype LegacyBook = LegacyBook(
    id: Option<string>,
    title: Option<string>,
    entries: Option<seq<WorldbookItem>>,
    content: Option<string>)

  /** A stored contact profile; `worldbook` is the single-string worldbook
      of the oldest format. */
  datatype LegacyProfile = LegacyProfile(
    id: Option<string>,
    remark: Option<string>,
    avatarEmoji: Option<string>,
    avatarUrl: Option<string>,
    callMeAs: Option<string>,
    worldbooks: Option<seq<LegacyBook>>,
    worldbook: Option<string>,
    myIdentity: Option<string>,
    characterIdentity: Option<string>,
    chatStyle: Option<string>,
    openingLine: Option<string>)

  datatype LegacyUserProfile = LegacyUserProfile(
    avatarEmoji: Option<string>,
    avatarUrl: Option<string>,
    emojiPackUrl: Option<string>,
    emojiGroups: Option<seq<EmojiGroup>>)

  datatype LegacyState = LegacyState(
    wallpaper: Option<Wallpaper>,
    aiConfig: Option<AiConfig>,
    worldbookEntries: Option<seq<LegacyBook>>,
    chatProfiles: Option<map<string, LegacyProfile>>,
    userProfile: Option<LegacyUserProfile>)

  /** The storage slot: empty (no value or the empty string), a value the
      loader cannot read (bad JSON, or a shape whose properties throw), or
      a parsed object. */
  datatype StoredSettings = Absent | Unparsable | Parsed(state: LegacyState)

  // ---------------------------------------------------------------- save

  function EncodeBook(b: WorldbookEntry): LegacyBook {
    LegacyBook(Some(b.id), Some(b.title), Some(b.entries), None)
  }

  /** `JSON.stringify` drops `undefined` fields: a None stays absent. */
  function EncodeProfile(c: ChatProfile): LegacyProfile {
    LegacyProfile(Some(c.id), Some(c.remark), Some(c.avatarEmoji), c.avatarUrl, Some(c.callMeAs),
                  Some(seq(|c.worldbooks|, i requires 0 <= i < |c.worldbooks| => EncodeBook(c.worldbooks[i]))),
                  None, Some(c.myIdentity), Some(c.characterIdentity), Some(c.chatStyle), c.openingLine)
  }

  function EncodeProfiles(ps: map<string, ChatProfile>): map<string, LegacyProfile> {
    map k | k in ps :: EncodeProfile(ps[k])
  }

  /** What the persisting effect writes for a snapshot. */
  function Encode(s: SettingsState): LegacyState {
    var u := s.userProfile;
    LegacyState(Some(s.wallpaper), Some(s.aiConfig),
                Some(seq(|s.worldbookEntries|, i requires 0 <= i < |s.worldbookEntries| => EncodeBook(s.worldbookEntries[i]))),
                Some(EncodeProfiles(s.chatProfiles)),
                Some(LegacyUserProfile(Some(u.avatarEmoji), u.avatarUrl, Some(u.emojiPackUrl), Some(u.emojiGroups))))
  }

  // ---------------------------------------------------------------- load

  /** A global worldbook at position `idx`: missing id and title get
      positional and fixed defaults; a book without `entries` becomes a
      book with one item holding its `content`. A present `entries`, even
      an empty one, is kept. */
  function MigrateGlobalBook(w: LegacyBook, idx: nat): (r: WorldbookEntry)
    ensures r.id == (if w.id.Some? then w.id.value else "wb-" + NatToString(idx))
    ensures w.entries.Some? ==> r.entries == w.entries.value
    ensures w.entries.None? ==> |r.entries| == 1 && r.entries[0].content == w.content.GetOr("")
  {
    WorldbookEntry(
      w.id.GetOr("wb-" + NatToString(idx)),
      w.title.GetOr(DefaultWorldTitle),
      if w.entries.Some? then w.entries.value
      else [WorldbookItem("e-" + NatToString(idx) + "-0", w.title.GetOr(DefaultItemTitle), w.content.GetOr(""))])
  }

  function MigrateGlobalBooks(books: seq<LegacyBook>): (r: seq<WorldbookEntry>)
    ensures |r| == |books|
    ensures forall i :: 0 <= i < |r| ==> r[i] == MigrateGlobalBook(books[i], i)
  {
    seq(|books|, i requires 0 <= i < |books| => MigrateGlobalBook(books[i], i))
  }

  /** A worldbook of contact `key` at position `idx`; the one-item fallback
      is always titled "条目". */
  function MigrateProfileBook(key: string, w: LegacyBook, idx: nat): (r: WorldbookEntry)
    ensures r.id == (if w.id.Some? then w.id.value else "wb-" + key + "-" + NatToString(idx))
    ensures w.entries.Some? ==> r.entries == w.entries.value
    ensures w.entries.None? ==> r.entries == [WorldbookItem("e-" + NatToString(idx) + "-0", DefaultItemTitle, w.content.GetOr(""))]
  {
    WorldbookEntry(
      w.id.GetOr("wb-" + key + "-" + NatToString(idx)),
      w.title.GetOr(DefaultWorldTitle),
      if w.entries.Some? then w.entries.value
      else [WorldbookItem("e-" + NatToString(idx) + "-0", DefaultItemTitle, w.content.GetOr(""))])
  }

  /** The worldbook the oldest single-string format turns into, if the
      string is not empty. */
  function LegacySingleBook(key: string, p: LegacyProfile): seq<WorldbookEntry> {
    if p.worldbook.Some? && p.worldbook.value != "" then
      [WorldbookEntry("wb-" + key + "-legacy", DefaultWorldTitle,
                      [WorldbookItem("e-" + key + "-0", DefaultItemTitle, p.worldbook.value)])]
    else []
  }

  /** The profile stored under `key`, completed with defaults: every
      stored field is kept, and a missing one takes its default (the key
      for the id, "" for the remark, the URL and the player's identity,
      "🌙", "你", and the default persona, style and opening line). */
  function MigrateProfile(key: string, p: LegacyProfile): (r: ChatProfile)
    ensures r.id == (if p.id.Some? then p.id.value else key)
    ensures r.remark == (if p.remark.Some? then p.remark.value else "")
    ensures r.avatarEmoji == (if p.avatarEmoji.Some? then p.avatarEmoji.value else "🌙")
    ensures r.avatarUrl == Some(if p.avatarUrl.Some? then p.avatarUrl.value else "")
    ensures r.callMeAs == (if p.callMeAs.Some? then p.callMeAs.value else "你")
    ensures r.myIdentity == (if p.myIdentity.Some? then p.myIdentity.value else "")
    ensures r.characterIdentity == (if p.characterIdentity.Some? then p.characterIdentity.value else DefaultCharacterIdentity)
    ensures r.chatStyle == (if p.chatStyle.Some? then p.chatStyle.value else DefaultChatStyle)
    ensures r.openingLine == Some(if p.openingLine.Some? then p.openingLine.value else DefaultOpeningLine)
  {
    var books := p.worldbooks.GetOr([]);
    var normalized := seq(|books|, i requires 0 <= i < |books| => MigrateProfileBook(key, books[i], i));
    ChatProfile(
      p.id.GetOr(key),
      p.remark.GetOr(""),
      p.avatarEmoji.GetOr(DefaultAvatarEmoji),
      Some(p.avatarUrl.GetOr("")),
      p.callMeAs.GetOr(DefaultCallMeAs),
      if |normalized| > 0 then normalized else LegacySingleBook(key, p),
      p.myIdentity.GetOr(""),
      p.characterIdentity.GetOr(DefaultCharacterIdentity),
      p.chatStyle.GetOr(DefaultChatStyle),
      Some(p.openingLine.GetOr(DefaultOpeningLine)))
  }

  /** The legacy single string is used exactly when the contact's worldbook
      list normalises to nothing; otherwise the list is kept book by book
      and the string is ignored. */
  lemma LegacySingleOnlyWhenNoBooks(key: string, p: LegacyProfile)
    ensures var books := p.worldbooks.GetOr([]);
      && (|books| > 0 ==>
            && |MigrateProfile(key, p).worldbooks| == |books|
            && forall i :: 0 <= i < |books| ==> MigrateProfile(key, p).worldbooks[i] == MigrateProfileBook(key, books[i], i))
      && (|books| == 0 && p.worldbook.Some? && p.worldbook.value != "" ==>
            MigrateProfile(key, p).worldbooks ==
              [WorldbookEntry("wb-" + key + "-legacy", DefaultWorldTitle,
                              [WorldbookItem("e-" + key + "-0", DefaultItemTitle, p.worldbook.value)])])
      && (|books| == 0 && (p.worldbook.None? || p.worldbook.value == "") ==> MigrateProfile(key, p).worldbooks == [])
  {
  }

  /** A stored profile with every field missing loads as the blank
      profile that `updateChatProfile` starts from. */
  lemma BareProfileIsBlank(key: string, p: LegacyProfile)
    requires p == LegacyProfile(None, None, None, None, None, None, None, None, None, None, None)
    ensures MigrateProfile(key, p) == BlankProfile(key)
  {
  }

  /** The profiles after the migration pass. */
  function MigratedProfiles(ps: map<string, LegacyProfile>): map<string, ChatProfile> {
    map k | k in ps :: MigrateProfile(k, ps[k])
  }

  /** The `Object.keys(chatProfiles).forEach` pass: each stored profile is
      replaced, key by key, by its migrated form. */
  method MigrateProfiles(ps: map<string, LegacyProfile>) returns (profiles: map<string, ChatProfile>)
    ensures profiles == MigratedProfiles(ps)
  {
    profiles := map[];
    var pending := ps.Keys;
    while pending != {}
      invariant pending <= ps.Keys
      invariant profiles.Keys == ps.Keys - pending
      invariant forall k :: k in profiles ==> profiles[k] == MigrateProfile(k, ps[k])
      decreases pending
    {
      var key :| key in pending;
      profiles := profiles[key := MigrateProfile(key, ps[key])];
      pending := pending - {key};
    }
  }

  /** `{ ...defaultState.userProfile, ...stored, emojiGroups: stored.emojiGroups ?? [] }`. */
  function MergeUserProfile(u: Option<LegacyUserProfile>): (r: UserProfile)
    ensures r.avatarUrl.Some?
  {
    var d := DefaultUserProfile;
    if u.None? then d
    else UserProfile(u.value.avatarEmoji.GetOr(d.avatarEmoji),
                     if u.value.avatarUrl.Some? then u.value.avatarUrl else d.avatarUrl,
                     u.value.emojiPackUrl.GetOr(d.emojiPackUrl),
                     u.value.emojiGroups.GetOr([]))
  }

  /** The state the provider starts from. Absent or unreadable storage
      gives the default state; stored profiles default to the default
      contacts, which then pass through the same migration. */
  function Migrated(stored: StoredSettings): (r: SettingsState)
    ensures stored.Absent? || stored.Unparsable? ==> r == DefaultState
    ensures stored.Parsed? ==> |r.worldbookEntries| == |stored.state.worldbookEntries.GetOr([])|
    ensures stored.Parsed? && stored.state.chatProfiles.Some? ==> r.chatProfiles.Keys == stored.state.chatProfiles.value.Keys
  {
    match stored
    case Absent => DefaultState
    case Unparsable => DefaultState
    case Parsed(l) =>
      SettingsState(
        l.wallpaper.GetOr(DefaultState.wallpaper),
        l.aiConfig.GetOr(DefaultState.aiConfig),
        MigrateGlobalBooks(l.worldbookEntries.GetOr([])),
        MigratedProfiles(l.chatProfiles.GetOr(EncodeProfiles(DefaultChatProfiles))),
        MergeUserProfile(l.userProfile))
  }

  /** The provider's state initialiser. */
  method LoadSettings(stored: StoredSettings) returns (s: SettingsState)
    ensures s == Migrated(stored)
  {
    match stored
    case Absent => s := DefaultState;
    case Unparsable => s := DefaultState;
    case Parsed(l) =>
      var profiles := MigrateProfiles(l.chatProfiles.GetOr(EncodeProfiles(DefaultChatProfiles)));
      s := SettingsState(
        l.wallpaper.GetOr(DefaultState.wallpaper),
        l.aiConfig.GetOr(DefaultState.aiConfig),
        MigrateGlobalBooks(l.worldbookEntries.GetOr([])),
        profiles,
        MergeUserProfile(l.userProfile));
  }

  // ---------------------------------------------------------------- round trip

  /** Every optional field that the save could drop is present. */
  predicate FullyDefined(s: SettingsState) {
    && s.userProfile.avatarUrl.Some?
    && forall k :: k in s.chatProfiles ==> s.chatProfiles[k].avatarUrl.Some? && s.chatProfiles[k].openingLine.Some?
  }

  lemma {:induction false} ProfileRoundTrip(key: string, c: ChatProfile)
    requires c.avatarUrl.Some? && c.openingLine.Some?
    ensures MigrateProfile(key, EncodeProfile(c)) == c
  {
    var r := MigrateProfile(key, EncodeProfile(c));
    var books := EncodeProfile(c).worldbooks.value;
    assert |books| == |c.worldbooks|;
    if |books| > 0 {
      forall i | 0 <= i < |books| ensures MigrateProfileBook(key, books[i], i) == c.worldbooks[i] {
        assert books[i] == EncodeBook(c.worldbooks[i]);
      }
      assert r.worldbooks == c.worldbooks;
    }
  }

  lemma ProfilesRoundTrip(ps: map<string, ChatProfile>)
    requires forall k :: k in ps ==> ps[k].avatarUrl.Some? && ps[k].openingLine.Some?
    ensures MigratedProfiles(EncodeProfiles(ps)) == ps
  {
    forall k | k in ps ensures MigrateProfile(k, EncodeProfiles(ps)[k]) == ps[k] {
      ProfileRoundTrip(k, ps[k]);
    }
  }

  lemma {:induction false} BooksRoundTrip(bs: seq<WorldbookEntry>)
    ensures MigrateGlobalBooks(seq(|bs|, i requires 0 <= i < |bs| => EncodeBook(bs[i]))) == bs
  {
  }

  /** Loading what was saved gives the saved state back whenever no
      optional field was `undefined`. */
  lemma SaveThenLoad(s: SettingsState)
    requires FullyDefined(s)
    ensures Migrated(Parsed(Encode(s))) == s
  {
    ProfilesRoundTrip(s.chatProfiles);
    BooksRoundTrip(s.worldbookEntries);
  }

  /** A loaded state is fully defined, so saving and loading it again
      changes nothing: the migration is stable across reloads. */
  lemma LoadIsStable(stored: StoredSettings)
    ensures FullyDefined(Migrated(stored))
    ensures Migrated(Parsed(Encode(Migrated(stored)))) == Migrated(stored)
  {
    SaveThenLoad(Migrated(stored));
  }

  /** With no stored profiles, the migration pass over the default contacts
      yields the default contacts. */
  lemma DefaultProfilesSurviveMigration()
    ensures MigratedProfiles(EncodeProfiles(DefaultChatProfiles)) == DefaultChatProfiles
  {
    ProfilesRoundTrip(DefaultChatProfiles);
  }

  /** A contact saved with an `undefined` opening line (as contact creation
      stores it) comes back after a reload with the default opening line;
      nothing else about it changes. */
  lemma ReloadFillsOpeningLine(s: SettingsState, key: string)
    requires key in s.chatProfiles
    requires s.chatProfiles[key].avatarUrl.Some? && s.chatProfiles[key].openingLine.None?
    ensures Migrated(Parsed(Encode(s))).chatProfiles[key]
         == s.chatProfiles[key].(openingLine := Some(DefaultOpeningLine))
  {
    var c := s.chatProfiles[key];
    ProfileRoundTrip(key, c.(openingLine := Some(DefaultOpeningLine)));
    assert EncodeProfile(c).(openingLine := Some(DefaultOpeningLine))
        == EncodeProfile(c.(openingLine := Some(DefaultOpeningLine)));
  }
}

=== FILE: text.dfy ===
/** String helpers with the meaning JavaScript gives them: white space as
    `String.prototype.trim` and the regular-expression class `\s` see it,
    `split("\n")`, `Array.prototype.join`, `Number.prototype.toString` on
    counts and indices, `padStart(2, "0")`, `parseInt(s, 10)` and the
    UTF-16 `length` of a string. */
module Text {
  import opened Wrappers

  /** The white-space and line-terminator characters of ECMAScript, the set
      both `trim()` and `\s` remove. */
  const JsSpaces: set<char> := {
    '\t', '\n', '\U{000B}', '\U{000C}', '\r', ' ', '\U{00A0}', '\U{1680}',
    '\U{2000}', '\U{2001}', '\U{2002}', '\U{2003}', '\U{2004}', '\U{2005}',
    '\U{2006}', '\U{2007}', '\U{2008}', '\U{2009}', '\U{200A}',
    '\U{2028}', '\U{2029}', '\U{202F}', '\U{205F}', '\U{3000}', '\U{FEFF}'
  }

  predicate IsJsSpace(c: char) {
    c in JsSpaces
  }

  /** A visible ASCII character is never white space. */
  lemma PrintableNotSpace(c: char)
    requires '!' <= c <= '~'
    ensures !IsJsSpace(c)
  {
  }

  /** `a` occurs in `s` starting at index `k`. */
  predicate InfixAt(a: string, s: string, k: nat) {
    k + |a| <= |s| && s[k..k + |a|] == a
  }

  /** `a` occurs somewhere in `s`. */
  ghost predicate IsInfix(a: string, s: string) {
    exists k: nat :: InfixAt(a, s, k)
  }

  /** Occurrence is transitive. */
  lemma InfixTransitive(a: string, b: string, c: string)
    requires IsInfix(a, b) && IsInfix(b, c)
    ensures IsInfix(a, c)
  {
    var i: nat :| InfixAt(a, b, i);
    var j: nat :| InfixAt(b, c, j);
    forall k | 0 <= k < |a| ensures c[j + i + k] == a[k] {
      assert b[i..i + |a|][k] == b[i + k];
      assert c[j..j + |b|][i + k] == c[j + i + k];
    }
    assert c[j + i..j + i + |a|] == a;
    assert InfixAt(a, c, j + i);
  }

  predicate EndsWith(s: string, suffix: string) {
    |suffix| <= |s| && s[|s| - |suffix|..] == suffix
  }

  // ---------------------------------------------------------------- trim

  /** `trimStart()`. */
  function TrimStart(s: string): (r: string)
    ensures |r| <= |s|
  {
    if |s| > 0 && IsJsSpace(s[0]) then TrimStart(s[1..]) else s
  }

  /** `trimStart()` drops the leading white space, and only that. */
  lemma {:induction false} TrimStartShape(s: string)
    ensures TrimStart(s) == s[|s| - |TrimStart(s)|..]
    ensures TrimStart(s) == [] || !IsJsSpace(TrimStart(s)[0])
    ensures forall i :: 0 <= i < |s| - |TrimStart(s)| ==> IsJsSpace(s[i])
  {
    if |s| > 0 && IsJsSpace(s[0]) {
      var tail := s[1..];
      TrimStartShape(tail);
      var r := TrimStart(tail);
      assert TrimStart(s) == r;
      assert r == tail[|tail| - |r|..];
      assert tail[|tail| - |r|..] == s[|s| - |r|..];
      forall i | 0 <= i < |s| - |r| ensures IsJsSpace(s[i]) {
        if i > 0 {
          assert IsJsSpace(tail[i - 1]);
        }
      }
    }
  }

  /** `trimEnd()`. */
  function TrimEnd(s: string): (r: string)
    ensures |r| <= |s|
  {
    if |s| > 0 && IsJsSpace(s[|s| - 1]) then TrimEnd(s[..|s| - 1]) else s
  }

  /** `trimEnd()` drops the trailing white space, and only that. */
  lemma {:induction false} TrimEndShape(s: string)
    ensures TrimEnd(s) == s[..|TrimEnd(s)|]
    ensures TrimEnd(s) == [] || !IsJsSpace(TrimEnd(s)[|TrimEnd(s)| - 1])
    ensures forall i :: |TrimEnd(s)| <= i < |s| ==> IsJsSpace(s[i])
  {
    if |s| > 0 && IsJsSpace(s[|s| - 1]) {
      var init := s[..|s| - 1];
      TrimEndShape(init);
      var r := TrimEnd(s);
      assert r == TrimEnd(init);
      assert init[..|r|] == s[..|r|];
      forall i | |r| <= i < |s| ensures IsJsSpace(s[i]) {
        if i < |s| - 1 {
          assert init[i] == s[i];
        }
      }
    }
  }

  /** `trim()`. */
  function Trim(s: string): string {
    TrimEnd(TrimStart(s))
  }

  /** `trim()` leaves the infix of `s` that remains after removing white
      space at both ends; it is empty exactly when `s` is blank. */
  lemma TrimShape(s: string)
    ensures var r := Trim(s);
      && InfixAt(r, s, |s| - |TrimStart(s)|)
      && (r == [] || (!IsJsSpace(r[0]) && !IsJsSpace(r[|r| - 1])))
      && (r == [] <==> forall i :: 0 <= i < |s| ==> IsJsSpace(s[i]))
  {
    var t := TrimStart(s);
    TrimStartShape(s);
    TrimEndShape(t);
    var r := TrimEnd(t);
    var k := |s| - |t|;
    assert s[k..k + |r|] == t[..|r|];
  }

  /** A string without white space at either end is its own trim. */
  lemma TrimOfTrimmed(s: string)
    requires s == [] || (!IsJsSpace(s[0]) && !IsJsSpace(s[|s| - 1]))
    ensures Trim(s) == s
  {
    assert TrimStart(s) == s;
    assert TrimEnd(s) == s;
  }

  /** Trimming twice is trimming once. */
  lemma TrimIdempotent(s: string)
    ensures Trim(Trim(s)) == Trim(s)
  {
    TrimShape(s);
    TrimOfTrimmed(Trim(s));
  }

  /** A character of `Trim(s)` is a character of `s`. */
  lemma TrimKeepsOnly(s: string, c: char)
    requires c in Trim(s)
    ensures c in s
  {
    var r, k := Trim(s), |s| - |TrimStart(s)|;
    TrimShape(s);
    var i :| 0 <= i < |r| && r[i] == c;
    assert s[k + i] == r[i];
  }

  // ---------------------------------------------------------------- join

  /** `xs.join(sep)`. */
  function Join(xs: seq<string>, sep: string): (r: string)
    ensures |xs| == 1 ==> r == xs[0]
  {
    if |xs| == 0 then "" else if |xs| == 1 then xs[0] else xs[0] + sep + Join(xs[1..], sep)
  }

  /** `a` occurs in `s` at `k` as a whole line: it starts at the start
      of `s` or after a newline, and ends at the end of `s` or before a
      newline. */
  predicate LineAt(a: string, s: string, k: nat) {
    InfixAt(a, s, k) && (k == 0 || s[k - 1] == '\n') && (k + |a| == |s| || s[k + |a|] == '\n')
  }

  /** `a` is one of the lines of `s`. */
  ghost predicate IsLineOf(a: string, s: string) {
    exists k: nat :: LineAt(a, s, k)
  }

  /** A line stays a line when text ending in a newline comes before it. */
  lemma LineAfter(a: string, s: string, k: nat, p: string)
    requires LineAt(a, s, k) && (p == [] || p[|p| - 1] == '\n')
    ensures LineAt(a, p + s, |p| + k)
  {
    assert (p + s)[|p| + k..|p| + k + |a|] == s[k..k + |a|];
  }

  /** A line stays a line when text starting with a newline comes after it. */
  lemma LineBefore(a: string, s: string, k: nat, q: string)
    requires LineAt(a, s, k) && (q == [] || q[0] == '\n')
    ensures LineAt(a, s + q, k)
  {
    assert (s + q)[k..k + |a|] == s[k..k + |a|];
  }

  /** A line of a line of `c` is a line of `c`. */
  lemma LineAtTransitive(a: string, b: string, c: string, i: nat, j: nat)
    requires LineAt(a, b, i) && LineAt(b, c, j)
    ensures LineAt(a, c, j + i)
  {
    forall t | 0 <= t < |a| ensures c[j + i + t] == a[t] {
      assert b[i..i + |a|][t] == b[i + t];
      assert c[j..j + |b|][i + t] == c[j + i + t];
    }
    assert c[j + i..j + i + |a|] == a;
    if i > 0 {
      assert c[j + i - 1] == c[j..j + |b|][i - 1];
    }
    if i + |a| < |b| {
      assert c[j + i + |a|] == c[j..j + |b|][i + |a|];
    }
  }

  /** A line of a line of `c` is a line of `c`. */
  lemma LineOfTransitive(a: string, b: string, c: string)
    requires IsLineOf(a, b) && IsLineOf(b, c)
    ensures IsLineOf(a, c)
  {
    var i: nat :| LineAt(a, b, i);
    var j: nat :| LineAt(b, c, j);
    LineAtTransitive(a, b, c, i, j);
  }

  /** A line of `s` is a line of `p + s` when `p` ends with a newline. */
  lemma LineOfAfter(a: string, s: string, p: string)
    requires IsLineOf(a, s) && |p| > 0 && p[|p| - 1] == '\n'
    ensures IsLineOf(a, p + s)
  {
    var k: nat :| LineAt(a, s, k);
    LineAfter(a, s, k, p);
  }

  /** A line contains what it shows. */
  lemma LineOfIsInfix(a: string, s: string)
    requires IsLineOf(a, s)
    ensures IsInfix(a, s)
  {
    var k: nat :| LineAt(a, s, k);
    assert InfixAt(a, s, k);
  }

  /** Joined with a separator that starts and ends with a newline, every
      piece is a line of the joined string. */
  lemma {:induction false} JoinLines(xs: seq<string>, sep: string, i: nat)
    requires i < |xs| && |sep| > 0 && sep[0] == '\n' && sep[|sep| - 1] == '\n'
    ensures IsLineOf(xs[i], Join(xs, sep))
  {
    if |xs| == 1 {
      assert LineAt(xs[0], Join(xs, sep), 0);
    } else {
      var rest := Join(xs[1..], sep);
      assert Join(xs, sep) == xs[0] + (sep + rest) == (xs[0] + sep) + rest;
      if i == 0 {
        assert LineAt(xs[0], xs[0], 0);
        LineBefore(xs[0], xs[0], 0, sep + rest);
      } else {
        JoinLines(xs[1..], sep, i - 1);
        var k: nat :| LineAt(xs[1..][i - 1], rest, k);
        LineAfter(xs[i], rest, k, xs[0] + sep);
      }
    }
  }

  // ---------------------------------------------------------------- split

  /** `s.split("\n")`, one character at a time: a newline starts a new
      piece, any other character joins the current one. There is always at
      least one piece. */
  function Lines(s: string): (r: seq<string>)
    ensures |r| >= 1
  {
    if |s| == 0 then [""]
    else
      var rest := Lines(s[1..]);
      if s[0] == '\n' then [""] + rest else [[s[0]] + rest[0]] + rest[1..]
  }

  /** No piece holds a newline. */
  lemma {:induction false} LinesHaveNoNewline(s: string)
    ensures forall i :: 0 <= i < |Lines(s)| ==> '\n' !in Lines(s)[i]
  {
    if |s| > 0 {
      LinesHaveNoNewline(s[1..]);
    }
  }

  /** A text without a newline is a single piece. */
  lemma {:induction false} LinesOfSingleLine(s: string)
    requires '\n' !in s
    ensures Lines(s) == [s]
  {
    if |s| > 0 {
      assert s[0] in s;
      assert forall c :: c in s[1..] ==> c in s;
      LinesOfSingleLine(s[1..]);
      assert [s[0]] + s[1..] == s;
    }
  }

  /** Splitting at one newline splits the list of lines in two. */
  lemma {:induction false} LinesAppend(a: string, b: string)
    ensures Lines(a + "\n" + b) == Lines(a) + Lines(b)
  {
    var s := a + "\n" + b;
    if |a| == 0 {
      assert s == "\n" + b && s[1..] == b;
    } else {
      assert s[1..] == a[1..] + "\n" + b;
      LinesAppend(a[1..], b);
      LinesCons(a[0], Lines(a[1..]), Lines(b));
    }
  }

  /** The sequence step of `LinesAppend`: prepending a character to the
      first of a list of pieces commutes with appending more pieces. */
  lemma LinesCons(c: char, x: seq<string>, y: seq<string>)
    requires |x| >= 1
    ensures [[c] + (x + y)[0]] + (x + y)[1..] == ([[c] + x[0]] + x[1..]) + y
    ensures [""] + (x + y) == ([""] + x) + y
  {
    assert (x + y)[1..] == x[1..] + y;
  }

  // ---------------------------------------------------------------- numbers

  function DigitChar(d: nat): (c: char)
    requires d < 10
    ensures '0' <= c <= '9'
  {
    ['0', '1', '2', '3', '4', '5', '6', '7', '8', '9'][d]
  }

  predicate IsDigit(c: char) {
    '0' <= c <= '9'
  }

  function DigitValue(c: char): (d: nat)
    requires IsDigit(c)
    ensures d < 10
  {
    (c as int) - ('0' as int)
  }

  /** `n.toString()` for a non-negative integer: decimal digits, no sign,
      no leading zero. */
  function NatToString(n: nat): (r: string)
    ensures |r| >= 1
    ensures forall i :: 0 <= i < |r| ==> IsDigit(r[i])
    ensures r[0] != '0' || n == 0
  {
    if n < 10 then [DigitChar(n)] else NatToString(n / 10) + [DigitChar(n % 10)]
  }

  /** `${n}` for any integer: a minus sign before the digits of a
      negative one. */
  function IntToString(n: int): (r: string)
    ensures forall i :: 0 <= i < |r| ==> IsDigit(r[i]) || r[i] == '-'
    ensures n >= 0 ==> r == NatToString(n)
  {
    if n < 0 then "-" + NatToString(-n) else NatToString(n)
  }

  /** `String(n).padStart(2, "0")`. */
  function Pad2(n: nat): (r: string)
    ensures |r| >= 2
    ensures n < 100 ==> |r| == 2
    ensures n < 10 ==> r == "0" + NatToString(n)
    ensures forall i :: 0 <= i < |r| ==> IsDigit(r[i])
  {
    if n < 10 then "0" + NatToString(n)
    else
      assert n < 100 ==> |NatToString(n / 10)| == 1;
      NatToString(n)
  }

  /** The longest prefix of `s` made of decimal digits. */
  function DigitPrefix(s: string): (r: string)
    ensures |r| <= |s| && r == s[..|r|]
    ensures forall i :: 0 <= i < |r| ==> IsDigit(s[i])
    ensures |r| < |s| ==> !IsDigit(s[|r|])
  {
    if |s| > 0 && IsDigit(s[0]) then [s[0]] + DigitPrefix(s[1..]) else ""
  }

  /** The value of a string of decimal digits, most significant first. */
  function DigitsValue(d: string): nat
    requires forall i :: 0 <= i < |d| ==> IsDigit(d[i])
  {
    if |d| == 0 then 0 else DigitsValue(d[..|d| - 1]) * 10 + DigitValue(d[|d| - 1])
  }

  /** `parseInt(s, 10)`: optional leading white space, an optional sign and
      the longest run of digits; `None` stands for `NaN`. */
  function ParseInt(s: string): (r: Option<int>)
    ensures r.None? <==> DigitPrefix(SignFree(TrimStart(s))) == ""
  {
    var t := TrimStart(s);
    var d := DigitPrefix(SignFree(t));
    var v: int := if d == "" then 0 else DigitsValue(d);
    if d == "" then None
    else if |t| > 0 && t[0] == '-' then Some(-v)
    else Some(v)
  }

  /** `t` without its leading sign character, if it has one. */
  function SignFree(t: string): string {
    if |t| > 0 && (t[0] == '-' || t[0] == '+') then t[1..] else t
  }

  lemma {:induction false} DigitPrefixOfDigits(d: string)
    requires forall i :: 0 <= i < |d| ==> IsDigit(d[i])
    ensures DigitPrefix(d) == d
  {
    if |d| > 0 {
      DigitPrefixOfDigits(d[1..]);
    }
  }

  lemma {:induction false} DigitsValueOfNatToString(n: nat)
    ensures DigitsValue(NatToString(n)) == n
  {
    var r := NatToString(n);
    if n >= 10 {
      DigitsValueOfNatToString(n / 10);
      assert r[..|r| - 1] == NatToString(n / 10);
    }
  }

  /** Writing a count with `toString()` and reading it back with
      `parseInt(…, 10)` gives the count back. */
  lemma ParseIntOfNatToString(n: nat)
    ensures ParseInt(NatToString(n)) == Some(n)
  {
    var r := NatToString(n);
    assert TrimStart(r) == r by {
      assert !IsJsSpace(r[0]);
    }
    assert SignFree(r) == r;
    DigitPrefixOfDigits(r);
    DigitsValueOfNatToString(n);
  }

  /** Different counts are written differently. */
  lemma NatToStringInjective()
    ensures forall i: nat, j: nat :: NatToString(i) == NatToString(j) ==> i == j
  {
    forall i: nat, j: nat | NatToString(i) == NatToString(j) ensures i == j {
      ParseIntOfNatToString(i);
      ParseIntOfNatToString(j);
    }
  }

  // ---------------------------------------------------------------- length

  /** `s.length` in JavaScript: characters outside the Basic Multilingual
      Plane take two UTF-16 code units. */
  function Utf16Length(s: string): (n: nat)
    ensures |s| <= n <= 2 * |s|
  {
    if |s| == 0 then 0
    else Utf16Length(s[..|s| - 1]) + (if s[|s| - 1] as int >= 0x10000 then 2 else 1)
  }
}

=== FILE: wechat.dfy ===
/** The chat screen of src/screens/wechat/WeChatScreen.tsx as a state
    machine: the browser storage it reads and writes (one slot per
    conversation, one unread counter per contact) and the screen's own
    state (the messages shown, the queue of player messages not yet
    answered, the open conversation, the busy flag and the error line).
    Every handler and effect is a method; the clock is a parameter. */
module WeChat {
  import opened Wrappers
  import opened Text
  import opened Settings
  import opened AiClient
  import opened ChatLog
  import opened ChatTime
  import opened ChatPrompt
  import opened ChatSegments

  const MinuteMs: int := 60000

  /** The message a `TypeError` carries when the reply is not a string. */
  const SplitNotAFunction: string := "reply.split is not a function"

  /** What a reply turn fixed when it started: the conversation it answers,
      the list on screen at that moment (before the turn's own message was
      added), the contact's profile, the target's storage slot, and the
      turn's own message, if any. The prompt is built from these. */
  datatype ReplyRun = ReplyRun(target: string, captured: seq<Message>, profile: ChatProfile, slot: Option<StoredLog>, extra: Option<Message>)
  {
    /** The messages sent to the chat endpoint. */
    function Prompt(): seq<ChatMessage> {
      ReplyPrompt(profile, slot, captured, extra)
    }
  }

  function Slot(chats: map<string, StoredLog>, id: string): Option<StoredLog> {
    if id in chats then Some(chats[id]) else None
  }

  /** The message a reply turn adds for its own (trimmed) text, if that is
      not blank. */
  function TurnMessage(onScreen: seq<Message>, content: string, now: int, zone: Zone): Option<Message> {
    if content == "" then None else Some(UserMessage(onScreen, content, ClockLabel(now, zone), now))
  }

  function AsList(m: Option<Message>): seq<Message> {
    if m.Some? then [m.value] else []
  }

  /** The open conversation when there is one: `!activeChatId` treats
      `null` and the empty id alike. */
  function OpenChat(active: Option<string>): Option<string> {
    if active.Some? && active.value != "" then active else None
  }

  // ---------------------------------------------------------------- reveal

  /** One reveal step's write to storage: the target's stored list gains
      the bubble, numbered after its last message; a missing slot becomes
      a list of that bubble alone; a slot holding JSON that is neither an
      array nor a string, or text that is not JSON, is left as it was. */
  function StoredAfterReveal(chats: map<string, StoredLog>, target: string, text: string, clock: string, ts: int): (r: map<string, StoredLog>)
    ensures r - {target} == chats - {target}
    ensures target !in chats ==> target in r && r[target] == Log([OtherMessage(1, text, clock, ts)])
    ensures target in chats && chats[target].Log? ==>
      var before := chats[target].messages;
      && target in r && r[target].Log?
      && |r[target].messages| == |before| + 1
      && r[target].messages[..|before|] == before
      && r[target].messages[|before|] == OtherMessage(NextId(before), text, clock, ts)
    ensures target in chats && !chats[target].Log? ==> r == chats
  {
    if target !in chats then
      chats[target := Log([OtherMessage(NextId([]), text, clock, ts)])]
    else if chats[target].Log? then
      var before := chats[target].messages;
      var after := before + [OtherMessage(NextId(before), text, clock, ts)];
      assert after[..|before|] == before;
      chats[target := Log(after)]
    else
      chats
  }

  /** The list on screen after bubbles `segs` were revealed one by one, the
      `i`-th at time `clock(i)`, each numbered after the list so far. */
  function Revealed(ms: seq<Message>, segs: seq<string>, clock: nat -> int, zone: Zone): (r: seq<Message>)
    ensures |r| == |ms| + |segs|
  {
    if |segs| == 0 then ms
    else
      var i := |segs| - 1;
      var prev := Revealed(ms, segs[..i], clock, zone);
      prev + [OtherMessage(NextId(prev), segs[i], ClockLabel(clock(i), zone), clock(i))]
  }

  /** Revealing keeps the list it started from. */
  lemma {:induction false} RevealedKeepsList(ms: seq<Message>, segs: seq<string>, clock: nat -> int, zone: Zone)
    ensures Revealed(ms, segs, clock, zone)[..|ms|] == ms
  {
    if |segs| > 0 {
      var i := |segs| - 1;
      RevealedKeepsList(ms, segs[..i], clock, zone);
      var prev := Revealed(ms, segs[..i], clock, zone);
      var m := OtherMessage(NextId(prev), segs[i], ClockLabel(clock(i), zone), clock(i));
      assert (prev + [m])[..|ms|] == prev[..|ms|];
    }
  }

  /** Revealing appends one message from the contact per bubble, with the
      bubble's text and the time it appeared. */
  lemma {:induction false} RevealedBubbles(ms: seq<Message>, segs: seq<string>, clock: nat -> int, zone: Zone)
    ensures forall j :: |ms| <= j < |ms| + |segs| ==>
      && Revealed(ms, segs, clock, zone)[j].from == Other
      && Revealed(ms, segs, clock, zone)[j].text == segs[j - |ms|]
      && Revealed(ms, segs, clock, zone)[j].timestamp == Some(clock(j - |ms|))
  {
    if |segs| > 0 {
      var n := |segs| - 1;
      RevealedBubbles(ms, segs[..n], clock, zone);
      var prev := Revealed(ms, segs[..n], clock, zone);
      var m := OtherMessage(NextId(prev), segs[n], ClockLabel(clock(n), zone), clock(n));
      var r := Revealed(ms, segs, clock, zone);
      assert r == prev + [m];
      forall j | |ms| <= j < |r|
        ensures r[j].from == Other && r[j].text == segs[j - |ms|] && r[j].timestamp == Some(clock(j - |ms|))
      {
        if j < |prev| {
          assert r[j] == prev[j];
          assert segs[..n][j - |ms|] == segs[j - |ms|];
        } else {
          assert r[j] == m && j - |ms| == n;
        }
      }
    }
  }

  /** Revealing keeps message ids increasing. */
  lemma {:induction false} RevealedIdsIncreasing(ms: seq<Message>, segs: seq<string>, clock: nat -> int, zone: Zone)
    requires IdsIncreasing(ms)
    ensures IdsIncreasing(Revealed(ms, segs, clock, zone))
  {
    if |segs| > 0 {
      var i := |segs| - 1;
      RevealedIdsIncreasing(ms, segs[..i], clock, zone);
      var prev := Revealed(ms, segs[..i], clock, zone);
      NextIdKeepsIdsIncreasing(prev, OtherMessage(NextId(prev), segs[i], ClockLabel(clock(i), zone), clock(i)));
    }
  }

  /** Revealing one more bubble appends it, numbered after the list so far. */
  lemma RevealedStep(ms: seq<Message>, segs: seq<string>, i: nat, clock: nat -> int, zone: Zone)
    requires i < |segs|
    ensures var prev := Revealed(ms, segs[..i], clock, zone);
      Revealed(ms, segs[..i + 1], clock, zone)
        == prev + [OtherMessage(NextId(prev), segs[i], ClockLabel(clock(i), zone), clock(i))]
  {
    assert segs[..i + 1][..i] == segs[..i];
    assert segs[..i + 1][i] == segs[i];
  }

  /** The target's slot after bubbles `segs` were stored one by one: a
      stored list gains them all, numbered after its last message; a
      missing slot is created by the first bubble; a slot holding JSON
      that is neither an array nor a string, or text that is not JSON,
      makes every step fail silently and stays as it was. */
  function RevealedSlot(slot: Option<StoredLog>, segs: seq<string>, clock: nat -> int, zone: Zone): Option<StoredLog> {
    if slot.Some? && slot.value.Log? then Some(Log(Revealed(slot.value.messages, segs, clock, zone)))
    else if slot.None? && |segs| > 0 then Some(Log(Revealed([], segs, clock, zone)))
    else slot
  }

  /** One more reveal step stores one more bubble in the target's slot. */
  lemma RevealedSlotStep(chats: map<string, StoredLog>, target: string, slot: Option<StoredLog>, segs: seq<string>, i: nat,
                         clock: nat -> int, zone: Zone)
    requires i < |segs| && Slot(chats, target) == RevealedSlot(slot, segs[..i], clock, zone)
    ensures Slot(StoredAfterReveal(chats, target, segs[i], ClockLabel(clock(i), zone), clock(i)), target)
         == RevealedSlot(slot, segs[..i + 1], clock, zone)
  {
    var after := StoredAfterReveal(chats, target, segs[i], ClockLabel(clock(i), zone), clock(i));
    if slot.Some? && slot.value.Log? {
      RevealedStep(slot.value.messages, segs, i, clock, zone);
    } else if slot.None? {
      RevealedStep([], segs, i, clock, zone);
      if i == 0 {
        var m := OtherMessage(NextId([]), segs[0], ClockLabel(clock(0), zone), clock(0));
        assert Revealed([], segs[..0], clock, zone) == [];
        assert Revealed([], segs[..1], clock, zone) == [m];
        assert target !in chats;
      }
    }
  }

  /** Two maps that agree away from `key` agree everywhere once `key` is
      overwritten. */
  lemma OverwriteForgetsSlot<V>(a: map<string, V>, b: map<string, V>, key: string, v: V)
    requires a - {key} == b - {key}
    ensures a[key := v] == b[key := v]
  {
    forall k | k != key ensures (k in a <==> k in b) && (k in a ==> a[k] == b[k]) {
      assert k in a <==> k in a - {key};
      assert k in b <==> k in b - {key};
      if k in a {
        assert a[k] == (a - {key})[k];
      }
    }
  }

  /** Bubbles `segs` as the last step numbers them, after `base`
      messages, the `i`-th stamped with the clock read at `clock(first + i)`. */
  function Bubbles(base: nat, segs: seq<string>, first: nat, clock: nat -> int, zone: Zone): (r: seq<Message>)
    ensures |r| == |segs|
  {
    if |segs| == 0 then []
    else
      var i := |segs| - 1;
      Bubbles(base, segs[..i], first, clock, zone)
        + [OtherMessage(base + i + 1, segs[i], ClockLabel(clock(first + i), zone), clock(first + i))]
  }

  /** The list the last step writes over the target's slot: the list
      captured when the turn started followed by every bubble, numbered on
      from the captured length and stamped with the clock read after the
      last reveal step. */
  function FinalLog(captured: seq<Message>, segs: seq<string>, clock: nat -> int, zone: Zone): (r: seq<Message>)
    ensures |r| == |captured| + |segs|
  {
    captured + Bubbles(|captured|, segs, |segs|, clock, zone)
  }

  /** The `i`-th bubble is from the contact, carries the `i`-th text and
      is numbered `base + i + 1`. */
  lemma {:induction false} BubblesShape(base: nat, segs: seq<string>, first: nat, clock: nat -> int, zone: Zone)
    ensures forall i :: 0 <= i < |segs| ==>
      && Bubbles(base, segs, first, clock, zone)[i].from == Other
      && Bubbles(base, segs, first, clock, zone)[i].text == segs[i]
      && Bubbles(base, segs, first, clock, zone)[i].id == base + i + 1
      && Bubbles(base, segs, first, clock, zone)[i].timestamp == Some(clock(first + i))
  {
    if |segs| > 0 {
      var n := |segs| - 1;
      BubblesShape(base, segs[..n], first, clock, zone);
      var prev := Bubbles(base, segs[..n], first, clock, zone);
      var r := Bubbles(base, segs, first, clock, zone);
      forall i | 0 <= i < n
        ensures r[i].from == Other && r[i].text == segs[i] && r[i].id == base + i + 1 && r[i].timestamp == Some(clock(first + i))
      {
        assert r[i] == prev[i];
        assert segs[..n][i] == segs[i];
      }
    }
  }

  /** The rewritten log keeps the captured list and numbers the bubbles
      on from it: the ids run on from the captured length whatever was
      revealed on screen. */
  lemma FinalLogShape(captured: seq<Message>, segs: seq<string>, clock: nat -> int, zone: Zone)
    ensures FinalLog(captured, segs, clock, zone)[..|captured|] == captured
    ensures forall j :: |captured| <= j < |captured| + |segs| ==>
      && FinalLog(captured, segs, clock, zone)[j].from == Other
      && FinalLog(captured, segs, clock, zone)[j].text == segs[j - |captured|]
      && FinalLog(captured, segs, clock, zone)[j].id == j + 1
  {
    var bubbles := Bubbles(|captured|, segs, |segs|, clock, zone);
    BubblesShape(|captured|, segs, |segs|, clock, zone);
    assert (captured + bubbles)[..|captured|] == captured;
    assert forall j :: |captured| <= j < |captured| + |bubbles| ==> (captured + bubbles)[j] == bubbles[j - |captured|];
  }

  /** The turn's own message never reaches the rewritten log: the log is
      the list captured before that message was added, followed by the
      assistant's bubbles, and the message is newer than everything
      captured. */
  lemma FinalLogOmitsExtra(captured: seq<Message>, segs: seq<string>, clock: nat -> int, zone: Zone, extra: Message)
    requires IdsIncreasing(captured) && extra.id == NextId(captured) && extra.from == Me
    ensures extra !in FinalLog(captured, segs, clock, zone)
  {
    var r := FinalLog(captured, segs, clock, zone);
    FinalLogShape(captured, segs, clock, zone);
    if extra in r {
      var k :| 0 <= k < |r| && r[k] == extra;
      if k < |captured| {
        assert r[k] == captured[k];
        NextIdKeepsIdsIncreasing(captured, extra);
      }
    }
  }

  // ---------------------------------------------------------------- unread

  /** `parseInt(stored, 10)` kept only when it is a number above 0. */
  function PositiveCount(s: string): (r: Option<nat>)
    ensures r.Some? ==> r.value > 0
  {
    if s == "" then None
    else
      var c := ParseInt(s);
      if c.Some? && c.value > 0 then Some(c.value as nat) else None
  }

  /** The counters the screen shows for the contacts `ids`. */
  function ParsedCounts(store: map<string, string>, ids: set<string>): (r: map<string, nat>)
    ensures forall k :: k in r <==> k in ids && k in store && PositiveCount(store[k]).Some?
    ensures forall k :: k in r ==> r[k] > 0 && Some(r[k]) == PositiveCount(store[k])
  {
    map k | k in ids && k in store && PositiveCount(store[k]).Some? :: PositiveCount(store[k]).value
  }

  /** A counter written with `toString()` reads back as itself, and "0"
      reads back as no counter. */
  lemma CountReadsBack(n: nat)
    ensures PositiveCount(NatToString(n)) == if n > 0 then Some(n) else None
  {
    ParseIntOfNatToString(n);
  }

  /** Resetting a contact's counter to "0" removes it from what the next
      load shows and leaves every other counter as it was. */
  lemma ResetSurvivesReload(store: map<string, string>, ids: set<string>, id: string)
    ensures ParsedCounts(store[id := "0"], ids) == ParsedCounts(store, ids) - {id}
  {
    CountReadsBack(0);
    assert NatToString(0) == "0";
  }

  // ---------------------------------------------------------------- loading

  /** `if (m.timestamp)`: a missing or zero timestamp counts as absent. */
  predicate HasTime(m: Message) {
    m.timestamp.Some? && m.timestamp.value != 0
  }

  /** How many messages of `ms` lack a usable timestamp. */
  function Missing(ms: seq<Message>): (n: nat)
    ensures n <= |ms|
  {
    if |ms| == 0 then 0 else Missing(ms[..|ms| - 1]) + (if HasTime(ms[|ms| - 1]) then 0 else 1)
  }

  /** `m.timeLabel || fallback`. */
  function LabelOr(given: Option<string>, fallback: string): Option<string> {
    if given.Some? && given.value != "" then given else Some(fallback)
  }

  /** The time a message without one gets: one minute after the previous
      such message, counting back from `now` by one minute per stored
      message. */
  function FillTimeAt(ms: seq<Message>, i: nat, now: int): int
    requires i < |ms|
  {
    now - |ms| * MinuteMs + (Missing(ms[..i]) + 1) * MinuteMs
  }

  /** The message at `i` once backfilled. */
  function FilledAt(ms: seq<Message>, i: nat, now: int, zone: Zone): Message
    requires i < |ms|
  {
    if HasTime(ms[i]) then ms[i]
    else
      var t := FillTimeAt(ms, i, now);
      ms[i].(timestamp := Some(t), timeLabel := LabelOr(ms[i].timeLabel, ClockLabel(t, zone)))
  }

  function Backfilled(ms: seq<Message>, now: int, zone: Zone): (r: seq<Message>)
    ensures |r| == |ms|
  {
    seq(|ms|, i requires 0 <= i < |ms| => FilledAt(ms, i, now, zone))
  }

  lemma {:induction false} MissingGrows(ms: seq<Message>, i: nat, j: nat)
    requires i < j <= |ms|
    ensures Missing(ms[..i]) + (if HasTime(ms[i]) then 0 else 1) <= Missing(ms[..j])
    decreases j
  {
    assert ms[..j][..j - 1] == ms[..j - 1];
    if j - 1 > i {
      MissingGrows(ms, i, j - 1);
    } else {
      assert ms[..j][j - 1] == ms[i];
    }
  }

  lemma {:induction false} MissingOfPrefix(ms: seq<Message>, j: nat)
    requires j <= |ms|
    ensures Missing(ms[..j]) <= Missing(ms)
  {
    if j < |ms| {
      MissingGrows(ms, j, |ms|);
      assert ms[..|ms|] == ms;
    } else {
      assert ms[..j] == ms;
    }
  }

  /** Backfilling touches only messages without a usable time, keeps
      their id, sender and text, gives them times at least one minute
      apart in list order, and never a time after `now`. */
  lemma BackfillOrder(ms: seq<Message>, now: int, zone: Zone)
    ensures forall i :: 0 <= i < |ms| && HasTime(ms[i]) ==> Backfilled(ms, now, zone)[i] == ms[i]
    ensures forall i :: 0 <= i < |ms| ==>
      var m := Backfilled(ms, now, zone)[i]; m.id == ms[i].id && m.from == ms[i].from && m.text == ms[i].text
    ensures forall i :: 0 <= i < |ms| && !HasTime(ms[i]) ==>
      Backfilled(ms, now, zone)[i].timestamp == Some(FillTimeAt(ms, i, now)) && FillTimeAt(ms, i, now) <= now
    ensures forall i, j :: 0 <= i < j < |ms| && !HasTime(ms[i]) && !HasTime(ms[j]) ==>
      FillTimeAt(ms, i, now) + MinuteMs <= FillTimeAt(ms, j, now)
  {
    forall i | 0 <= i < |ms| && !HasTime(ms[i]) ensures FillTimeAt(ms, i, now) <= now {
      MissingGrows(ms, i, |ms|);
      assert ms[..|ms|] == ms;
    }
    forall i, j | 0 <= i < j < |ms| && !HasTime(ms[i]) && !HasTime(ms[j])
      ensures FillTimeAt(ms, i, now) + MinuteMs <= FillTimeAt(ms, j, now)
    {
      MissingGrows(ms, i, j);
    }
  }

  /** A stored list whose messages all carry a time loads unchanged. */
  lemma BackfillKeepsTimedList(ms: seq<Message>, now: int, zone: Zone)
    requires forall i :: 0 <= i < |ms| ==> HasTime(ms[i])
    ensures Backfilled(ms, now, zone) == ms
  {
    BackfillOrder(ms, now, zone);
  }

  /** The trimmed opening line of the contact, or "" when it has none. */
  function OpeningText(profiles: map<string, ChatProfile>, id: string): string {
    if id in profiles && profiles[id].openingLine.Some? then Trim(profiles[id].openingLine.value) else ""
  }

  function OpeningMessages(text: string, now: int, zone: Zone): seq<Message> {
    if text == "" then [] else [Message(1, Other, text, Some(ClockLabel(now, zone)), Some(now))]
  }

  /** What opening a conversation shows: the stored list when it is a
      non-empty list (backfilled), nothing when the slot is not JSON, and
      otherwise the opening line as the contact's first message. */
  function LoadedMessages(slot: Option<StoredLog>, opening: string, now: int, zone: Zone): seq<Message> {
    if slot.Some? && slot.value.Log? && |slot.value.messages| > 0 then Backfilled(slot.value.messages, now, zone)
    else if slot == Some(Unparsable) then []
    else OpeningMessages(opening, now, zone)
  }

  /** The list "clear chat" leaves on screen: the opening line without a
      time, or nothing. */
  function ClearedMessages(opening: string): seq<Message> {
    if opening == "" then [] else [Message(1, Other, opening, None, None)]
  }

  /** Saving a conversation whose messages all carry a time and opening it
      again shows the same list. */
  lemma SaveThenLoad(ms: seq<Message>, opening: string, now: int, zone: Zone)
    requires |ms| > 0 && forall i :: 0 <= i < |ms| ==> HasTime(ms[i])
    ensures LoadedMessages(Some(Log(ms)), opening, now, zone) == ms
  {
    BackfillKeepsTimedList(ms, now, zone);
  }

  /** "Clear chat" removes the slot, and the persisting effect then writes
      the cleared list back. Opening the conversation again from that slot
      (or from no slot at all) shows the same opening message, now with a
      time: the backfill gives the one untimed message the time `now`. */
  lemma ClearThenLoad(opening: string, now: int, zone: Zone)
    ensures LoadedMessages(Some(Log(ClearedMessages(opening))), opening, now, zone)
         == LoadedMessages(None, opening, now, zone)
    ensures |LoadedMessages(Some(Log(ClearedMessages(opening))), opening, now, zone)| == |ClearedMessages(opening)|
    ensures forall i :: 0 <= i < |ClearedMessages(opening)| ==>
      LoadedMessages(Some(Log(ClearedMessages(opening))), opening, now, zone)[i]
        == ClearedMessages(opening)[i].(timestamp := Some(now), timeLabel := Some(ClockLabel(now, zone)))
  {
    var ms := ClearedMessages(opening);
    if opening != "" {
      assert ms[..0] == [];
      assert FillTimeAt(ms, 0, now) == now;
    }
  }

  // ---------------------------------------------------------------- backfill loop

  /** `applyPendingTimestamps` for a stored list: the loop that walks the
      clock forward one minute per message without a time. */
  method Backfill(ms: seq<Message>, now: int, zone: Zone) returns (filled: seq<Message>)
    ensures filled == Backfilled(ms, now, zone)
  {
    var base := now - |ms| * MinuteMs;
    filled := [];
    var i := 0;
    while i < |ms|
      invariant 0 <= i <= |ms|
      invariant base == now - |ms| * MinuteMs + Missing(ms[..i]) * MinuteMs
      invariant filled == Backfilled(ms, now, zone)[..i]
    {
      BackfillStep(ms, now, zone, i);
      var m := ms[i];
      if HasTime(m) {
        filled := filled + [m];
      } else {
        base := base + MinuteMs;
        filled := filled + [m.(timestamp := Some(base), timeLabel := LabelOr(m.timeLabel, ClockLabel(base, zone)))];
      }
      i := i + 1;
    }
  }

  /** One turn of the backfill loop: the count of messages without a time
      and the backfilled prefix each grow by the message at `i`. */
  lemma BackfillStep(ms: seq<Message>, now: int, zone: Zone, i: nat)
    requires i < |ms|
    ensures Missing(ms[..i + 1]) == Missing(ms[..i]) + (if HasTime(ms[i]) then 0 else 1)
    ensures Backfilled(ms, now, zone)[..i + 1] == Backfilled(ms, now, zone)[..i] + [FilledAt(ms, i, now, zone)]
  {
    assert ms[..i + 1][..i] == ms[..i];
  }

  // ---------------------------------------------------------------- screen

  class WeChatScreen {
    /** `miniOtomeChat_<id>` slots. */
    var chats: map<string, StoredLog>
    /** `miniOtomeUnread_<id>` slots, as the text stored. */
    var unreadStore: map<string, string>
    var messages: seq<Message>
    var pending: seq<Message>
    var unreadCounts: map<string, nat>
    var activeChatId: Option<string>
    var loading: bool
    var error: Option<string>

    constructor(chats: map<string, StoredLog>, unreadStore: map<string, string>)
      ensures this.chats == chats && this.unreadStore == unreadStore
      ensures messages == [] && pending == [] && unreadCounts == map[]
      ensures activeChatId == None && !loading && error == None
    {
      this.chats := chats;
      this.unreadStore := unreadStore;
      messages := [];
      pending := [];
      unreadCounts := map[];
      activeChatId := None;
      loading := false;
      error := None;
    }

    /** Opening a conversation from the list, leaving it with the back
        button (`None`), or landing in a newly created contact. */
    method SelectChat(id: Option<string>)
      modifies this`activeChatId
      ensures activeChatId == id
    {
      activeChatId := id;
    }

    /** `pushUserMessage`: the message is shown and joins the queue of
        player turns not yet answered. */
    method PushUserMessage(m: Message)
      modifies this`messages, this`pending
      ensures messages == old(messages) + [m] && pending == old(pending) + [m]
    {
      messages := messages + [m];
      pending := pending + [m];
    }

    /** Enter in the input: queue the trimmed text as the player's
        message without asking for a reply. */
    method EnqueueUserMessage(content: string, now: int, zone: Zone)
      modifies this`messages, this`pending
      ensures Trim(content) == "" ==> messages == old(messages) && pending == old(pending)
      ensures Trim(content) != "" ==>
        var m := UserMessage(old(messages), Trim(content), ClockLabel(now, zone), now);
        messages == old(messages) + [m] && pending == old(pending) + [m]
      ensures IdsIncreasing(old(messages)) ==> IdsIncreasing(messages)
    {
      var text := Trim(content);
      if text == "" {
        return;
      }
      var m := UserMessage(messages, text, ClockLabel(now, zone), now);
      NextIdKeepsIdsIncreasing(messages, m);
      PushUserMessage(m);
    }

    /** The send button (or a voice message): add the turn's own message,
        if the text is not blank, and when anything is waiting for an
        answer start a reply turn, fixing its target and prompt. */
    method TriggerReply(extraInput: Option<string>, input: string, now: int, zone: Zone, profiles: map<string, ChatProfile>)
      returns (run: Option<ReplyRun>)
      modifies this`messages, this`pending, this`loading, this`error
      ensures old(loading) ==> run == None && messages == old(messages) && pending == old(pending) && loading && error == old(error)
      ensures !old(loading) ==>
        var content := Trim(extraInput.GetOr(input));
        var extra := TurnMessage(old(messages), content, now, zone);
        var target := activeChatId.GetOr(DefaultFriendId);
        && messages == old(messages) + AsList(extra)
        && pending == old(pending) + AsList(extra)
        && (run.None? <==> |old(pending)| == 0 && content == "")
        && (run.None? ==> loading == old(loading) && error == old(error))
        && (run.Some? ==> loading && error == None && run.value == ReplyRun(target, old(messages),
              ProfileFor(profiles, target), Slot(chats, target), extra))
    {
      if loading {
        return None;
      }
      var content := Trim(extraInput.GetOr(input));
      var captured, queued := messages, pending;
      var extra := TurnMessage(messages, content, now, zone);
      if extra.Some? {
        PushUserMessage(extra.value);
      }
      if |queued| + |AsList(extra)| == 0 {
        return None;
      }
      var started := StartRun(captured, extra, profiles);
      run := Some(started);
    }

    /** The turn goes ahead: the error line is cleared, the screen is busy,
        and the target and prompt are fixed from the open conversation. */
    method StartRun(captured: seq<Message>, extra: Option<Message>, profiles: map<string, ChatProfile>)
      returns (run: ReplyRun)
      modifies this`loading, this`error
      ensures var target := activeChatId.GetOr(DefaultFriendId);
        run == ReplyRun(target, captured, ProfileFor(profiles, target), Slot(chats, target), extra)
      ensures loading && error == None
    {
      error := None;
      loading := true;
      var target := activeChatId.GetOr(DefaultFriendId);
      run := ReplyRun(target, captured, ProfileFor(profiles, target), Slot(chats, target), extra);
    }

    /** One bubble appears: on screen when `current` is the target, always
        in the target's stored list, and as one more unread message when
        `current` is another conversation. */
    method ShowSegment(target: string, current: string, text: string, now: int, zone: Zone)
      modifies this`messages, this`chats, this`unreadCounts, this`unreadStore
      ensures current == target ==>
        messages == old(messages) + [OtherMessage(NextId(old(messages)), text, ClockLabel(now, zone), now)]
      ensures current != target ==> messages == old(messages)
      ensures chats == StoredAfterReveal(old(chats), target, text, ClockLabel(now, zone), now)
      ensures current == target ==> unreadCounts == old(unreadCounts) && unreadStore == old(unreadStore)
      ensures current != target ==>
        var count := (if target in old(unreadCounts) then old(unreadCounts)[target] else 0) + 1;
        unreadCounts == old(unreadCounts)[target := count] && unreadStore == old(unreadStore)[target := NatToString(count)]
    {
      var clock := ClockLabel(now, zone);
      if current == target {
        messages := messages + [OtherMessage(NextId(messages), text, clock, now)];
      }
      chats := StoredAfterReveal(chats, target, text, clock, now);
      if current != target {
        var count := (if target in unreadCounts then unreadCounts[target] else 0) + 1;
        unreadStore := unreadStore[target := NatToString(count)];
        unreadCounts := unreadCounts[target := count];
      }
    }

    /** The reveal steps of a reply: bubble `i` appears at `clock(i)` in
        the open conversation, which is the target, and is stored in the
        target's slot; each step returns its pause. */
    method RevealSegments(target: string, segs: seq<string>, clock: nat -> int, zone: Zone)
      returns (delays: seq<nat>)
      modifies this`messages, this`chats, this`unreadCounts, this`unreadStore
      ensures messages == Revealed(old(messages), segs, clock, zone)
      ensures chats - {target} == old(chats) - {target}
      ensures Slot(chats, target) == RevealedSlot(Slot(old(chats), target), segs, clock, zone)
      ensures delays == Pauses(segs)
      ensures unreadCounts == old(unreadCounts) && unreadStore == old(unreadStore)
    {
      delays := [];
      var current := target;
      var i := 0;
      while i < |segs|
        invariant 0 <= i <= |segs|
        invariant messages == Revealed(old(messages), segs[..i], clock, zone)
        invariant chats - {target} == old(chats) - {target}
        invariant Slot(chats, target) == RevealedSlot(Slot(old(chats), target), segs[..i], clock, zone)
        invariant delays == Pauses(segs[..i])
        invariant unreadCounts == old(unreadCounts) && unreadStore == old(unreadStore)
      {
        RevealedStep(old(messages), segs, i, clock, zone);
        assert segs[..i + 1][..i] == segs[..i];
        RevealedSlotStep(chats, target, Slot(old(chats), target), segs, i, clock, zone);
        ShowSegment(target, current, segs[i], clock(i), zone);
        delays := delays + [SegmentDelay(segs[i])];
        i := i + 1;
      }
      assert segs[..i] == segs;
    }

    /** The answer to a reply turn arrives. A failure shows its message and
        keeps the queue; a reply is cut into bubbles that are revealed one
        by one (the `i`-th at `clock(i)`, each followed by its pause, which
        is returned), after which the target's slot is rewritten with the
        captured list and the bubbles and the queue is emptied. The reveal
        steps compare the target with the conversation captured when the
        turn started, which is the target itself. */
    method DeliverReply(run: ReplyRun, reply: Result<Json, ClientError>, clock: nat -> int, zone: Zone)
      returns (delays: seq<nat>)
      modifies this`messages, this`pending, this`chats, this`loading, this`error, this`unreadCounts, this`unreadStore
      ensures reply.Err? ==>
        && error == Some(reply.error.Message()) && !loading
        && messages == old(messages) && pending == old(pending) && chats == old(chats) && delays == []
      ensures reply.Ok? && !reply.value.JStr? ==>
        && error == Some(SplitNotAFunction) && !loading
        && messages == old(messages) && pending == old(pending) && chats == old(chats) && delays == []
      ensures reply.Ok? && reply.value.JStr? ==>
        var segs := Segments(reply.value.s);
        && !loading && pending == [] && error == old(error)
        && messages == Revealed(old(messages), segs, clock, zone)
        && delays == Pauses(segs)
        && (|segs| == 0 ==> chats == old(chats))
        && (|segs| > 0 ==> chats == old(chats)[run.target := Log(FinalLog(run.captured, segs, clock, zone))])
      ensures unreadCounts == old(unreadCounts) && unreadStore == old(unreadStore)
    {
      delays := [];
      if reply.Err? {
        error := Some(reply.error.Message());
        loading := false;
        return;
      }
      if !reply.value.JStr? {
        error := Some(SplitNotAFunction);
        loading := false;
        return;
      }
      delays := FinishReply(run, Segments(reply.value.s), clock, zone);
    }

    /** A reply's bubbles are revealed, then the target's slot is
        rewritten and the turn ends with an empty queue. */
    method FinishReply(run: ReplyRun, segs: seq<string>, clock: nat -> int, zone: Zone)
      returns (delays: seq<nat>)
      modifies this`messages, this`pending, this`chats, this`loading, this`unreadCounts, this`unreadStore
      ensures !loading && pending == []
      ensures messages == Revealed(old(messages), segs, clock, zone) && delays == Pauses(segs)
      ensures |segs| == 0 ==> chats == old(chats)
      ensures |segs| > 0 ==> chats == old(chats)[run.target := Log(FinalLog(run.captured, segs, clock, zone))]
      ensures unreadCounts == old(unreadCounts) && unreadStore == old(unreadStore)
    {
      if |segs| == 0 {
        loading := false;
        pending := [];
        delays := [];
        return;
      }
      delays := RevealSegments(run.target, segs, clock, zone);
      loading := false;
      pending := [];
      var final := Log(FinalLog(run.captured, segs, clock, zone));
      OverwriteForgetsSlot(chats, old(chats), run.target, final);
      chats := chats[run.target := final];
    }

    /** The unread counters shown for the contacts `profileIds` and the
        built-in friend: a stored counter counts only when it reads as a
        number above 0. */
    method LoadUnreadCounts(profileIds: set<string>)
      modifies this`unreadCounts
      ensures unreadCounts == ParsedCounts(unreadStore, profileIds + {DefaultFriendId})
    {
      var counts: map<string, nat> := map[];
      var todo := profileIds;
      while todo != {}
        invariant todo <= profileIds
        invariant counts == ParsedCounts(unreadStore, profileIds - todo)
        decreases |todo|
      {
        var id :| id in todo;
        counts := CountStep(counts, id);
        assert (profileIds - todo) + {id} == profileIds - (todo - {id});
        todo := todo - {id};
      }
      counts := CountStep(counts, DefaultFriendId);
      unreadCounts := counts;
    }

    /** Reading one contact's counter into the map being built. */
    function CountStep(counts: map<string, nat>, id: string): (r: map<string, nat>)
      reads this`unreadStore
      ensures forall ids :: counts == ParsedCounts(unreadStore, ids) ==> r == ParsedCounts(unreadStore, ids + {id})
    {
      if id in unreadStore && PositiveCount(unreadStore[id]).Some? then counts[id := PositiveCount(unreadStore[id]).value]
      else counts
    }

    /** Opening a conversation resets its stored counter to "0" and drops
        it from the counters shown. */
    method ResetUnread()
      modifies this`unreadStore, this`unreadCounts
      ensures OpenChat(activeChatId).None? ==> unreadStore == old(unreadStore) && unreadCounts == old(unreadCounts)
      ensures OpenChat(activeChatId).Some? ==>
        var id := activeChatId.value;
        unreadStore == old(unreadStore)[id := "0"] && unreadCounts == old(unreadCounts) - {id}
    {
      if OpenChat(activeChatId).None? {
        return;
      }
      var id := activeChatId.value;
      unreadStore := unreadStore[id := "0"];
      unreadCounts := unreadCounts - {id};
    }

    /** Opening (or re-reading) the open conversation. A stored list gets
        times filled in for messages without one. */
    method LoadMessages(profiles: map<string, ChatProfile>, now: int, zone: Zone)
      modifies this`messages
      ensures OpenChat(activeChatId).None? ==> messages == old(messages)
      ensures OpenChat(activeChatId).Some? ==>
        messages == LoadedMessages(Slot(chats, activeChatId.value), OpeningText(profiles, activeChatId.value), now, zone)
    {
      if OpenChat(activeChatId).None? {
        return;
      }
      var id := activeChatId.value;
      var slot := Slot(chats, id);
      if slot.Some? && slot.value.Log? && |slot.value.messages| > 0 {
        messages := Backfill(slot.value.messages, now, zone);
      } else if slot == Some(Unparsable) {
        messages := [];
      } else {
        messages := OpeningMessages(OpeningText(profiles, id), now, zone);
      }
    }

    /** Saving the list on screen into the open conversation's slot. */
    method Persist()
      modifies this`chats
      ensures OpenChat(activeChatId).None? ==> chats == old(chats)
      ensures OpenChat(activeChatId).Some? ==> chats == old(chats)[activeChatId.value := Log(messages)]
    {
      if OpenChat(activeChatId).Some? {
        chats := chats[activeChatId.value := Log(messages)];
      }
    }

    /** "Clear chat": the slot is removed and only the opening line, if
        any, stays on screen. */
    method ClearChat(profiles: map<string, ChatProfile>)
      modifies this`chats, this`messages
      ensures OpenChat(activeChatId).None? ==> chats == old(chats) && messages == old(messages)
      ensures OpenChat(activeChatId).Some? ==>
        var id := activeChatId.value;
        chats == old(chats) - {id} && messages == ClearedMessages(OpeningText(profiles, id))
    {
      if OpenChat(activeChatId).None? {
        return;
      }
      var id := activeChatId.value;
      chats := chats - {id};
      messages := ClearedMessages(OpeningText(profiles, id));
    }
  }
}

=== FILE: wrappers.dfy ===
/** Option and Result, the two failure shapes the model uses in place of
    JavaScript's `undefined`/`null` and thrown errors. */
module Wrappers {

  /** `None` stands for a value that is `undefined` or `null`. */
  datatype Option<+T> = None | Some(value: T) {
    function GetOr(default: T): T {
      match this
      case Some(v) => v
      case None => default
    }
  }

  /** A computation that either yields a value or fails with an error. */
  datatype Result<+T, +E> = Ok(value: T) | Err(error: E)
}
